=== FILE: README.md ===
# Affiliate invites, leaderboards and Quick Deal claims — a Dafny model

This project models the decision logic of a Discord bot that runs an affiliate
programme on top of Airtable. Four parts of the bot are modelled:

- **Invite attribution** (`src/affiliateInvites.js`). The bot keeps a snapshot
  of invite-use counters per guild. When a member joins, it diffs the new
  counters against the snapshot, picks the invite with the largest positive
  gain, looks up that invite's owner in the "Discord Members" table, writes the
  invitee's "Invited By" cells (write once) and appends a row to the "Invites
  Log". It also hands each member one personal invite link and reuses it on
  later requests.
- **Monthly leaderboards** (`src/leaderboards.js`). This part covers the
  `TOP_N` and `FEE` configuration, `prevMonthKey` and the carryover month
  filter, and the two rankings: invites and qualified referrals per inviter. It
  also covers the `/mystats` counters, the earnings DMs with their
  once-per-month guard, and the `tick` state machine that finalizes a month
  once the clock has moved past it.
- **Quick Deal helpers and claims** (`index.js`):
  - `fetchUpTo`, `asText`, `webhookEditUrl`
  - the partner message references stored on an order
  - `setField` on an embed
  - the claim form: Seller ID padding, VAT type, payout choice and field checks
  - the €10 deduction for sellers without the trusted role
  - the six-picture counter of a deal ticket
- **Members backfill** (`src/backfillMembers.js`). The batch size is clamped to
  1..10. Members are written in batches: each batch is split into creates and
  updates, which are sent to Airtable in requests of at most ten records.

Everything is a pure function over immutable data. Airtable tables are
sequences of rows, and a missing cell is the empty string or `None`. Discord
fetches, Airtable writes that may fail, the clock and message delivery are
parameters of the functions that need them. Each one is either a value
(`Option` for a fetch that can fail, a `bool` for a write or a lookup that can
fail) or a function (`deliver`, `sellerKnown`, `newRecordId`). In the join
handler every Airtable call, each of the three member lookups included, has
such a flag. The lookups that are not flagged elsewhere are listed under
"Left out".

Modules:

- `Wrappers`: `Option`.
- `JsText`: `trim`, `split`/`join`, `padStart`, the digit filter, `normId` and `escapeAirtableValue`.
- `Numbers`: `parseInt`, the decimal part of `Number`, and the rendering `${n}`.
- `Records`: the members table.
- `Invites`: snapshots and the diff.
- `Attribution`: the join handler and the personal invite.
- `Months`: month keys and the carryover filter.
- `Ranking`: tally, stable sort and cut.
- `Leaderboards`: boards, stats and names.
- `Monthly`: earnings DMs and `tick`.
- `QuickDeal`, `Claims` and `Tickets`: `index.js`.
- `Backfill`: the members backfill.

## Behaviour as coded

In these places the code does something other than what one might expect from
the design of the system. The model follows the code.

- A tie on the largest gain is not left unattributed. The comparison is a
  strict `>` starting from 0, so the first invite in fetch order wins
  (`Invites.TieGoesToFirstCode`).
- A join attributed to an invitee who was already attributed still appends an
  Invites Log row. Only the member row is write-once
  (`Attribution.JoinAppendsLog`, `Attribution.DuplicateJoinKeepsFirstInviter`).
- A failed member lookup reads as "no row", because each select ends in
  `.catch(() => [])`. When the lookup inside the join's `upsertMember` fails,
  the member is created again, so the table holds two rows with the same ID
  (`Attribution.FailedUpsertLookupDuplicatesRow`). When the owner lookup fails,
  the join is not attributed and nothing is written for it
  (`Attribution.FailedOwnerLookupSkipsJoin`).
- A carried-over row is not moved to the carryover month. The carryover month's
  query adds it, and its own month's query still matches it, so it counts in
  both months (`Months.CarriedRowCountsTwice`).
- Equal counts on a board keep the order in which the inviters first appear in
  the rows the query returns. That is `Map` insertion order followed by a
  stable sort, not an explicit timestamp tie-break (`Ranking.RankSpec`).
- `tick` finalizes `prevMonthKey(nowMonth)`, the month before the clock's
  month. This is not necessarily the remembered month (`Monthly.Tick`).
- The month counters of `/mystats` trim the inviter cell. The all-time counters
  match the cell exactly as it is stored (`Leaderboards.UntrimmedRowMissesAllTime`).
- `clampName` measures UTF-16 code units, so a name with emoji is cut sooner
  than its character count suggests, and the cut can split a character,
  leaving half of a surrogate pair (`Leaderboards.EmojiNameIsCutInsideACharacter`).
- `prevMonthKey` of a key past the range of `Date` (year 275760 and later) is
  `NaN-NaN`. Such a key can only come from `AFFILIATE_CARRYOVER_TO_MONTH`
  (`Months.PrevMonthKeyPastDateRange`).
- The claim reads the product name as `Product Name ?? Shopify Product Name`,
  so an empty Product Name is kept. The claim is then refused as missing
  fields (`Claims.ProductName`).

## Model

| member | source | states |
|---|---|---|
| JsText.Trim | src/affiliateInvites.js:68-70 | a normalised ID has no white space at either end, and it is empty exactly when the raw ID is all white space |
| JsText.TrimIsInfixOf | src/affiliateInvites.js:68-70 | normalising only strips white space from the two ends: the result sits inside the raw ID between a white-space prefix and a white-space suffix |
| JsText.TrimIdempotent | src/affiliateInvites.js:68-70 | normalising an already normalised ID changes nothing |
| JsText.EscapeAirtableValue | src/affiliateInvites.js:65-67 | every quote of the escaped value has a backslash just before it, exactly one character is added per quote, and a value without a quote is left as it is |
| JsText.EscapeRoundTrip | src/affiliateInvites.js:65-67 | for a value without a backslash, the literal `'<escaped value>'` read with the backslash rule gives back exactly the value and closes at the quote put after it, so a lookup by escaped value is a lookup by equality |
| JsText.TrailingBackslashOpensLiteral | src/affiliateInvites.js:65-67 | backslashes are not escaped: for the value `a\` the backslash takes the closing quote and the literal stays open |
| JsText.Split | index.js:450-453 | splitting on a character gives at least one piece, no piece contains the separator, and text without the separator is one piece |
| JsText.JoinSplit | index.js:450-453 | joining the pieces of a split with the same character gives the original text back |
| JsText.SplitJoin | index.js:348-352 | splitting pieces that were joined, none of which contains the separator, gives the pieces back |
| JsText.DigitsOnly | index.js:591 | the digit filter keeps only digits, never lengthens the input, and leaves a digit string unchanged |
| JsText.DigitsOnlyAppend | index.js:591 | the filter works piece by piece, so the input's digits are kept in their order |
| JsText.DigitsOnlyOfOne | index.js:591 | a single character is kept exactly when it is a digit |
| JsText.PadStart | index.js:594 | padding makes the text at least `n` long, keeps the original as its suffix, fills only with the pad character, and never cuts a longer text |
| JsText.ToLower | index.js:592 | lower-casing keeps the length and maps each character on its own |
| Numbers.ParseInt | src/leaderboards.js:40 | `parseInt` is NaN exactly when no digit follows the leading white space and optional sign; otherwise it is the signed value of the longest digit run |
| Numbers.ParseIntOfDigits | src/leaderboards.js:40 | `parseInt` reads back the decimal rendering of every natural number |
| Numbers.DigitsRoundTrip | src/leaderboards.js:61 | the decimal rendering of a number reads back as that number |
| Numbers.PadZeros | index.js:594 | zero-padding a digit string keeps it a digit string with the same value |
| Numbers.ClampedInt | src/backfillMembers.js:114 | the clamp of `parseInt(raw)` (or the default) to `lo..hi` always lies in `lo..hi`, is the default for unreadable input, and is the configured value when that is a non-zero value in range |
| Numbers.ParseNumber | src/leaderboards.js:41 | `Number` of a blank string is 0 |
| Records.FindByDiscordId | src/affiliateInvites.js:83-97 | the lookup returns the first row holding the ID, or none exactly when no row holds it |
| Records.FindByInviteCode | src/affiliateInvites.js:129-145 | the lookup by invite code returns the first row holding the code, or none exactly when no row holds it |
| Records.Upsert | src/affiliateInvites.js:99-111 | `upsertMember` updates the first row with the trimmed ID (username and patch) and leaves every other row alone, or appends one new row when there is none |
| Records.Create | src/affiliateInvites.js:99-111 | the create branch of `upsertMember`, also taken when its lookup failed, appends one row with the trimmed ID and the username and changes no existing row |
| Records.UpsertThenFind | src/affiliateInvites.js:99-111 | after an upsert the member is found by the trimmed ID, at the row it had or at the new last row |
| Invites.BuildSnapshot | src/affiliateInvites.js:116-120 | the snapshot holds exactly the fetched codes, each with the use count of its last occurrence, and a missing count reads as 0 |
| Invites.Refresh | src/affiliateInvites.js:113-127 | a successful refresh replaces the guild's snapshot wholesale and touches no other guild; a failed one changes nothing and reports failure |
| Invites.RefreshDropsDeletedCodes | src/affiliateInvites.js:116-120 | a code that is no longer fetched disappears from the guild's snapshot |
| Invites.PickUsedInvite | src/affiliateInvites.js:419-432 | the picked invite has a positive gain that no other invite exceeds and no earlier invite reaches; there is no pick exactly when no gain is positive |
| Invites.PickUnique | src/affiliateInvites.js:419-432 | the pick is determined by that characterisation: any invite that meets it is the one picked |
| Invites.PickIgnoresVanishedCodes | src/affiliateInvites.js:423-426 | a code only in the old snapshot has no influence on the pick |
| Invites.TieGoesToFirstCode | src/affiliateInvites.js:419-432 | on old `{A:2, B:5}` and new `{A:3, B:6}` the tie is resolved to `A`, the first code fetched |
| Invites.GuildAllowed | src/affiliateInvites.js:71-74 | with no configured guild every guild is handled; otherwise only the configured one |
| Attribution.MarkInvitedBy | src/affiliateInvites.js:462-478 | when the invitee lookup finds the row, its "Invited By" is empty and the update succeeds, that row gets exactly the inviter and the code; every other row, and every row when the lookup or the update fails, is unchanged |
| Attribution.Decide | src/affiliateInvites.js:419-457 | a join is attributed exactly when there is a pick, the pick has an owner row, and that row's trimmed Discord ID is non-blank; the inviter is that ID, and the picked code is a largest positive gain, first among equals |
| Attribution.JoinReplacesSnapshot | src/affiliateInvites.js:396-412 | after a successful fetch the guild's snapshot is the new fetch, whatever the outcome; otherwise the cache is unchanged |
| Attribution.JoinOutcomeSpec | src/affiliateInvites.js:405-449 | a join has no baseline exactly when the guild had no snapshot; otherwise its outcome is the decision on the old snapshot, the new fetch and the table as the owner lookup sees it (no rows when that lookup failed) |
| Attribution.JoinIsWriteOnce | src/affiliateInvites.js:462-478 | a join never changes the "Invited By" or "Invite Code Used" of a row whose "Invited By" was set, and never drops rows |
| Attribution.JoinAppendsLog | src/affiliateInvites.js:480-497 | the log is append-only: it gains one row for the invitee exactly when the join is attributed and the write succeeds |
| Attribution.JoinWritesInvitee | src/affiliateInvites.js:386-478 | the table after a join: an attributed join whose invitee lookup and update succeed writes the inviter and code into the invitee's first row when its "Invited By" is empty, and otherwise, or for every other row, the table is as the join's upsert left it |
| Attribution.FailedOwnerLookupSkipsJoin | src/affiliateInvites.js:129-145 | a failed owner lookup means the join is not attributed, and neither the invitee's cells nor the log are written |
| Attribution.FailedUpsertLookupDuplicatesRow | src/affiliateInvites.js:83-111 | when the lookup inside the join's `upsertMember` fails, a member who has a row gets a second row with the same ID |
| Attribution.InviterIsNonBlank | src/affiliateInvites.js:451-455 | an attributed join names a non-blank inviter |
| Attribution.DuplicateJoinKeepsFirstInviter | src/affiliateInvites.js:462-478 | when a join writes the inviter and code into the invitee's empty row, any later join leaves both cells as that first join wrote them |
| Attribution.GetOrCreateInvite | src/affiliateInvites.js:245-273 | a member whose row holds an invite URL gets that URL and code back, with the table unchanged; a failure changes neither the table nor the cache |
| Attribution.PersonalInviteIsStable | src/affiliateInvites.js:245-273 | once a request has produced a link, every later request returns the same link and writes nothing |
| Months.PrevMonth | src/leaderboards.js:57-62 | the month the `Date` arithmetic steps back to is always a month 1..12; for a well-formed key it is the calendar month before, December of the year before for a January (keys past the range of `Date` never reach it: see `Months.PrevMonthKeyPastDateRange`) |
| Months.MonthKeyRoundTrip | src/leaderboards.js:57-62 | a rendered `YYYY-MM` key reads back as the same year and month |
| Months.FormatInjective | src/leaderboards.js:57-62 | two well-formed keys render the same exactly when they are equal |
| Months.PrevMonthKeyOfFormat | src/leaderboards.js:57-62 | `prevMonthKey` of a rendered key within the range of `Date` is the rendering of the calendar month before |
| Months.PrevMonthKeyPastDateRange | src/leaderboards.js:57-62 | a well-formed key whose month starts after the last day a `Date` can hold (13 September 275760) gives `NaN-NaN` |
| Months.PrevOfNextKey | src/leaderboards.js:57-62 | the key of the following month differs from the key itself, and `prevMonthKey` maps it back |
| Months.CarriedRowCountsTwice | src/leaderboards.js:64-83 | a row of the month before the carryover month that joined after launch matches both the carryover month's filter and its own month's filter |
| Ranking.BumpCounts | src/leaderboards.js:233 | one `map.set(id, get+1)` adds one to that ID's count and leaves every other count alone |
| Ranking.Tally | src/leaderboards.js:229-238 | the count map holds each distinct key once, in first-seen order, with its number of occurrences |
| Ranking.SortDesc | src/leaderboards.js:240-241 | the sort is a permutation, ordered by count with the largest first, and stable: entries with equal counts keep their order |
| Ranking.SortedUnique | src/leaderboards.js:240-241 | two sorted lists with the same entries per count are equal, so the stable sort has exactly one possible result |
| Ranking.Take | src/leaderboards.js:242 | the cut keeps a prefix of at most `n` entries, and every entry left out counts no more than any entry kept |
| Ranking.RankSpec | src/leaderboards.js:240-246 | a board is the first `n` entries of the unique count-sorted, first-seen-stable list of distinct keys, and each line's count is that key's number of occurrences |
| Leaderboards.TopN | src/leaderboards.js:40 | `TOP_N` lies in 3..25, is 10 for unreadable or zero input, and otherwise is the configured value clamped |
| Leaderboards.TopNOfDigits | src/leaderboards.js:40 | a configured size within 3..25 is used as it is |
| Leaderboards.Fee | src/leaderboards.js:41 | the fee is never 0: a blank, zero or unreadable setting gives 5, and any other number is used as it is |
| Leaderboards.FeeOfDigits | src/leaderboards.js:41 | a configured whole-euro fee is used as it is |
| Leaderboards.MonthRows | src/leaderboards.js:64-83 | a month's query returns each log row the carryover filter accepts as many times as the log holds it, and no other row |
| Leaderboards.MonthRowsAppend | src/leaderboards.js:64-83 | the query keeps log order: on a log made of two parts it returns the first part's rows of the month, then the second's |
| Leaderboards.MonthRowsOfOne | src/leaderboards.js:64-83 | a single row is returned exactly when the filter accepts it |
| Leaderboards.CarryoverOnlyAdds | src/leaderboards.js:64-83 | the carryover settings only add rows: every row a month's plain Month Key query returns is still returned, and a month other than the carryover month gets exactly the plain query |
| Leaderboards.InviterKeys | src/leaderboards.js:229-238 | the boards count only non-blank, trimmed inviter IDs |
| Leaderboards.KeysCountRows | src/leaderboards.js:229-238 | the count the boards keep for a non-blank inviter equals a direct count of that inviter's rows, and the blank inviter has none |
| Leaderboards.QualifiedAtMostInvites | src/leaderboards.js:233-237 | per inviter, qualified referrals never exceed invites |
| Leaderboards.BoardCounts | src/leaderboards.js:223-246 | both boards hold at most `TOP_N` lines; every line names a non-blank inviter with that inviter's (qualified) row count, which is at least 1; and an affiliate's count never exceeds its invites |
| Leaderboards.EmptyBoardIff | src/leaderboards.js:254-260 | a month's two tables both show their placeholders exactly when no row of the month names an inviter |
| Leaderboards.Earned | src/leaderboards.js:252 | with a positive fee, earnings are zero exactly when there are no qualified referrals |
| Leaderboards.UserStats | src/leaderboards.js:316-338 | a user's month stats never show more qualified referrals than invites, and the earnings are the qualified count times the fee |
| Leaderboards.StatsMatchBoards | src/leaderboards.js:316-338 | for a non-blank user the month stats equal that user's counts in the boards' tallies, whether or not the user made the top `TOP_N` |
| Leaderboards.AllTime | src/leaderboards.js:340-356 | qualified ≤ invites ≤ the log's size, the earnings are the qualified count times the fee, and on a log with trimmed inviter cells the counts are the whole log's rows for the trimmed user ID |
| Leaderboards.ExactIsCountRows | src/leaderboards.js:316-356 | on trimmed inviter cells, the exact match of the all-time query and the trimmed match of the month counter count the same rows |
| Leaderboards.MonthWithinAllTime | src/leaderboards.js:316-356 | when inviter cells are stored trimmed, a month's counts never exceed the all-time counts |
| Leaderboards.UntrimmedRowMissesAllTime | src/leaderboards.js:316-356 | a row stored as `" 42"` counts for user 42 in the month stats but not in the all-time stats |
| Leaderboards.ClampName | src/leaderboards.js:104-107 | a name whose JavaScript string (UTF-16 code units) fits is unchanged; a longer one becomes exactly `max` code units, its first `max - 1` followed by an ellipsis |
| Leaderboards.ClampNameIdempotent | src/leaderboards.js:104-107 | a clamped name fits, and clamping it again changes nothing |
| Leaderboards.ClampNameOfBmp | src/leaderboards.js:104-107 | for a name without characters above U+FFFF the limit counts characters: a name that fits is kept, a longer one keeps its first `max - 1` characters before the ellipsis |
| Leaderboards.EmojiNameIsCutInsideACharacter | src/leaderboards.js:104-107 | ten emoji against the limit 18 count 20 code units and are cut after 17, leaving a lone lead surrogate before the ellipsis |
| Leaderboards.DisplayName | src/leaderboards.js:85-101 | a blank ID is shown as "Unknown"; an ID whose first row has a username is shown as that username; an ID without a row is shown as "User " and a short suffix |
| Monthly.QualifiedCounts | src/leaderboards.js:277-282 | the DM counts hold each inviter once, with that inviter's number of qualified rows in the month, at least 1 |
| Monthly.DmStep | src/leaderboards.js:284-311 | one iteration sends a DM exactly when the inviter's row exists, does not already hold the month, and the DM is delivered; only that row's month cell can change, and a recorded delivery marks it |
| Monthly.DmLoopSends | src/leaderboards.js:284-312 | over distinct inviters, a DM goes to exactly those with a row that does not hold the month and a delivery that succeeds |
| Monthly.GuardSkipsSentMonth | src/leaderboards.js:296 | a member whose row already holds the month is never sent that month's DM |
| Monthly.DmsIdempotent | src/leaderboards.js:265-313 | when every delivery and row update succeeds, running the month's DMs a second time sends nothing |
| Monthly.FailedDmIsRetried | src/leaderboards.js:298-311 | an inviter whose DM failed is not marked, and the next run sends the DM |
| Monthly.Tick | src/leaderboards.js:419-468 | without the guild or both channels a tick does nothing; otherwise it remembers the clock's month and rebuilds its board; it finalizes exactly when a different month was remembered, the month it finalizes is the one before the clock's, winners are posted only for a finalized month, and then the member table and the DMs are exactly those of the earnings job for the month before the clock's; without a post no DM is sent |
| Monthly.FirstTickNeverFinalizes | src/leaderboards.js:431-452 | the first tick after start-up finalizes nothing, posts no winners, sends no DM and leaves the member table as it was |
| Monthly.SameMonthNeverFinalizes | src/leaderboards.js:431-452 | a second tick in the same month finalizes nothing |
| Monthly.AnnouncesIffRows | src/leaderboards.js:442-449 | a finalized month is announced, and its DMs sent, exactly when it has a row naming an inviter |
| Monthly.RolloverFinalizesEndedMonth | src/leaderboards.js:429-433 | when the clock moves into the next month, the month just ended is finalized |
| Claims.SellerId | index.js:591-594 | a Seller ID is `SE-` followed by only digits, and has at least five digits and no more digits than were typed, unless fewer than five were typed |
| Claims.SellerIdValue | index.js:591-594 | the Seller ID ends with the digits typed and has the same numeric value |
| Claims.SellerIdIdempotent | index.js:591-594 | typing a Seller ID that the form produced gives the same Seller ID |
| Claims.SellerIdOfNumber | index.js:594 | seller numbers below 100000 are written with exactly five digits and keep their value |
| Claims.ParseVatName | index.js:592-602 | every VAT type name the bot stores is accepted back by the form as the same type |
| Claims.Payout | index.js:624-627 | a VAT0 seller is paid the VAT 0% price and every other seller the margin price |
| Claims.ProductName | index.js:618 | a present Product Name is used even when empty; only an absent one falls back to the Shopify name |
| Claims.FinalSku | index.js:620-622 | the trimmed SKU is used when non-blank, and the trimmed soft SKU otherwise |
| Claims.SubmitClaim | index.js:589-634 | an unknown VAT spelling is refused first, then an unknown Seller ID; an accepted claim has a known Seller ID, all order fields present, and a finite positive payout from the right price column, and it stores exactly the normalised Seller ID, the VAT type, the order ID, `ProductName` and `FinalSku` of the order; a claim refused for its fields really lacks one |
| Claims.CompleteClaimAccepted | index.js:604-634 | a claim with every field present and a positive price for its VAT type is accepted as exactly the claim of the normalised Seller ID, the VAT type, the order's ID, product name and SKU, and that price, whatever the other column holds |
| Claims.TrustedDeduction | index.js:1078-1093 | a seller without the configured trusted role is charged a 10 deduction and paid the rest, floored at 0; otherwise the payout is unchanged |
| Claims.DeductionBounds | index.js:1084-1089 | the final payout lies between 0 and the payout, and drops by at most the deduction |
| QuickDeal.AsText | index.js:131-145 | an absent cell, an empty array or an array starting with null reads as empty; a primitive reads as itself, also as an array's first element |
| QuickDeal.AsTextReadsFirstOnly | index.js:133-143 | only the first element of an array cell is read |
| QuickDeal.AsTextOfObject | index.js:137-141 | an object element reads as its `text`, else its `name`, else its `value`, else `[object Object]` |
| QuickDeal.BeforeQuery | index.js:172 | the base URL is the prefix up to the first `?` and contains none |
| QuickDeal.StripSlash | index.js:172 | at most one trailing slash is removed, and a trailing slash always is |
| QuickDeal.WebhookEditUrl | index.js:169-174 | the edit URL ends with `/messages/` and the message ID |
| QuickDeal.EditUrlShape | index.js:169-174 | in front of the message suffix the edit URL holds a `?`-free prefix of the webhook URL; what the prefix leaves out is nothing, a query, or the single trailing slash with an optional query after it |
| QuickDeal.EditUrlIgnoresQueryAndSlash | index.js:169-174 | a webhook URL with a query, a trailing slash, or both gives the same edit URL as the bare URL |
| QuickDeal.RefTokens | index.js:450-453 | the stored reference list is read as non-blank, trimmed, comma-free tokens |
| QuickDeal.NonEmptyTrimmedAppend | index.js:450-453 | trimming and dropping blank pieces works piece by piece: the pieces of `a + b` give the tokens of `a` followed by those of `b` |
| QuickDeal.NonEmptyTrimmedOfOne | index.js:450-453 | a piece gives no token when it trims to blank, and otherwise its trimmed text |
| QuickDeal.ParseRef | index.js:459-461 | a reference read from a token has non-empty partner and message IDs, neither containing a colon, and a token without a colon yields none |
| QuickDeal.ParseRefSpec | index.js:459-461 | a token yields no reference exactly when it has no colon, starts with one, or has nothing between its first colon and the next colon or the end |
| QuickDeal.ParseRefReadsFirstParts | index.js:459-461 | the IDs read are the token's first two `:`-separated parts: the token begins with `partnerId:messageId`, followed by its end or another colon |
| QuickDeal.ParsePartnerRefs | index.js:450-461 | every reference read back has a non-empty partner ID and message ID |
| QuickDeal.ParseTokensAppend | index.js:459-461 | the tokens are read one by one: an unparsable token is skipped and the tokens after it are still read |
| QuickDeal.ParseTokensOfOne | index.js:459-461 | one token gives its reference when `ParseRef` accepts it, and nothing otherwise |
| QuickDeal.PartnerRefsCons | index.js:450-461 | the stored text is read piece by piece at its commas: a piece before a comma gives its own tokens and references, followed by those of the rest |
| QuickDeal.PartnerRefsOfPiece | index.js:450-461 | a comma-free piece gives its trimmed text as its one token unless blank, and a reference exactly when `ParseRef` accepts that token |
| QuickDeal.PartnerRefsRoundTrip | index.js:450-461 | references written as `partner:message` joined with commas read back as the same references in the same order, provided the IDs have no `,` or `:` and no outer white space |
| QuickDeal.SetField | index.js:408-413 | after `setField` the field reads as the new value (empty for null), every other field reads as before, and a field is appended only when none had that name |
| QuickDeal.SetFieldLeavesOthers | index.js:408-413 | every field but the first one with that name is left exactly as it was, and an appended field carries the name, the value (empty for null) and the given `inline` |
| QuickDeal.SetFieldIdempotent | index.js:408-413 | setting the same field to the same value twice is the same as setting it once |
| QuickDeal.SetIfGiven | index.js:415-416 | a payout field is set when a value is given and left as it was otherwise; other fields are untouched |
| QuickDeal.UpdatePayoutFieldsSpec | index.js:415-419 | the update-embed route sets the payout fields it was given, always sets Time to Max Payout (`-` when missing or empty), and leaves every other field as it was |
| Tickets.FetchPage | index.js:116-119 | a page holds at most `limit` messages, taken in order from just past the cursor, and is short only at the end of the history |
| Tickets.FetchUpTo | index.js:110-129 | the collected messages are the newest part of the history and never more than `max`; when every message has an ID they are exactly the newest `max`, or all of them; every page asks for 1 to 100 |
| Tickets.ImageUrls | index.js:1191-1193 | at most one URL is kept per attachment (with the three lemmas below, the result is exactly the image attachments' URLs in order) |
| Tickets.ImageUrlsAllOrNone | index.js:1191-1193 | when every attachment is an image, all their URLs are kept in order; when none is, nothing is kept |
| Tickets.ImageUrlsAppend | index.js:1191-1193 | the filter keeps attachment order: on two lists it keeps the first list's image URLs, then the second's |
| Tickets.ImageUrlsOfOne | index.js:1191-1193 | one attachment contributes its URL exactly when its content type starts with `image/` |
| Tickets.OnPost | index.js:1189-1217 | a post adds its image URLs to the ticket; the confirm prompt is sent exactly when the ticket first reaches six pictures; the `n/6` progress line, with the new count, goes out exactly when a post with attachments comes from a non-bot and the count is below six, and no other progress line is sent; at most one notice goes out per post |
| Tickets.RunSpec | index.js:1189-1217 | over any sequence of posts the ticket's uploads are the earlier ones followed by the URL of every image posted, in order; the prompt is sent at most once, and only if not sent before |
| Tickets.PromptOnceSixPictures | index.js:1195-1217 | from a fresh ticket the prompt has gone out exactly when six pictures have come in, and at most once |
| Backfill.BatchSize | src/backfillMembers.js:114 | the batch size lies in 1..10, is 10 for unreadable or zero input, and is the configured value when that is in range |
| Backfill.PayloadOf | src/backfillMembers.js:121-133 | a member's payload carries its ID and display name, and its tag, or its username when there is no tag |
| Backfill.Chunk | src/backfillMembers.js:118-119 | the chunks put back together are the input; none is empty or larger than the size, and only the last may be smaller |
| Backfill.Lookup | src/backfillMembers.js:48-58 | a payload's row is found by the payload's trimmed ID, or there is none exactly when no row has that ID |
| Backfill.PlanSound | src/backfillMembers.js:66-73 | every planned create is a payload without a row, and every planned update names the row its payload is found at, with that row's record ID |
| Backfill.PlanCovers | src/backfillMembers.js:66-73 | no payload is lost: one without a row is created, and one with a row becomes an update of that row |
| Backfill.PlanFromPayloads | src/backfillMembers.js:66-73 | nothing is planned that was not asked for |
| Backfill.SendInChunks | src/backfillMembers.js:75-91 | the create requests together carry exactly the creates, and the update requests the updates, in order, with 1 to 10 records per request |
| Backfill.UpsertBatch | src/backfillMembers.js:60-92 | a batch sends its plan in requests of at most ten records and leaves the table with the creates appended and the updates applied |
| Backfill.FoundAfterBatch | src/backfillMembers.js:60-92 | after its batch, every payload whose ID is already trimmed has a row |
| Backfill.WriteAll | src/backfillMembers.js:116-141 | the member loop processes every member, keeps the existing rows' IDs, leaves every trimmed member ID findable, and never sends more than ten records in one request |
| Backfill.Run | src/backfillMembers.js:114-141 | the backfill with its clamped batch size processes every member, keeps existing rows, makes every trimmed member ID findable, and stays within ten records per request |

## Left out

- Discord and Airtable I/O, logging, `sleep` delays, the Express routes and
  embed formatting. The outcome of each fetch and write is a parameter
  instead, except for the lookups named in the lines below.
- Attribution.GetOrCreateInvite: its member lookup and the lookup inside its
  `upsertMember` are taken to answer, and the upsert to succeed. In the source
  a failed lookup reads as "no row", so a new invite is created, and a second
  row can be appended. `Attribution.PersonalInviteIsStable` holds only when the
  lookups answer.
- `monthKeyAmsterdam`: the clock's month key is an input of `tick` (time zones
  are not modelled).
- Timers, the `setInterval` scheduling of `tick`, and the concurrency between
  joins. Each handler is one atomic transition.
- The Airtable formula strings themselves. `monthFilterFormula` is modelled as
  the predicate `Months.InMonth`, and each lookup as a search of the table for
  the value itself. `JsText.EscapeRoundTrip` shows that the escaped literal
  reads back as the value when the value has no backslash.
- JsText.EscapeRoundTrip: Airtable's formula grammar is not part of this
  model. Literals are read with the usual backslash rule, and under it the
  round trip holds only for values without a backslash, because the code
  escapes quotes but not backslashes (`JsText.TrailingBackslashOpensLiteral`).
  Discord IDs and invite codes hold no backslash.
- Strings are sequences of Unicode characters, while JavaScript measures them
  in UTF-16 code units. `clampName`, which measures display names, is modelled
  in code units. The other lengths and slices are of IDs, invite codes, URLs,
  month keys and digits, where the two agree unless a character above U+FFFF
  occurs.
- `src/hubMessages.js` and the rest of `index.js`: partner webhook posting,
  channel creation, the `!finish` flow beyond the trusted deduction, and
  `getActiveQuickDealPartners`. None of these is part of this model.
- The optional link-field cells that the join handler adds to the member
  update and the log row (`AIRTABLE_*_LINK_*`). They do not affect any decision.
- `AI_READY` and the ready-time cache seeding. Their effect is covered by
  `Invites.Refresh` and by the `NoBaseline` outcome.
- JsText.ToLower: lower-cases the ASCII letters only. This is enough for the
  VAT spellings the form accepts, but other Unicode case mappings are left out.
- Numbers.ParseNumber: reads only white space, an optional sign and decimal
  digits with an optional fraction. Hexadecimal, exponent, `Infinity` and other
  `Number` forms read as NaN here.
- Months.PartNumber: reads only unsigned digit strings, so a signed or
  fractional key part gives `NaN-NaN` in the model where `Number` would read
  it.
- Claims.PriceOf: the price cells are taken to be numbers, or absent. The
  `Number` conversion of a text cell is not modelled.
- Leaderboards.DisplayName: leaves out the name cache and a failing lookup
  (`.catch(() => [])`), which gives the `User ` fallback.
- Leaderboards.EmptyBoard: `isEmptyMonth` tests the rendered tables for the
  placeholder texts. The model treats a month as empty when both rankings are
  empty. A user name that contains both placeholder phrases is not modelled.
- Monthly.Tick: the pinned leaderboard message and the winners post are
  reported as values (`announced`, `live`), not sent. A failing
  `buildLeaderboardsForMonth` query is not modelled.
- Monthly.SendEarningsDms: a failing Invites Log query or member lookup
  (`.catch(() => [])`) is not modelled. A lookup that finds no row is modelled.
- Tickets.OnPost: the `ORD-` channel-name check and the order lookup that
  fills `sellerMap` are left out. The handler is modelled per ticket channel.
- Tickets.FetchUpTo: the history is taken as listed newest first, which is how
  Discord pages with `before`.
- Backfill.UpsertBatch: assumes that every create and update request
  succeeds, and that every lookup answers. The source swallows failures with
  `.catch`, and a failed lookup turns an update into a create.
- Backfill.ApplyUpdates: the source's `update` sends the whole payload. The
  Discord Display Name cell is not part of `Records.Member`, so it is not
  written. The Discord User ID cell is written as the payload's ID, untrimmed;
  the model keeps the row's ID, which is the same value whenever the member's
  ID is already trimmed, as Discord user IDs are. The
  `processed % 100` progress log is left out.
- Claims.TrustedDeduction: a failing member fetch is modelled as "no roles
  known", which means no deduction, as in the source's `catch`.

=== FILE: attribution.dfy ===
/** The member-join handler of src/affiliateInvites.js (`GuildMemberAdd`) and
    the personal-invite request (`getOrCreatePersonalInvite`), as pure
    transitions over the invite cache, the members table and the invites log.
    Every store call that the source wraps in `.catch` is an explicit success
    flag of the event. */
module Attribution {
  import opened Wrappers
  import opened JsText
  import opened Records
  import opened Invites

  /** A row of the "Invites Log" table. */
  datatype LogRow = LogRow(invitee: string, inviter: string, code: string, joinedAt: int)

  datatype State = State(cache: InviteCache, members: seq<Member>, log: seq<LogRow>)

  /** Everything a join depends on that comes from outside: the joining user, the
      clock, the live invite fetch (`None` when it failed), whether each of the
      three member lookups answered (a failed one reads as "no row") and the
      outcome of each Airtable write. */
  datatype JoinEvent = JoinEvent(
    guildId: string,
    userId: string,
    userTag: string,
    now: int,
    fetched: Option<seq<FetchedInvite>>,
    newRecordId: string,   // id Airtable gives a newly created member row
    upsertLookupOk: bool,  // the lookup inside upsertMember(join) answered
    upsertOk: bool,        // upsertMember(join) succeeded
    ownerLookupOk: bool,   // findMemberRecordByInviteCode answered
    inviteeLookupOk: bool, // findMemberRecordByDiscordId(invitee) answered
    updateOk: bool,        // invitee "Invited By" update succeeded
    logOk: bool            // Invites Log create succeeded
  )

  datatype Outcome =
    | GuildNotAllowed
    | FetchFailed
    | NoBaseline
    | NoUsableDelta
    | UnknownOwner(code: string)     // no owner row, or an owner row without a Discord ID
    | Attributed(code: string, inviter: string)

  /** The owner row of an invite code (`findMemberRecordByInviteCode`): a blank
      code has no owner. */
  function OwnerOf(members: seq<Member>, code: string): Option<nat> {
    var c := Trim(code);
    if c == "" then None else FindByInviteCode(members, c)
  }

  /** The rows a lookup can see: all of them, or none when the select failed and
      its `.catch` returned `[]`. */
  function Visible(members: seq<Member>, lookupOk: bool): seq<Member> {
    if lookupOk then members else []
  }

  /** The write-once update of the invitee's "Invited By" and "Invite Code Used"
      cells: made only when the invitee lookup finds the row, its "Invited By"
      cell is empty and the update (`ok`) goes through. */
  function MarkInvitedBy(members: seq<Member>, inviteeId: string, inviter: string, code: string,
                         lookupOk: bool, ok: bool)
    : (r: seq<Member>)
    ensures |r| == |members|
    ensures forall i | 0 <= i < |members| ::
              r[i].recordId == members[i].recordId && r[i].discordId == members[i].discordId
              && r[i].inviteCode == members[i].inviteCode && r[i].lastEarningsDm == members[i].lastEarningsDm
    ensures forall i | 0 <= i < |members| && members[i].invitedBy != "" :: r[i] == members[i]
    ensures !(lookupOk && ok) ==> r == members
    ensures forall i | 0 <= i < |members| && FindByDiscordId(members, inviteeId) != Some(i) :: r[i] == members[i]
    ensures var k := FindByDiscordId(members, inviteeId);
            k.Some? && lookupOk && ok && members[k.value].invitedBy == "" ==>
              r[k.value] == members[k.value].(invitedBy := inviter, inviteCodeUsed := code)
  {
    if !lookupOk then members
    else match FindByDiscordId(members, inviteeId)
      case Some(i) =>
        if ok && members[i].invitedBy == "" then
          members[i := members[i].(invitedBy := inviter, inviteCodeUsed := code)]
        else members
      case None => members
  }

  /** The decision after a baseline exists: the picked invite (first largest
      positive delta), then its owner row, whose trimmed Discord ID must be
      non-empty. */
  function Decide(prev: Snapshot, f: seq<FetchedInvite>, members: seq<Member>): (out: Outcome)
    ensures out.NoUsableDelta? || out.UnknownOwner? || out.Attributed?
    ensures out.NoUsableDelta? <==> forall j | 0 <= j < |f| :: Delta(prev, f[j]) <= 0
    ensures !out.NoUsableDelta? ==>
              var k := PickUsedInvite(f, prev).value;
              && out.code == f[k].code
              && Delta(prev, f[k]) > 0
              && (forall j | 0 <= j < |f| :: Delta(prev, f[j]) <= Delta(prev, f[k]))
              && (forall j | 0 <= j < k :: Delta(prev, f[j]) < Delta(prev, f[k]))
    ensures out.Attributed? <==>
              && PickUsedInvite(f, prev).Some?
              && OwnerOf(members, out.code).Some?
              && NormId(members[OwnerOf(members, out.code).value].discordId) != ""
    ensures out.Attributed? ==>
              && out.inviter == NormId(members[OwnerOf(members, out.code).value].discordId)
              && members[OwnerOf(members, out.code).value].inviteCode == Trim(out.code)
  {
    match PickUsedInvite(f, prev)
    case None => NoUsableDelta
    case Some(k) =>
      var code := f[k].code;
      match OwnerOf(members, code)
      case None => UnknownOwner(code)
      case Some(o) =>
        var inviter := NormId(members[o].discordId);
        if inviter == "" then UnknownOwner(code) else Attributed(code, inviter)
  }

  /** The members table after the join's `upsertMember` call: unchanged when the
      write failed, an upsert when the call's own lookup answered, and otherwise
      a create, which gives a member who already has a row a second one. */
  function JoinUpsert(members: seq<Member>, ev: JoinEvent): seq<Member> {
    if !ev.upsertOk then members
    else if ev.upsertLookupOk then Upsert(members, ev.userId, ev.userTag, JoinedAt(ev.now), ev.newRecordId)
    else Create(members, ev.userId, ev.userTag, JoinedAt(ev.now), ev.newRecordId)
  }

  /** The `GuildMemberAdd` handler: upsert the joining member, fetch, replace the
      snapshot, then decide; an attribution writes the invitee's cells (write
      once) and appends a log row. */
  function OnJoin(allowedGuild: string, st: State, ev: JoinEvent): (r: (State, Outcome))
  {
    if !GuildAllowed(allowedGuild, ev.guildId) then (st, GuildNotAllowed)
    else
      var members := JoinUpsert(st.members, ev);
      match ev.fetched
      case None => (st.(members := members), FetchFailed)
      case Some(f) =>
        var cache := st.cache[ev.guildId := BuildSnapshot(f)];
        if ev.guildId !in st.cache then (State(cache, members, st.log), NoBaseline)
        else
          var out := Decide(st.cache[ev.guildId], f, Visible(members, ev.ownerLookupOk));
          if !out.Attributed? then (State(cache, members, st.log), out)
          else
            var inviteeId := NormId(ev.userId);
            var members2 := MarkInvitedBy(members, inviteeId, out.inviter, out.code, ev.inviteeLookupOk, ev.updateOk);
            var log := if ev.logOk then st.log + [LogRow(inviteeId, out.inviter, out.code, ev.now)] else st.log;
            (State(cache, members2, log), out)
  }

  /** What a join does to the invite cache: after any fetch that succeeded the
      guild's snapshot is exactly the new fetch (no merge), even when the join
      could not be attributed; otherwise the cache is untouched. */
  lemma JoinReplacesSnapshot(allowedGuild: string, st: State, ev: JoinEvent)
    ensures var r := OnJoin(allowedGuild, st, ev);
            if r.1.GuildNotAllowed? || r.1.FetchFailed? then r.0.cache == st.cache
            else r.0.cache == st.cache[ev.guildId := BuildSnapshot(ev.fetched.value)]
  {
    if GuildAllowed(allowedGuild, ev.guildId) && ev.fetched.Some? {
      var cache := st.cache[ev.guildId := BuildSnapshot(ev.fetched.value)];
      assert OnJoin(allowedGuild, st, ev).0.cache == cache;
    }
  }

  /** The outcome of a join when the guild is allowed and the fetch succeeded:
      no baseline exactly when the guild had no snapshot, and otherwise the
      decision on the old snapshot, the new fetch and the upserted table as the
      owner lookup sees it. */
  lemma JoinOutcomeSpec(allowedGuild: string, st: State, ev: JoinEvent)
    requires GuildAllowed(allowedGuild, ev.guildId) && ev.fetched.Some?
    ensures var out := OnJoin(allowedGuild, st, ev).1;
            && (out.NoBaseline? <==> ev.guildId !in st.cache)
            && (ev.guildId in st.cache ==>
                  out == Decide(st.cache[ev.guildId], ev.fetched.value, Visible(JoinUpsert(st.members, ev), ev.ownerLookupOk)))
  {
    var members := JoinUpsert(st.members, ev);
    if ev.guildId in st.cache {
      var out := Decide(st.cache[ev.guildId], ev.fetched.value, Visible(members, ev.ownerLookupOk));
      assert OnJoin(allowedGuild, st, ev).1 == out;
    }
  }

  /** First attribution wins: a join never changes the "Invited By" or "Invite
      Code Used" cell of a member row whose "Invited By" was already set, and it
      never reorders or drops rows. */
  lemma JoinIsWriteOnce(allowedGuild: string, st: State, ev: JoinEvent, i: nat)
    requires i < |st.members| && st.members[i].invitedBy != ""
    ensures var st2 := OnJoin(allowedGuild, st, ev).0;
            && |st2.members| >= |st.members|
            && st2.members[i].invitedBy == st.members[i].invitedBy
            && st2.members[i].inviteCodeUsed == st.members[i].inviteCodeUsed
  {
    if GuildAllowed(allowedGuild, ev.guildId) {
      var members := JoinUpsert(st.members, ev);
      UpsertKeepsInvitedBy(st.members, ev, i);
      if ev.fetched.Some? && ev.guildId in st.cache {
        var out := Decide(st.cache[ev.guildId], ev.fetched.value, Visible(members, ev.ownerLookupOk));
        if out.Attributed? {
          var m2 := MarkInvitedBy(members, NormId(ev.userId), out.inviter, out.code, ev.inviteeLookupOk, ev.updateOk);
          assert OnJoin(allowedGuild, st, ev).0.members == m2;
        } else {
          assert OnJoin(allowedGuild, st, ev).0.members == members;
        }
      }
    }
  }

  /** The join's upsert touches only the username and Joined At of a row. */
  lemma UpsertKeepsInvitedBy(members: seq<Member>, ev: JoinEvent, i: nat)
    requires i < |members|
    ensures var m := JoinUpsert(members, ev);
            |m| >= |members| && m[i].invitedBy == members[i].invitedBy
            && m[i].inviteCodeUsed == members[i].inviteCodeUsed
  {
  }

  /** The invites log is append-only: a join keeps every existing row and appends
      one row, for the attributed invitee, exactly when it attributes the join
      and the log write succeeds. */
  lemma JoinAppendsLog(allowedGuild: string, st: State, ev: JoinEvent)
    ensures var r := OnJoin(allowedGuild, st, ev);
            if r.1.Attributed? && ev.logOk then
              r.0.log == st.log + [LogRow(NormId(ev.userId), r.1.inviter, r.1.code, ev.now)]
            else r.0.log == st.log
  {
    if GuildAllowed(allowedGuild, ev.guildId) && ev.fetched.Some? && ev.guildId in st.cache {
      var members := JoinUpsert(st.members, ev);
      var out := Decide(st.cache[ev.guildId], ev.fetched.value, Visible(members, ev.ownerLookupOk));
      var r := OnJoin(allowedGuild, st, ev);
      assert r.1 == out;
      if out.Attributed? && ev.logOk {
        assert r.0.log == st.log + [LogRow(NormId(ev.userId), out.inviter, out.code, ev.now)];
      } else {
        assert r.0.log == st.log;
      }
    }
  }

  /** The members table after a join. A join that is not attributed leaves the
      table as its upsert left it. An attributed join whose invitee lookup and
      update both go through writes the inviter and the code into the invitee's
      first row when that row's "Invited By" is empty; every other row stays as
      the upsert left it. */
  lemma JoinWritesInvitee(allowedGuild: string, st: State, ev: JoinEvent)
    ensures var r := OnJoin(allowedGuild, st, ev);
            var m := JoinUpsert(st.members, ev);
            var k := FindByDiscordId(m, NormId(ev.userId));
            var writes := r.1.Attributed? && ev.inviteeLookupOk && ev.updateOk && k.Some? && m[k.value].invitedBy == "";
            && (r.1.GuildNotAllowed? ==> r.0.members == st.members)
            && (!r.1.GuildNotAllowed? && !writes ==> r.0.members == m)
            && (writes ==> r.0.members == m[k.value := m[k.value].(invitedBy := r.1.inviter, inviteCodeUsed := r.1.code)])
  {
    if GuildAllowed(allowedGuild, ev.guildId) && ev.fetched.Some? && ev.guildId in st.cache {
      var m := JoinUpsert(st.members, ev);
      var out := Decide(st.cache[ev.guildId], ev.fetched.value, Visible(m, ev.ownerLookupOk));
      var r := OnJoin(allowedGuild, st, ev);
      assert r.1 == out;
      if out.Attributed? {
        var m2 := MarkInvitedBy(m, NormId(ev.userId), out.inviter, out.code, ev.inviteeLookupOk, ev.updateOk);
        assert r.0.members == m2;
        var k := FindByDiscordId(m, NormId(ev.userId));
        if ev.inviteeLookupOk && ev.updateOk && k.Some? && m[k.value].invitedBy == "" {
          assert m2 == m[k.value := m[k.value].(invitedBy := out.inviter, inviteCodeUsed := out.code)];
        }
      } else {
        assert r.0.members == m;
      }
    }
  }

  /** A failed owner lookup reads as "no owner": the join is not attributed, and
      it writes neither the invitee's cells nor a log row. */
  lemma FailedOwnerLookupSkipsJoin(allowedGuild: string, st: State, ev: JoinEvent)
    requires !ev.ownerLookupOk
    ensures var r := OnJoin(allowedGuild, st, ev);
            && !r.1.Attributed?
            && r.0.log == st.log
            && r.0.members == (if r.1.GuildNotAllowed? then st.members else JoinUpsert(st.members, ev))
  {
    JoinWritesInvitee(allowedGuild, st, ev);
    JoinAppendsLog(allowedGuild, st, ev);
  }

  /** When the lookup inside the join's `upsertMember` fails, a member who already
      has a row is created again: the table then holds two rows with the ID. */
  lemma FailedUpsertLookupDuplicatesRow(members: seq<Member>, ev: JoinEvent)
    requires ev.upsertOk && !ev.upsertLookupOk
    requires FindByDiscordId(members, NormId(ev.userId)).Some?
    ensures var m := JoinUpsert(members, ev);
            var k := FindByDiscordId(members, NormId(ev.userId)).value;
            && |m| == |members| + 1 && k < |members|
            && m[k].discordId == NormId(ev.userId) && m[|members|].discordId == NormId(ev.userId)
  {
    var m := JoinUpsert(members, ev);
    var k := FindByDiscordId(members, NormId(ev.userId)).value;
    assert m[k] == m[..|members|][k];
  }

  /** The first attribution sticks: when a join attributes its invitee and writes
      the inviter and code into the invitee's empty row, any later join, for
      whatever member and whatever invite, leaves both cells as written (while
      the source still logs a second row for a duplicate join). */
  lemma DuplicateJoinKeepsFirstInviter(allowedGuild: string, st: State, ev1: JoinEvent, ev2: JoinEvent)
    requires var r1 := OnJoin(allowedGuild, st, ev1);
             var m := JoinUpsert(st.members, ev1);
             var k := FindByDiscordId(m, NormId(ev1.userId));
             && r1.1.Attributed? && ev1.inviteeLookupOk && ev1.updateOk
             && k.Some? && m[k.value].invitedBy == ""
    ensures var r1 := OnJoin(allowedGuild, st, ev1);
            var k := FindByDiscordId(JoinUpsert(st.members, ev1), NormId(ev1.userId)).value;
            var st2 := OnJoin(allowedGuild, r1.0, ev2).0;
            && k < |st2.members|
            && st2.members[k].invitedBy == r1.1.inviter
            && st2.members[k].inviteCodeUsed == r1.1.code
  {
    var r1 := OnJoin(allowedGuild, st, ev1);
    var m := JoinUpsert(st.members, ev1);
    var k := FindByDiscordId(m, NormId(ev1.userId)).value;
    JoinWritesInvitee(allowedGuild, st, ev1);
    assert r1.1.inviter != "" by { InviterIsNonBlank(allowedGuild, st, ev1); }
    assert r1.0.members[k].invitedBy == r1.1.inviter;
    JoinIsWriteOnce(allowedGuild, r1.0, ev2, k);
  }

  /** An attributed join names a non-blank inviter. */
  lemma InviterIsNonBlank(allowedGuild: string, st: State, ev: JoinEvent)
    requires OnJoin(allowedGuild, st, ev).1.Attributed?
    ensures OnJoin(allowedGuild, st, ev).1.inviter != ""
  {
    var m := JoinUpsert(st.members, ev);
    var out := Decide(st.cache[ev.guildId], ev.fetched.value, Visible(m, ev.ownerLookupOk));
    assert OnJoin(allowedGuild, st, ev).1 == out;
  }

  // ---------------------------------------------------------------------------
  // getOrCreatePersonalInvite

  datatype InviteError = ChannelNotFound | CreateFailed

  datatype PersonalInviteResult = PersonalInviteResult(
    cache: InviteCache,
    members: seq<Member>,
    link: Result)

  datatype Result = Link(url: string, code: string) | Failed(err: InviteError)

  /** `getOrCreatePersonalInvite`: a member whose row already holds an Invite URL
      gets that URL and code back, with only the cache refreshed; otherwise a new
      invite (`created`, `None` when Discord refused) is stored on the member's
      row through `upsertMember` and the cache is refreshed. */
  function GetOrCreateInvite(
    cache: InviteCache, members: seq<Member>, guildId: string, userId: string, userTag: string,
    channelOk: bool, created: Option<(string, string)>, now: int, newRecordId: string,
    fetched: Option<seq<FetchedInvite>>): (r: PersonalInviteResult)
    ensures var found := FindByDiscordId(members, NormId(userId));
            found.Some? && members[found.value].inviteUrl != "" ==>
              && r.members == members
              && r.link == Link(members[found.value].inviteUrl, members[found.value].inviteCode)
    ensures r.link.Failed? ==> r.members == members && r.cache == cache
  {
    var found := FindByDiscordId(members, NormId(userId));
    if found.Some? && members[found.value].inviteUrl != "" then
      var rec := members[found.value];
      PersonalInviteResult(Refresh(cache, guildId, fetched).0, members, Link(rec.inviteUrl, rec.inviteCode))
    else if !channelOk then PersonalInviteResult(cache, members, Failed(ChannelNotFound))
    else match created
      case None => PersonalInviteResult(cache, members, Failed(CreateFailed))
      case Some((code, url)) =>
        var members2 := Upsert(members, userId, userTag, Records.PersonalInvite(code, url, now), newRecordId);
        PersonalInviteResult(Refresh(cache, guildId, fetched).0, members2, Link(url, code))
  }

  /** A member's invite never changes: once a request has produced a link, every
      later request returns the same URL and code and creates nothing. */
  lemma PersonalInviteIsStable(
    cache: InviteCache, members: seq<Member>, guildId: string, userId: string, userTag: string,
    channelOk: bool, created: Option<(string, string)>, now: int, newRecordId: string,
    fetched: Option<seq<FetchedInvite>>,
    channelOk2: bool, created2: Option<(string, string)>, now2: int, newRecordId2: string,
    fetched2: Option<seq<FetchedInvite>>)
    requires created.Some? ==> created.value.1 != ""
    ensures var r1 := GetOrCreateInvite(cache, members, guildId, userId, userTag, channelOk, created, now, newRecordId, fetched);
            var r2 := GetOrCreateInvite(r1.cache, r1.members, guildId, userId, userTag, channelOk2, created2, now2, newRecordId2, fetched2);
            r1.link.Link? ==> r2.link == r1.link && r2.members == r1.members
  {
    var id := NormId(userId);
    var r1 := GetOrCreateInvite(cache, members, guildId, userId, userTag, channelOk, created, now, newRecordId, fetched);
    var found := FindByDiscordId(members, id);
    if !(found.Some? && members[found.value].inviteUrl != "") && channelOk && created.Some? {
      var (code, url) := created.value;
      UpsertThenFind(members, userId, userTag, Records.PersonalInvite(code, url, now), newRecordId);
      var f2 := FindByDiscordId(r1.members, id);
      assert f2.Some? && r1.members[f2.value].inviteUrl == url && r1.members[f2.value].inviteCode == code;
    }
  }
}

=== FILE: backfill.dfy ===
/** The one-off members backfill of src/backfillMembers.js: every member of the
    affiliate guild is written to the "Discord Members" table, in batches of a
    configurable size. Within a batch each member is looked up by trimmed ID;
    found rows are updated, the others created, and both lists go to the store
    in requests of at most ten records. */
module Backfill {
  import opened Wrappers
  import opened JsText
  import opened Numbers
  import opened Records

  /** A guild member as the backfill reads it; a missing tag or display name is
      the empty string. */
  datatype GuildMember = GuildMember(userId: string, tag: string, username: string, displayName: string)

  /** The cells written for one member: Discord User ID, Discord Username and
      Discord Display Name. */
  datatype Payload = Payload(userId: string, username: string, displayName: string)

  /** An update of an existing row: its record ID, the position of that row in
      the table (record IDs are unique, so the two name the same row), and the
      new cells. */
  datatype Update = Update(recordId: string, row: nat, fields: Payload)

  /** One call to the store: `create` with new rows or `update` of found ones. */
  datatype Request = Create(creates: seq<Payload>) | Modify(updates: seq<Update>)

  /** The store accepts at most this many records per create or update call. */
  const AirtableMaxRecords: nat := 10

  function RequestSize(q: Request): nat {
    match q
    case Create(c) => |c|
    case Modify(u) => |u|
  }

  /** No request is empty or larger than the store accepts. */
  predicate AllSized(qs: seq<Request>) {
    forall q | 0 <= q < |qs| :: 1 <= RequestSize(qs[q]) <= AirtableMaxRecords
  }

  /** `BACKFILL_BATCH_SIZE` read with `parseInt(…) || 10` and clamped to 1..10. */
  function BatchSize(raw: string): (r: nat)
    ensures 1 <= r <= AirtableMaxRecords
    ensures ParseInt(raw).None? || ParseInt(raw) == Some(0) ==> r == 10
    ensures ParseInt(raw).Some? && 1 <= ParseInt(raw).value <= 10 ==> r == ParseInt(raw).value
    ensures ParseInt(raw).Some? && ParseInt(raw).value < 0 ==> r == 1
    ensures ParseInt(raw).Some? && ParseInt(raw).value > 10 ==> r == 10
  {
    ClampedInt(raw, 1, 10, 10)
  }

  /** The payload of a member: the tag, or the username when there is no tag. */
  function PayloadOf(m: GuildMember): (r: Payload)
    ensures r.userId == m.userId && r.displayName == m.displayName
    ensures r.username == if m.tag != "" then m.tag else m.username
  {
    Payload(m.userId, if m.tag != "" then m.tag else m.username, m.displayName)
  }

  function PayloadsOf(ms: seq<GuildMember>): (r: seq<Payload>)
    ensures |r| == |ms| && forall k | 0 <= k < |ms| :: r[k] == PayloadOf(ms[k])
  {
    seq(|ms|, k requires 0 <= k < |ms| => PayloadOf(ms[k]))
  }

  // ---------------------------------------------------------------------------
  // chunking

  /** The elements of the chunks, in order. */
  function Flatten<T>(cs: seq<seq<T>>): seq<T> {
    if cs == [] then [] else Flatten(cs[..|cs| - 1]) + cs[|cs| - 1]
  }

  /** `for (let i = 0; i < s.length; i += n) s.slice(i, i + n)`: the chunks put
      back together are the input, none is empty or larger than `n`, and only
      the last may be smaller. */
  method Chunk<T>(s: seq<T>, n: nat) returns (chunks: seq<seq<T>>)
    requires n >= 1
    ensures Flatten(chunks) == s
    ensures forall k | 0 <= k < |chunks| :: 1 <= |chunks[k]| <= n
    ensures forall k | 0 <= k < |chunks| - 1 :: |chunks[k]| == n
  {
    chunks := [];
    var i := 0;
    while i < |s|
      invariant Flatten(chunks) == s[..if i < |s| then i else |s|]
      invariant forall k | 0 <= k < |chunks| :: 1 <= |chunks[k]| <= n
      invariant forall k | 0 <= k < |chunks| - 1 :: |chunks[k]| == n
      invariant i < |s| ==> forall k | 0 <= k < |chunks| :: |chunks[k]| == n
      invariant i >= 0
      decreases |s| - i
    {
      var end := if i + n < |s| then i + n else |s|;
      var chunk := s[i..end];
      assert s[..i] + chunk == s[..end];
      chunks := chunks + [chunk];
      i := i + n;
    }
  }

  // ---------------------------------------------------------------------------
  // upsertBatch

  /** The row `findMemberRecordByDiscordId` finds for a payload. */
  function Lookup(table: seq<Member>, p: Payload): (r: Option<nat>)
    ensures r.Some? ==> r.value < |table| && table[r.value].discordId == NormId(p.userId)
    ensures r.None? ==> forall j | 0 <= j < |table| :: table[j].discordId != NormId(p.userId)
  {
    FindByDiscordId(table, NormId(p.userId))
  }

  /** The update `upsertBatch` queues for a payload found at `row`. */
  function UpdateAt(table: seq<Member>, row: nat, p: Payload): Update
    requires row < |table|
  {
    Update(table[row].recordId, row, p)
  }

  /** The split of `upsertBatch`: every payload whose trimmed ID has a row goes
      to the updates with that row's record ID; every other payload is created.
      All lookups read the table as it was before the batch. */
  function Plan(table: seq<Member>, payloads: seq<Payload>): (r: (seq<Payload>, seq<Update>))
    ensures |r.0| + |r.1| == |payloads|
    decreases |payloads|
  {
    if payloads == [] then ([], [])
    else
      var init := Plan(table, payloads[..|payloads| - 1]);
      var p := payloads[|payloads| - 1];
      match Lookup(table, p)
      case None => (init.0 + [p], init.1)
      case Some(i) => (init.0, init.1 + [UpdateAt(table, i, p)])
  }

  /** Every planned create is a payload without a row; every planned update is
      the update of the row its payload is found at. */
  lemma {:induction false} PlanSound(table: seq<Member>, payloads: seq<Payload>)
    ensures AllNew(table, Plan(table, payloads).0)
    ensures AllUpdates(table, Plan(table, payloads).1)
    decreases |payloads|
  {
    if payloads != [] {
      var init := payloads[..|payloads| - 1];
      var p := payloads[|payloads| - 1];
      var before := Plan(table, init);
      PlanSound(table, init);
      PlanSnoc(table, payloads);
      match Lookup(table, p)
      case None => AllNewSnoc(table, before.0, p);
      case Some(i) => AllUpdatesSnoc(table, before.1, UpdateAt(table, i, p));
    }
  }

  lemma AllNewSnoc(table: seq<Member>, qs: seq<Payload>, p: Payload)
    requires AllNew(table, qs) && Lookup(table, p).None?
    ensures AllNew(table, qs + [p])
  {
  }

  lemma AllUpdatesSnoc(table: seq<Member>, us: seq<Update>, u: Update)
    requires AllUpdates(table, us) && IsUpdate(table, u)
    ensures AllUpdates(table, us + [u])
  {
  }

  /** Payloads that have no row in the table. */
  predicate AllNew(table: seq<Member>, qs: seq<Payload>) {
    forall k | 0 <= k < |qs| :: Lookup(table, qs[k]).None?
  }

  /** An update of the row its payload is found at, carrying that row's record ID. */
  predicate IsUpdate(table: seq<Member>, u: Update) {
    Lookup(table, u.fields) == Some(u.row) && u.row < |table| && u == UpdateAt(table, u.row, u.fields)
  }

  predicate AllUpdates(table: seq<Member>, us: seq<Update>) {
    forall k | 0 <= k < |us| :: IsUpdate(table, us[k])
  }

  /** No payload is lost: one that has no row is created, one that has a row
      becomes an update of that row. */
  lemma {:induction false} PlanCovers(table: seq<Member>, payloads: seq<Payload>, p: Payload)
    requires p in payloads
    ensures Lookup(table, p).None? ==> p in Plan(table, payloads).0
    ensures Lookup(table, p).Some? ==> UpdateAt(table, Lookup(table, p).value, p) in Plan(table, payloads).1
    decreases |payloads|
  {
    var init := payloads[..|payloads| - 1];
    PlanSnoc(table, payloads);
    if p != payloads[|payloads| - 1] {
      assert p in init;
      PlanCovers(table, init, p);
    }
  }

  /** Nothing is planned that was not asked for: every create and every update
      comes from one of the payloads. */
  lemma {:induction false} PlanFromPayloads(table: seq<Member>, payloads: seq<Payload>)
    ensures forall q | q in Plan(table, payloads).0 :: q in payloads
    ensures forall u | u in Plan(table, payloads).1 :: u.fields in payloads
    decreases |payloads|
  {
    if payloads != [] {
      var init := payloads[..|payloads| - 1];
      PlanSnoc(table, payloads);
      PlanFromPayloads(table, init);
      assert forall q | q in init :: q in payloads;
    }
  }

  lemma PlanSnoc(table: seq<Member>, payloads: seq<Payload>)
    requires payloads != []
    ensures var init := Plan(table, payloads[..|payloads| - 1]);
            var p := payloads[|payloads| - 1];
            Plan(table, payloads) == match Lookup(table, p)
                                     case None => (init.0 + [p], init.1)
                                     case Some(i) => (init.0, init.1 + [UpdateAt(table, i, p)])
  {
  }

  /** The rows `create` appends, with the record IDs the store hands out. */
  function CreatedRows(start: nat, ps: seq<Payload>, newRecordId: nat -> string): (r: seq<Member>)
    ensures |r| == |ps|
    ensures forall k | 0 <= k < |ps| :: r[k].discordId == ps[k].userId && r[k].username == ps[k].username
    decreases |ps|
  {
    if ps == [] then []
    else [NewMember(newRecordId(start), ps[0].userId).(username := ps[0].username)]
         + CreatedRows(start + 1, ps[1..], newRecordId)
  }

  /** `update` on the rows it names, with the Username cell of the payload. The
      payload's Discord User ID is not written: it is the ID the row was found
      by whenever that ID is already trimmed, so the ID column, and every
      lookup, is left as it was. */
  function ApplyUpdates(t: seq<Member>, us: seq<Update>): (r: seq<Member>)
    ensures |r| == |t|
    ensures forall i | 0 <= i < |t| :: r[i].discordId == t[i].discordId && r[i].recordId == t[i].recordId
    ensures forall i | 0 <= i < |t| && i !in Rows(us) :: r[i] == t[i]
    decreases |us|
  {
    if us == [] then t
    else
      var u := us[|us| - 1];
      var init := ApplyUpdates(t, us[..|us| - 1]);
      assert Rows(us) == Rows(us[..|us| - 1]) + {u.row};
      if u.row < |init| then
        init[u.row := init[u.row].(username := u.fields.username)]
      else init
  }

  /** The rows a list of updates names. */
  function Rows(us: seq<Update>): set<nat> {
    set k | 0 <= k < |us| :: us[k].row
  }

  /** The table after a batch: the creates appended first, then the updates. */
  function ApplyBatch(table: seq<Member>, plan: (seq<Payload>, seq<Update>), newRecordId: nat -> string): (r: seq<Member>)
    ensures |r| == |table| + |plan.0|
    ensures forall i | 0 <= i < |table| :: r[i].discordId == table[i].discordId
    ensures forall k | 0 <= k < |plan.0| :: r[|table| + k].discordId == plan.0[k].userId
  {
    ApplyUpdates(table + CreatedRows(|table|, plan.0, newRecordId), plan.1)
  }

  /** `upsertBatch(payloads)`: the creates and then the updates, each sent in
      chunks of at most ten. */
  method UpsertBatch(table: seq<Member>, payloads: seq<Payload>, newRecordId: nat -> string)
    returns (after: seq<Member>, requests: seq<Request>)
    ensures after == ApplyBatch(table, Plan(table, payloads), newRecordId)
    ensures AllSized(requests)
    ensures Flatten(CreatesOf(requests)) == Plan(table, payloads).0
    ensures Flatten(UpdatesOf(requests)) == Plan(table, payloads).1
  {
    var plan := Plan(table, payloads);
    requests := SendInChunks(plan.0, plan.1);
    after := ApplyBatch(table, plan, newRecordId);
  }

  /** The two loops of `upsertBatch` that send the creates, then the updates, in
      chunks of ten. */
  method SendInChunks(toCreate: seq<Payload>, toUpdate: seq<Update>) returns (requests: seq<Request>)
    ensures AllSized(requests)
    ensures Flatten(CreatesOf(requests)) == toCreate
    ensures Flatten(UpdatesOf(requests)) == toUpdate
  {
    var creates := Chunk(toCreate, AirtableMaxRecords);
    var updates := Chunk(toUpdate, AirtableMaxRecords);
    var a := CreateRequests(creates);
    var b := ModifyRequests(updates);
    CreatesOfAppend(a, b);
    UpdatesOfAppend(a, b);
    assert CreatesOf(a + b) == creates;
    assert UpdatesOf(a + b) == updates;
    requests := a + b;
    forall q | 0 <= q < |requests|
      ensures 1 <= RequestSize(requests[q]) <= AirtableMaxRecords
    {
      if q < |a| {
        assert requests[q] == Create(creates[q]);
      } else {
        assert requests[q] == Modify(updates[q - |a|]);
      }
    }
  }

  function CreateRequests(cs: seq<seq<Payload>>): (r: seq<Request>)
    ensures |r| == |cs| && forall k | 0 <= k < |cs| :: r[k] == Create(cs[k])
    ensures CreatesOf(r) == cs && UpdatesOf(r) == []
    decreases |cs|
  {
    if cs == [] then [] else
      var r := CreateRequests(cs[..|cs| - 1]) + [Create(cs[|cs| - 1])];
      assert r[..|r| - 1] == CreateRequests(cs[..|cs| - 1]);
      r
  }

  function ModifyRequests(us: seq<seq<Update>>): (r: seq<Request>)
    ensures |r| == |us| && forall k | 0 <= k < |us| :: r[k] == Modify(us[k])
    ensures UpdatesOf(r) == us && CreatesOf(r) == []
    decreases |us|
  {
    if us == [] then [] else
      var r := ModifyRequests(us[..|us| - 1]) + [Modify(us[|us| - 1])];
      assert r[..|r| - 1] == ModifyRequests(us[..|us| - 1]);
      r
  }

  /** The record lists of the create calls, in order. */
  function CreatesOf(qs: seq<Request>): seq<seq<Payload>> {
    if qs == [] then []
    else CreatesOf(qs[..|qs| - 1]) + (if qs[|qs| - 1].Create? then [qs[|qs| - 1].creates] else [])
  }

  /** The record lists of the update calls, in order. */
  function UpdatesOf(qs: seq<Request>): seq<seq<Update>> {
    if qs == [] then []
    else UpdatesOf(qs[..|qs| - 1]) + (if qs[|qs| - 1].Modify? then [qs[|qs| - 1].updates] else [])
  }

  lemma {:induction false} CreatesOfAppend(a: seq<Request>, b: seq<Request>)
    ensures CreatesOf(a + b) == CreatesOf(a) + CreatesOf(b)
    decreases |b|
  {
    if b == [] {
      assert a + b == a;
    } else {
      assert (a + b)[..|a + b| - 1] == a + b[..|b| - 1];
      CreatesOfAppend(a, b[..|b| - 1]);
    }
  }

  lemma {:induction false} UpdatesOfAppend(a: seq<Request>, b: seq<Request>)
    ensures UpdatesOf(a + b) == UpdatesOf(a) + UpdatesOf(b)
    decreases |b|
  {
    if b == [] {
      assert a + b == a;
    } else {
      assert (a + b)[..|a + b| - 1] == a + b[..|b| - 1];
      UpdatesOfAppend(a, b[..|b| - 1]);
    }
  }

  /** Growing a table at the end, without touching its ID column, keeps every
      lookup that already succeeded. */
  lemma KeepFound(a: seq<Member>, b: seq<Member>, id: string)
    requires KeepsIds(a, b)
    requires FindByDiscordId(a, id).Some?
    ensures FindByDiscordId(b, id) == FindByDiscordId(a, id)
  {
    FindFirstAt(b, id, FindByDiscordId(a, id).value);
  }

  /** After its batch, every payload whose ID is already trimmed has a row. */
  lemma FoundAfterBatch(table: seq<Member>, payloads: seq<Payload>, newRecordId: nat -> string, p: Payload)
    requires p in payloads && Trimmed(p.userId)
    ensures FindByDiscordId(ApplyBatch(table, Plan(table, payloads), newRecordId), p.userId).Some?
  {
    PlanCovers(table, payloads, p);
    FoundAfterPlan(table, Plan(table, payloads), newRecordId, p);
  }

  lemma FoundAfterPlan(table: seq<Member>, plan: (seq<Payload>, seq<Update>), newRecordId: nat -> string, p: Payload)
    requires Trimmed(p.userId)
    requires Lookup(table, p).Some? || p in plan.0
    ensures FindByDiscordId(ApplyBatch(table, plan, newRecordId), p.userId).Some?
  {
    if Lookup(table, p).Some? {
      FoundUpdated(table, plan, newRecordId, p);
    } else {
      FoundCreated(table, plan, newRecordId, p);
    }
  }

  lemma FoundUpdated(table: seq<Member>, plan: (seq<Payload>, seq<Update>), newRecordId: nat -> string, p: Payload)
    requires Trimmed(p.userId) && Lookup(table, p).Some?
    ensures FindByDiscordId(ApplyBatch(table, plan, newRecordId), p.userId).Some?
  {
    LookupTrimmed(table, p);
    var after := ApplyBatch(table, plan, newRecordId);
    assert KeepsIds(table, after);
    KeepFound(table, after, p.userId);
  }

  /** For a trimmed ID the lookup is a plain search for the ID. */
  lemma LookupTrimmed(table: seq<Member>, p: Payload)
    requires Trimmed(p.userId)
    ensures Lookup(table, p) == FindByDiscordId(table, p.userId)
  {
    TrimOfTrimmed(p.userId);
  }

  lemma FoundCreated(table: seq<Member>, plan: (seq<Payload>, seq<Update>), newRecordId: nat -> string, p: Payload)
    requires p in plan.0
    ensures FindByDiscordId(ApplyBatch(table, plan, newRecordId), p.userId).Some?
  {
    var r := ApplyBatch(table, plan, newRecordId);
    var k :| 0 <= k < |plan.0| && plan.0[k] == p;
    assert r[|table| + k].discordId == p.userId;
  }

  // ---------------------------------------------------------------------------
  // the backfill run

  /** `b` extends `a` at the end and keeps its ID column. */
  predicate KeepsIds(a: seq<Member>, b: seq<Member>) {
    |a| <= |b| && forall i | 0 <= i < |a| :: b[i].discordId == a[i].discordId
  }

  lemma KeepsIdsTrans(a: seq<Member>, b: seq<Member>, c: seq<Member>)
    requires KeepsIds(a, b) && KeepsIds(b, c)
    ensures KeepsIds(a, c)
  {
  }

  /** Every member whose ID is already trimmed has a row in `t`. */
  predicate AllFound(t: seq<Member>, ms: seq<GuildMember>) {
    forall k | 0 <= k < |ms| && Trimmed(ms[k].userId) :: FindByDiscordId(t, ms[k].userId).Some?
  }

  /** One batch keeps the members written before it findable and makes its own
      members findable. */
  lemma BatchStep(before: seq<Member>, done: seq<GuildMember>, chunk: seq<GuildMember>, newRecordId: nat -> string)
    requires AllFound(before, done)
    ensures var after := ApplyBatch(before, Plan(before, PayloadsOf(chunk)), newRecordId);
            KeepsIds(before, after) && AllFound(after, done + chunk)
  {
    var after := ApplyBatch(before, Plan(before, PayloadsOf(chunk)), newRecordId);
    assert KeepsIds(before, after);
    StillFound(before, after, done);
    ChunkFound(before, chunk, newRecordId);
    AllFoundAppend(after, done, chunk);
  }

  lemma StillFound(before: seq<Member>, after: seq<Member>, done: seq<GuildMember>)
    requires AllFound(before, done) && KeepsIds(before, after)
    ensures AllFound(after, done)
  {
    forall k | 0 <= k < |done| && Trimmed(done[k].userId)
      ensures FindByDiscordId(after, done[k].userId).Some?
    {
      KeepFound(before, after, done[k].userId);
    }
  }

  lemma ChunkFound(before: seq<Member>, chunk: seq<GuildMember>, newRecordId: nat -> string)
    ensures AllFound(ApplyBatch(before, Plan(before, PayloadsOf(chunk)), newRecordId), chunk)
  {
    var payloads := PayloadsOf(chunk);
    forall k | 0 <= k < |chunk| && Trimmed(chunk[k].userId)
      ensures FindByDiscordId(ApplyBatch(before, Plan(before, payloads), newRecordId), chunk[k].userId).Some?
    {
      assert payloads[k] == PayloadOf(chunk[k]);
      FoundAfterBatch(before, payloads, newRecordId, PayloadOf(chunk[k]));
    }
  }

  lemma AllFoundAppend(t: seq<Member>, a: seq<GuildMember>, b: seq<GuildMember>)
    requires AllFound(t, a) && AllFound(t, b)
    ensures AllFound(t, a + b)
  {
    forall k | 0 <= k < |a + b| && Trimmed((a + b)[k].userId)
      ensures FindByDiscordId(t, (a + b)[k].userId).Some?
    {
      if k >= |a| {
        assert (a + b)[k] == b[k - |a|];
      }
    }
  }

  /** One turn of the member loop: the chunk's payloads through `upsertBatch`. */
  method WriteChunk(before: seq<Member>, ghost done: seq<GuildMember>, chunk: seq<GuildMember>, newRecordId: nat -> string)
    returns (after: seq<Member>, requests: seq<Request>)
    requires AllFound(before, done)
    ensures KeepsIds(before, after) && AllFound(after, done + chunk)
    ensures AllSized(requests)
  {
    after, requests := UpsertBatch(before, PayloadsOf(chunk), newRecordId);
    BatchStep(before, done, chunk, newRecordId);
  }

  /** The backfill on `ClientReady`: the guild's members in batches of
      `BatchSize(rawBatchSize)`, each written by `upsertBatch`. Every member is
      processed; the existing rows keep their IDs; every member whose ID is
      trimmed can afterwards be found; and no call to the store carries more
      than ten records. */
  method Run(table: seq<Member>, members: seq<GuildMember>, rawBatchSize: string, newRecordId: nat -> string)
    returns (final: seq<Member>, requests: seq<Request>, processed: nat)
    ensures processed == |members|
    ensures KeepsIds(table, final)
    ensures AllFound(final, members)
    ensures AllSized(requests)
  {
    final, requests, processed := WriteAll(table, members, BatchSize(rawBatchSize), newRecordId);
  }

  /** The member loop of the backfill, for a batch size already clamped. */
  method WriteAll(table: seq<Member>, members: seq<GuildMember>, size: nat, newRecordId: nat -> string)
    returns (final: seq<Member>, requests: seq<Request>, processed: nat)
    requires size >= 1
    ensures processed == |members|
    ensures KeepsIds(table, final)
    ensures AllFound(final, members)
    ensures AllSized(requests)
  {
    final := table;
    requests := [];
    processed := 0;
    var i := 0;
    while i < |members|
      invariant i >= 0 && processed == (if i < |members| then i else |members|)
      invariant KeepsIds(table, final)
      invariant AllFound(final, members[..processed])
      invariant AllSized(requests)
      decreases |members| - i
    {
      var end := if i + size < |members| then i + size else |members|;
      var chunk := members[i..end];
      var before := final;
      var reqs;
      final, reqs := WriteChunk(final, members[..i], chunk, newRecordId);
      KeepsIdsTrans(table, before, final);
      assert members[..i] + chunk == members[..end];
      assert AllSized(requests + reqs);
      requests := requests + reqs;
      processed := processed + |chunk|;
      i := i + size;
    }
    assert members[..processed] == members;
  }
}

=== FILE: claims.dfy ===
/** The Quick Deal claim of index.js: the claim form (Seller ID and VAT type),
    the payout chosen from the order and the checks on the order's fields, and
    the deduction for sellers without the trusted role at confirmation. */
module Claims {
  import opened Wrappers
  import opened JsText
  import opened Numbers
  import opened QuickDeal

  // ---------------------------------------------------------------------------
  // Seller ID

  /** `SE-${raw.replace(/\D/g, '').padStart(5, '0')}`. */
  function SellerId(raw: string): (r: string)
    ensures |r| >= 8 && r[..3] == "SE-"
    ensures AllDigits(r[3..])
    ensures |r| == 3 + (if |DigitsOnly(raw)| >= 5 then |DigitsOnly(raw)| else 5)
  {
    var p := PadStart(DigitsOnly(raw), 5, '0');
    PadZeros(DigitsOnly(raw), 5);
    assert ("SE-" + p)[3..] == p;
    "SE-" + p
  }

  /** The Seller ID ends with the digits typed and reads as the same number. */
  lemma SellerIdValue(raw: string)
    ensures var r := SellerId(raw);
            var d := DigitsOnly(raw);
            r[|r| - |d|..] == d && DigitsValue(r[3..]) == DigitsValue(d)
  {
    var d := DigitsOnly(raw);
    var p := PadStart(d, 5, '0');
    var r := SellerId(raw);
    assert r == "SE-" + p;
    assert r[3..] == p;
    assert r[|r| - |d|..] == p[|p| - |d|..];
    PadZeros(d, 5);
  }

  /** A Seller ID typed in full, or with its prefix or zeros left out, gives the
      same Seller ID: the form is idempotent on its own output. */
  lemma SellerIdIdempotent(raw: string)
    ensures SellerId(SellerId(raw)) == SellerId(raw)
  {
    var s := SellerId(raw);
    var d := s[3..];
    assert s == "SE-" + d;
    DigitsOnlyAppend("SE-", d);
    PrefixHasNoDigits();
    assert DigitsOnly(s) == d;
  }

  lemma PrefixHasNoDigits()
    ensures DigitsOnly("SE-") == []
  {
    assert DigitsOnly("SE-") == DigitsOnly("E-") == DigitsOnly("-") == DigitsOnly("");
  }

  /** Seller numbers of up to five digits are written with exactly five. */
  lemma SellerIdOfNumber(n: nat)
    requires n < 100000
    ensures |SellerId(NatToDigits(n))| == 8
    ensures DigitsValue(SellerId(NatToDigits(n))[3..]) == n
  {
    DigitsRoundTrip(n);
    SmallNumberDigits(n);
    SellerIdValue(NatToDigits(n));
  }

  lemma SmallNumberDigits(n: nat)
    requires n < 100000
    ensures |NatToDigits(n)| <= 5
  {
    ShortDigits(n, 5);
  }

  function TenTo(k: nat): (r: nat)
    ensures r >= 1
  {
    if k == 0 then 1 else 10 * TenTo(k - 1)
  }

  /** A number below `10^k` has at most `k` digits. */
  lemma {:induction false} ShortDigits(n: nat, k: nat)
    requires k >= 1 && n < TenTo(k)
    ensures |NatToDigits(n)| <= k
  {
    if n >= 10 {
      assert k >= 2;
      assert n / 10 < TenTo(k - 1);
      ShortDigits(n / 10, k - 1);
    }
  }

  // ---------------------------------------------------------------------------
  // VAT type

  datatype VatType = Margin | Vat21 | Vat0

  /** The VAT type typed in the form, trimmed and lower-cased: `margin`; `vat21`,
      `21` or `21%`; `vat0`, `0` or `0%`. Anything else is refused. */
  function ParseVat(raw: string): Option<VatType> {
    ParseLowered(ToLower(Trim(raw)))
  }

  /** The accepted spellings, once trimmed and lower-cased. */
  function ParseLowered(v: string): Option<VatType> {
    if v == "margin" then Some(Margin)
    else if v == "vat21" || v == "21" || v == "21%" then Some(Vat21)
    else if v == "vat0" || v == "0" || v == "0%" then Some(Vat0)
    else None
  }

  /** The name the bot stores and shows for a VAT type. */
  function VatName(v: VatType): string {
    match v
    case Margin => "Margin"
    case Vat21 => "VAT21"
    case Vat0 => "VAT0"
  }

  /** Every stored name is accepted back by the form. */
  lemma ParseVatName(v: VatType)
    ensures ParseVat(VatName(v)) == Some(v)
  {
    var s := VatName(v);
    NameIsTrimmed(v);
    var lower := LowerName(v);
    ParseVatOfLowered(s, lower);
  }

  lemma ParseVatOfLowered(raw: string, lower: string)
    requires Trim(raw) == raw && ToLower(raw) == lower
    ensures ParseVat(raw) == ParseLowered(lower)
  {
  }

  /** The stored names, lower-cased as the form reads them. */
  lemma LowerName(v: VatType) returns (lower: string)
    ensures lower == ToLower(VatName(v))
    ensures ParseLowered(lower) == Some(v)
  {
    match v
    case Margin => lower := "margin"; LowerOf("Margin", lower);
    case Vat21 => lower := "vat21"; LowerOf("VAT21", lower);
    case Vat0 => lower := "vat0"; LowerOf("VAT0", lower);
  }

  /** `t` is `s` lower-cased character by character. */
  lemma LowerOf(s: string, t: string)
    requires |s| == |t| && forall i | 0 <= i < |s| :: t[i] == LowerChar(s[i])
    ensures ToLower(s) == t
  {
  }

  lemma NameIsTrimmed(v: VatType)
    ensures Trim(VatName(v)) == VatName(v)
  {
    var s := VatName(v);
    AsciiIsNotSpace(s[0]);
    AsciiIsNotSpace(s[|s| - 1]);
    TrimOfTrimmed(s);
  }

  // ---------------------------------------------------------------------------
  // payout and the order checks

  /** A JavaScript number as `Number(...)` leaves it. */
  datatype JsNumber = NaN | Infinite | Finite(v: real)

  /** `Number(cell || 0)`: a zero or missing price cell is 0. */
  function PriceOf(cell: Option<JsNumber>): JsNumber {
    match cell
    case None => Finite(0.0)
    case Some(NaN) => Finite(0.0)
    case Some(n) => n
  }

  /** The fields of an Unfulfilled Orders Log row that the claim reads. The
      product name cells are `None` when absent, so that `??` can be modelled. */
  datatype Order = Order(
    orderId: string,
    size: string,
    brand: string,
    productName: Option<string>,
    shopifyProductName: Option<string>,
    sku: Cell,
    skuSoft: Cell,
    priceMargin: Option<JsNumber>,
    priceVat0: Option<JsNumber>
  )

  /** The price column that is paid: the VAT 0% price for a VAT0 seller, the
      margin price for everyone else. */
  function Payout(vat: VatType, o: Order): (r: JsNumber)
    ensures vat == Vat0 ==> r == PriceOf(o.priceVat0)
    ensures vat != Vat0 ==> r == PriceOf(o.priceMargin)
  {
    if vat == Vat0 then PriceOf(o.priceVat0) else PriceOf(o.priceMargin)
  }

  /** `get('Product Name') ?? get('Shopify Product Name') ?? ''`: an empty Product
      Name is kept, not replaced by the Shopify name. */
  function ProductName(o: Order): (r: string)
    ensures o.productName.Some? ==> r == o.productName.value
    ensures o.productName.None? ==> r == o.shopifyProductName.GetOr("")
  {
    match o.productName
    case Some(n) => n
    case None => o.shopifyProductName.GetOr("")
  }

  /** `asText(SKU).trim() || asText(SKU (Soft)).trim()`. */
  function FinalSku(o: Order): (r: string)
    ensures Trim(AsText(o.sku)) != "" ==> r == Trim(AsText(o.sku))
    ensures Trim(AsText(o.sku)) == "" ==> r == Trim(AsText(o.skuSoft))
  {
    var sku := Trim(AsText(o.sku));
    if sku != "" then sku else Trim(AsText(o.skuSoft))
  }

  datatype ClaimError = InvalidVatType | SellerNotFound(sellerId: string) | MissingOrderFields

  datatype Claim = Claim(sellerId: string, vat: VatType, orderId: string, productName: string, sku: string, payout: real)

  datatype ClaimResult = Accepted(claim: Claim) | Rejected(err: ClaimError)

  /** The claim form submission: the VAT type is checked first, then the Seller
      ID against the sellers table (`sellerKnown`), then the order's fields and
      the payout, which must be a finite number above zero. */
  function SubmitClaim(sellerRaw: string, vatRaw: string, sellerKnown: string -> bool, o: Order): (r: ClaimResult)
    ensures ParseVat(vatRaw).None? <==> r == Rejected(InvalidVatType)
    ensures r == Rejected(SellerNotFound(SellerId(sellerRaw))) <==>
              ParseVat(vatRaw).Some? && !sellerKnown(SellerId(sellerRaw))
    ensures r.Accepted? ==>
              && sellerKnown(r.claim.sellerId) && r.claim.sellerId == SellerId(sellerRaw)
              && Some(r.claim.vat) == ParseVat(vatRaw)
              && Payout(r.claim.vat, o) == Finite(r.claim.payout) && r.claim.payout > 0.0
              && r.claim.orderId != "" && r.claim.productName != "" && r.claim.sku != ""
              && o.size != "" && o.brand != ""
    ensures r.Accepted? ==>
              r.claim == Claim(SellerId(sellerRaw), ParseVat(vatRaw).value, o.orderId, ProductName(o), FinalSku(o), r.claim.payout)
    ensures r.Rejected? && r.err == MissingOrderFields ==>
              var p := Payout(ParseVat(vatRaw).value, o);
              o.orderId == "" || ProductName(o) == "" || FinalSku(o) == "" || o.size == "" || o.brand == ""
              || !p.Finite? || p.v <= 0.0
  {
    match ParseVat(vatRaw)
    case None => Rejected(InvalidVatType)
    case Some(vat) =>
      var sid := SellerId(sellerRaw);
      if !sellerKnown(sid) then Rejected(SellerNotFound(sid))
      else
        var p := Payout(vat, o);
        var name := ProductName(o);
        var sku := FinalSku(o);
        if o.orderId == "" || name == "" || sku == "" || o.size == "" || o.brand == "" || !p.Finite? || p.v <= 0.0 then
          Rejected(MissingOrderFields)
        else Accepted(Claim(sid, vat, o.orderId, name, sku, p.v))
  }

  /** A claim with every field present and a positive price for the chosen VAT
      type is accepted, whatever the other price column holds. */
  lemma CompleteClaimAccepted(sellerRaw: string, vatRaw: string, sellerKnown: string -> bool, o: Order)
    requires ParseVat(vatRaw).Some? && sellerKnown(SellerId(sellerRaw))
    requires o.orderId != "" && o.size != "" && o.brand != "" && ProductName(o) != "" && FinalSku(o) != ""
    requires var p := Payout(ParseVat(vatRaw).value, o); p.Finite? && p.v > 0.0
    ensures SubmitClaim(sellerRaw, vatRaw, sellerKnown, o)
            == Accepted(Claim(SellerId(sellerRaw), ParseVat(vatRaw).value, o.orderId, ProductName(o), FinalSku(o),
                              Payout(ParseVat(vatRaw).value, o).v))
  {
    var vat := ParseVat(vatRaw).value;
    var c := Claim(SellerId(sellerRaw), vat, o.orderId, ProductName(o), FinalSku(o), Payout(vat, o).v);
    assert SubmitClaim(sellerRaw, vatRaw, sellerKnown, o) == Accepted(c);
  }

  // ---------------------------------------------------------------------------
  // trusted sellers

  /** Whether the trust check found the seller's roles: `None` when the seller
      has no Discord ID on record or the member fetch failed. */
  datatype TrustCheck = TrustCheck(trustedRoleId: string, sellerRoles: Option<set<string>>)

  /** The final payout and the shipping deduction: a seller without the
      configured trusted role is paid `max(0, payout - 10)` with a deduction of
      10; otherwise the payout is unchanged. */
  function TrustedDeduction(payout: real, t: TrustCheck): (r: (real, real))
    ensures var deducted := t.trustedRoleId != "" && t.sellerRoles.Some? && t.trustedRoleId !in t.sellerRoles.value;
            && (deducted ==> r.1 == 10.0 && (r.0 == 0.0 || r.0 == payout - 10.0))
            && (!deducted ==> r == (payout, 0.0))
    ensures payout >= 0.0 ==> 0.0 <= r.0 <= payout
  {
    if t.trustedRoleId != "" && t.sellerRoles.Some? && t.trustedRoleId !in t.sellerRoles.value then
      (if payout - 10.0 > 0.0 then payout - 10.0 else 0.0, 10.0)
    else (payout, 0.0)
  }

  /** Deducting never pays more than before, never less than zero, and takes at
      most the 10 deducted; without a deduction the payout is untouched. */
  lemma DeductionBounds(payout: real, t: TrustCheck)
    requires payout >= 0.0
    ensures var r := TrustedDeduction(payout, t);
            && 0.0 <= r.0 <= payout
            && payout - r.0 <= r.1
            && (r.1 == 0.0 ==> r.0 == payout)
            && (r.1 != 0.0 && payout >= 10.0 ==> r.0 == payout - 10.0)
  {
  }
}

=== FILE: invites.dfy ===
/** Invite-use snapshots and the snapshot diff that picks the invite a new
    member most likely used (src/affiliateInvites.js). */
module Invites {
  import opened Wrappers

  /** One invite of `guild.invites.fetch()`, in the collection's iteration order;
      `uses` is `None` when Discord reports no count. */
  datatype FetchedInvite = FetchedInvite(code: string, uses: Option<nat>)

  /** `{inviteCode → uses}` for one guild. */
  type Snapshot = map<string, int>

  /** The per-guild cache `Map<guildId, Map<inviteCode, uses>>`. */
  type InviteCache = map<string, Snapshot>

  /** `Number(inv.uses || 0)`: a missing count reads as 0. */
  function UsesOf(inv: FetchedInvite): nat {
    inv.uses.GetOr(0)
  }

  function Codes(f: seq<FetchedInvite>): set<string> {
    set i | 0 <= i < |f| :: f[i].code
  }

  /** No later invite in `f` has the same code as the one at `i`. */
  predicate LastWithCode(f: seq<FetchedInvite>, i: nat)
    requires i < |f|
  {
    forall j | i < j < |f| :: f[j].code != f[i].code
  }

  /** The snapshot of one fetch: every fetched code maps to its use count (for a
      repeated code, the count of its last occurrence, as `Map.set` keeps), and
      no other code is present. */
  function BuildSnapshot(f: seq<FetchedInvite>): (r: Snapshot)
    ensures r.Keys == Codes(f)
    ensures forall i | 0 <= i < |f| && LastWithCode(f, i) :: r[f[i].code] == UsesOf(f[i])
  {
    if |f| == 0 then map[]
    else
      var init := f[..|f| - 1];
      var last := f[|f| - 1];
      var r := BuildSnapshot(init)[last.code := UsesOf(last)];
      CodesSnoc(f);
      LastWithCodeSnoc(f);
      r
  }

  lemma CodesSnoc(f: seq<FetchedInvite>)
    requires |f| > 0
    ensures Codes(f) == Codes(f[..|f| - 1]) + {f[|f| - 1].code}
  {
    var init := f[..|f| - 1];
    forall c | c in Codes(f) ensures c in Codes(init) + {f[|f| - 1].code} {
      var i :| 0 <= i < |f| && f[i].code == c;
      if i < |f| - 1 { assert init[i] == f[i]; }
    }
    forall c | c in Codes(init) ensures c in Codes(f) {
      var i :| 0 <= i < |init| && init[i].code == c;
      assert f[i] == init[i];
    }
  }

  lemma LastWithCodeSnoc(f: seq<FetchedInvite>)
    requires |f| > 0
    ensures forall i | 0 <= i < |f| - 1 && LastWithCode(f, i) :: LastWithCode(f[..|f| - 1], i) && f[..|f| - 1][i] == f[i]
  {
  }

  /** `refreshInviteCacheForGuild`: on a successful fetch the guild's snapshot is
      replaced wholesale (never merged), other guilds untouched; a failed fetch
      (`None`) leaves the cache as it was and reports `false`. */
  function Refresh(cache: InviteCache, guildId: string, fetched: Option<seq<FetchedInvite>>)
    : (r: (InviteCache, bool))
    ensures r.1 <==> fetched.Some?
    ensures fetched.None? ==> r.0 == cache
    ensures fetched.Some? ==> guildId in r.0 && r.0[guildId] == BuildSnapshot(fetched.value)
    ensures r.0.Keys == cache.Keys + (if fetched.Some? then {guildId} else {})
    ensures forall g | g in cache && g != guildId :: g in r.0 && r.0[g] == cache[g]
  {
    match fetched
    case None => (cache, false)
    case Some(f) => (cache[guildId := BuildSnapshot(f)], true)
  }

  /** A code that disappeared from Discord (a deleted invite) is gone from the
      guild's snapshot after a refresh, whatever the old snapshot held. */
  lemma RefreshDropsDeletedCodes(cache: InviteCache, guildId: string, f: seq<FetchedInvite>, code: string)
    requires code !in Codes(f)
    ensures code !in Refresh(cache, guildId, Some(f)).0[guildId]
  {
  }

  /** `newU - oldU` with `oldU = Number(oldUses.get(code) || 0)`. */
  function Delta(prev: Snapshot, inv: FetchedInvite): int {
    UsesOf(inv) - (if inv.code in prev then prev[inv.code] else 0)
  }

  /** The running state of the `for … of newInvites` loop after the first `n`
      invites: the index of `usedInvite`, `None` while it is still `null`. The
      comparison is `delta > bestDelta` with `bestDelta` starting at 0. */
  function PickPrefix(f: seq<FetchedInvite>, prev: Snapshot, n: nat): (r: Option<nat>)
    requires n <= |f|
    ensures r.None? <==> forall j | 0 <= j < n :: Delta(prev, f[j]) <= 0
    ensures r.Some? ==> r.value < n && Delta(prev, f[r.value]) > 0
    ensures r.Some? ==> forall j | 0 <= j < n :: Delta(prev, f[j]) <= Delta(prev, f[r.value])
    ensures r.Some? ==> forall j | 0 <= j < r.value :: Delta(prev, f[j]) < Delta(prev, f[r.value])
  {
    if n == 0 then None
    else
      var p := PickPrefix(f, prev, n - 1);
      var best := if p.Some? then Delta(prev, f[p.value]) else 0;
      if Delta(prev, f[n - 1]) > best then Some(n - 1) else p
  }

  /** The invite the join is attributed to: the one with the largest positive
      delta, and on equal deltas the first in iteration order (the comparison is
      strict). `None` when no delta is positive. */
  function PickUsedInvite(f: seq<FetchedInvite>, prev: Snapshot): (r: Option<nat>)
    ensures r.None? <==> forall j | 0 <= j < |f| :: Delta(prev, f[j]) <= 0
    ensures r.Some? ==> r.value < |f| && Delta(prev, f[r.value]) > 0
    ensures r.Some? ==> forall j | 0 <= j < |f| :: Delta(prev, f[j]) <= Delta(prev, f[r.value])
    ensures r.Some? ==> forall j | 0 <= j < r.value :: Delta(prev, f[j]) < Delta(prev, f[r.value])
  {
    PickPrefix(f, prev, |f|)
  }

  /** The choice is determined by the contract: any index with a positive,
      maximal delta that no earlier index reaches is the one picked. */
  lemma PickUnique(f: seq<FetchedInvite>, prev: Snapshot, k: nat)
    requires k < |f| && Delta(prev, f[k]) > 0
    requires forall j | 0 <= j < |f| :: Delta(prev, f[j]) <= Delta(prev, f[k])
    requires forall j | 0 <= j < k :: Delta(prev, f[j]) < Delta(prev, f[k])
    ensures PickUsedInvite(f, prev) == Some(k)
  {
  }

  /** A code present only in the old snapshot never influences the choice: the
      old snapshot can lose any code that was not fetched again. */
  lemma PickIgnoresVanishedCodes(f: seq<FetchedInvite>, prev: Snapshot, code: string)
    requires code !in Codes(f)
    ensures PickUsedInvite(f, prev) == PickUsedInvite(f, prev - {code})
  {
    assert forall j | 0 <= j < |f| :: f[j].code != code;
    assert forall j | 0 <= j < |f| :: Delta(prev, f[j]) == Delta(prev - {code}, f[j]);
    var a := PickUsedInvite(f, prev);
    if a.Some? {
      PickUnique(f, prev - {code}, a.value);
    }
  }

  /** A tie is not left unattributed: with the old counts `{A: 2, B: 5}` and the
      new `{A: 3, B: 6}` both codes gained one use, and the first one fetched,
      `A`, is picked. */
  lemma TieGoesToFirstCode()
    ensures PickUsedInvite([FetchedInvite("A", Some(3)), FetchedInvite("B", Some(6))], map["A" := 2, "B" := 5]) == Some(0)
  {
    var f := [FetchedInvite("A", Some(3)), FetchedInvite("B", Some(6))];
    var prev := map["A" := 2, "B" := 5];
    assert "A" != "B" by { assert "A"[0] != "B"[0]; }
    assert Delta(prev, f[0]) == 1 && Delta(prev, f[1]) == 1;
    PickUnique(f, prev, 0);
  }

  /** `guildAllowed`: with no configured guild every guild is accepted; otherwise
      only the configured one. */
  function GuildAllowed(configured: string, guildId: string): (r: bool)
    ensures configured != "" ==> (r <==> guildId == configured)
    ensures configured == "" ==> r
  {
    configured == "" || guildId == configured
  }
}

=== FILE: jstext.dfy ===
/** String helpers with the semantics of the JavaScript built-ins the bot uses:
    `String.prototype.trim`, `split` on one character, `padStart`, the
    `/\D/g` digit filter, `toLowerCase` on ASCII, and the bot's own
    `normId` / `escapeAirtableValue`. Strings are sequences of characters. */
module JsText {
  import opened Wrappers

  /** The white-space and line-terminator characters that `trim` removes. */
  const Spaces: set<char> := {
    ' ', '\t', '\n', '\r', '\U{000B}', '\U{000C}', '\U{00A0}', '\U{1680}',
    '\U{2000}', '\U{2001}', '\U{2002}', '\U{2003}', '\U{2004}', '\U{2005}',
    '\U{2006}', '\U{2007}', '\U{2008}', '\U{2009}', '\U{200A}',
    '\U{2028}', '\U{2029}', '\U{202F}', '\U{205F}', '\U{3000}', '\U{FEFF}'
  }

  predicate IsSpace(c: char) {
    c in Spaces
  }

  predicate AllSpace(s: string) {
    forall i | 0 <= i < |s| :: IsSpace(s[i])
  }

  /** Neither the first nor the last character is white space. */
  predicate Trimmed(s: string) {
    s == [] || (!IsSpace(s[0]) && !IsSpace(s[|s| - 1]))
  }

  /** The number of white-space characters at the start of `s`. */
  function LeadingSpaces(s: string): (n: nat)
    ensures n <= |s|
    ensures forall i | 0 <= i < n :: IsSpace(s[i])
    ensures n == |s| || !IsSpace(s[n])
  {
    if |s| > 0 && IsSpace(s[0]) then
      var n := LeadingSpaces(s[1..]);
      assert forall i | 1 <= i < n + 1 :: s[i] == s[1..][i - 1];
      n + 1
    else 0
  }

  /** The number of white-space characters at the end of `s`. */
  function TrailingSpaces(s: string): (n: nat)
    ensures n <= |s|
    ensures forall i | |s| - n <= i < |s| :: IsSpace(s[i])
    ensures n == |s| || !IsSpace(s[|s| - n - 1])
  {
    if |s| > 0 && IsSpace(s[|s| - 1]) then
      var n := TrailingSpaces(s[..|s| - 1]);
      assert forall i | |s| - 1 - n <= i < |s| - 1 :: s[i] == s[..|s| - 1][i];
      n + 1
    else 0
  }

  function TrimStart(s: string): (r: string)
    ensures |r| <= |s| && r == s[|s| - |r|..]
    ensures AllSpace(s[..|s| - |r|])
    ensures r == [] || !IsSpace(r[0])
  {
    s[LeadingSpaces(s)..]
  }

  function TrimEnd(s: string): (r: string)
    ensures |r| <= |s| && r == s[..|r|]
    ensures AllSpace(s[|r|..])
    ensures r == [] || !IsSpace(r[|r| - 1])
  {
    s[..|s| - TrailingSpaces(s)]
  }

  /** `String.prototype.trim`: the result is the infix of `s` left after removing
      the white space at both ends, and it is empty exactly when `s` is all white space. */
  function Trim(s: string): (r: string)
    ensures Trimmed(r)
    ensures r == [] <==> AllSpace(s)
  {
    TrimEnd(TrimStart(s))
  }

  /** What `trim` removes is white space at both ends: the result is the infix
      of `s` between its leading and its trailing white space. */
  lemma TrimIsInfixOf(s: string)
    ensures var r := Trim(s);
            exists lo | 0 <= lo <= |s| - |r| ::
              s[lo..lo + |r|] == r && AllSpace(s[..lo]) && AllSpace(s[lo + |r|..])
  {
    var t := TrimStart(s);
    var r := TrimEnd(t);
    var lo := |s| - |t|;
    assert s[lo..lo + |r|] == r;
    assert s[lo + |r|..] == t[|r|..];
  }

  /** The bot's `normId`: the identifier with surrounding white space removed. */
  function NormId(v: string): string {
    Trim(v)
  }

  /** A string that has no white space at its ends is its own trim. */
  lemma {:induction false} TrimOfTrimmed(s: string)
    requires Trimmed(s)
    ensures Trim(s) == s
  {
    if s != [] {
      assert TrimStart(s) == s;
    }
  }

  /** Leading white space is dropped by `trim`. */
  lemma TrimDropsLeadingSpace(c: char, s: string)
    requires IsSpace(c)
    ensures Trim([c] + s) == Trim(s)
  {
    assert ([c] + s)[1..] == s;
    assert TrimStart([c] + s) == TrimStart(s);
  }

  lemma TrimIdempotent(s: string)
    ensures Trim(Trim(s)) == Trim(s)
  {
    TrimOfTrimmed(Trim(s));
  }

  // ---------------------------------------------------------------------------
  // escapeAirtableValue

  /** The number of quotes in `s`. */
  function Quotes(s: string): nat {
    if s == [] then 0 else (if s[0] == '\'' then 1 else 0) + Quotes(s[1..])
  }

  /** Every quote of `s` has a backslash just before it. */
  predicate QuotesEscaped(s: string) {
    forall i | 0 <= i < |s| && s[i] == '\'' :: i > 0 && s[i - 1] == '\\'
  }

  /** `escapeAirtableValue`: every `'` is preceded by a backslash, so the value can
      sit inside a single-quoted Airtable formula string. One backslash is added
      per quote and nothing else changes. */
  function EscapeAirtableValue(s: string): (r: string)
    ensures |r| == |s| + Quotes(s)
    ensures QuotesEscaped(r)
    ensures '\'' !in s ==> r == s
  {
    if s == [] then []
    else
      var rest := EscapeAirtableValue(s[1..]);
      if s[0] == '\'' then
        var r := ['\\', '\''] + rest;
        assert forall i | 2 <= i < |r| :: r[i] == rest[i - 2];
        r
      else
        var r := [s[0]] + rest;
        assert forall i | 1 <= i < |r| :: r[i] == rest[i - 1];
        r
  }

  /** A single-quoted string literal of a formula, read with the usual backslash
      rule: after the opening quote a backslash takes the next character as it
      is, and the first quote not taken that way closes the literal. The result
      is the literal's value and the formula text after the closing quote, or
      `None` when the literal is never closed. */
  function ReadQuoted(t: string): Option<(string, string)>
    decreases |t|
  {
    if t == [] then None
    else if t[0] == '\'' then Some(([], t[1..]))
    else if t[0] == '\\' && |t| >= 2 then
      match ReadQuoted(t[2..])
      case Some(p) => Some(([t[1]] + p.0, p.1))
      case None => None
    else
      match ReadQuoted(t[1..])
      case Some(p) => Some(([t[0]] + p.0, p.1))
      case None => None
  }

  /** For a value without a backslash, the literal `'<escaped value>'` of the
      lookup formula reads back as exactly the value and ends where the closing
      quote was put, whatever follows it: a lookup by escaped value is a lookup
      by equality. */
  lemma {:induction false} EscapeRoundTrip(s: string, rest: string)
    requires '\\' !in s
    ensures ReadQuoted(EscapeAirtableValue(s) + "'" + rest) == Some((s, rest))
  {
    var t := EscapeAirtableValue(s) + "'" + rest;
    if s == [] {
      assert t == "'" + rest;
    } else if s[0] == '\'' {
      var e := EscapeAirtableValue(s[1..]);
      assert t == ['\\', '\''] + (e + "'" + rest);
      assert t[2..] == e + "'" + rest;
      EscapeRoundTrip(s[1..], rest);
      assert s == ['\''] + s[1..];
    } else {
      var e := EscapeAirtableValue(s[1..]);
      assert t == [s[0]] + (e + "'" + rest);
      assert t[1..] == e + "'" + rest;
      EscapeRoundTrip(s[1..], rest);
      assert s == [s[0]] + s[1..];
    }
  }

  /** Backslashes are not escaped: the value `a\` puts `'a\'` in the formula, where
      the backslash takes the closing quote and the literal is never closed. */
  lemma TrailingBackslashOpensLiteral()
    ensures ReadQuoted(EscapeAirtableValue(['a', '\\']) + "'") == None
  {
    var e := EscapeAirtableValue(['a', '\\']);
    assert e == ['a', '\\'] by {
      assert ['a', '\\'][1..] == ['\\'];
      assert EscapeAirtableValue(['\\']) == ['\\'];
    }
    var t := e + "'";
    assert t == ['a', '\\', '\''];
    assert t[1..] == ['\\', '\''];
    assert t[1..][2..] == [];
    assert ReadQuoted(t[1..]) == None;
  }

  // ---------------------------------------------------------------------------
  // UTF-16 code units

  /** A UTF-16 code unit: what JavaScript strings are made of, and what their
      `length` and `slice` count. */
  type CodeUnit = u: int | 0 <= u < 0x1_0000

  /** A lead (high) surrogate, the first unit of a character above U+FFFF. */
  predicate IsLeadSurrogate(u: CodeUnit) {
    0xD800 <= u < 0xDC00
  }

  /** The UTF-16 encoding of one character: itself below U+10000, otherwise a
      lead surrogate followed by a trail surrogate. */
  function Utf16Char(c: char): (r: seq<CodeUnit>)
    ensures |r| == if c as int < 0x1_0000 then 1 else 2
    ensures |r| == 2 ==> IsLeadSurrogate(r[0]) && 0xDC00 <= r[1] < 0xE000
  {
    var v := c as int;
    if v < 0x1_0000 then [v]
    else [0xD800 + (v - 0x1_0000) / 0x400, 0xDC00 + (v - 0x1_0000) % 0x400]
  }

  /** The JavaScript string holding `s`. */
  function Utf16(s: string): (r: seq<CodeUnit>)
    ensures |r| >= |s|
  {
    if s == [] then [] else Utf16Char(s[0]) + Utf16(s[1..])
  }

  /** Below U+10000 a character is one code unit, so JavaScript's `length` and
      `slice` agree with the characters. */
  predicate AllBmp(s: string) {
    forall i | 0 <= i < |s| :: s[i] as int < 0x1_0000
  }

  lemma {:induction false} Utf16OfBmp(s: string)
    requires AllBmp(s)
    ensures |Utf16(s)| == |s|
    ensures forall i | 0 <= i < |s| :: Utf16(s)[i] == s[i] as int
  {
    if s != [] {
      assert AllBmp(s[1..]) by {
        assert forall i | 0 <= i < |s| - 1 :: s[1..][i] == s[i + 1];
      }
      Utf16OfBmp(s[1..]);
    }
  }

  /** `n` copies of a character above U+FFFF are `2n` code units alternating
      lead and trail surrogates. */
  lemma {:induction false} Utf16OfRepeatedAstral(c: char, n: nat)
    requires c as int >= 0x1_0000
    ensures |Utf16(Repeat(c, n))| == 2 * n
    ensures forall i | 0 <= i < 2 * n :: Utf16(Repeat(c, n))[i] == Utf16Char(c)[i % 2]
  {
    if n > 0 {
      var s := Repeat(c, n);
      assert s[0] == c && s[1..] == Repeat(c, n - 1);
      Utf16OfRepeatedAstral(c, n - 1);
      var u := Utf16(s);
      assert u == Utf16Char(c) + Utf16(Repeat(c, n - 1));
      forall i | 2 <= i < 2 * n ensures u[i] == Utf16Char(c)[i % 2] {
        assert u[i] == Utf16(Repeat(c, n - 1))[i - 2];
        assert (i - 2) % 2 == i % 2;
      }
    }
  }

  // ---------------------------------------------------------------------------
  // split / join on one character

  /** `s.split(c)` for a one-character separator: the pieces between the
      occurrences of `c`, in order, empty pieces included. */
  function Split(s: string, c: char): (r: seq<string>)
    ensures |r| >= 1
    ensures forall i | 0 <= i < |r| :: c !in r[i]
    ensures c !in s ==> r == [s]
    decreases |s|
  {
    if c !in s then [s]
    else
      var i := IndexOf(s, c);
      [s[..i]] + Split(s[i + 1..], c)
  }

  /** The position of the first occurrence of `c` in `s`. */
  function IndexOf(s: string, c: char): (i: nat)
    requires c in s
    ensures i < |s| && s[i] == c && c !in s[..i]
  {
    if s[0] == c then 0 else 1 + IndexOf(s[1..], c)
  }

  /** `parts.join(c)`. */
  function Join(parts: seq<string>, c: char): string
    requires |parts| >= 1
  {
    if |parts| == 1 then parts[0] else parts[0] + [c] + Join(parts[1..], c)
  }

  /** Splitting and re-joining gives back the original text. */
  lemma {:induction false} JoinSplit(s: string, c: char)
    ensures Join(Split(s, c), c) == s
    decreases |s|
  {
    if c in s {
      var i := IndexOf(s, c);
      JoinSplit(s[i + 1..], c);
      assert s == s[..i] + [c] + s[i + 1..];
    }
  }

  /** Splitting text that begins with a separator-free piece and a separator. */
  lemma SplitCons(a: string, c: char, b: string)
    requires c !in a
    ensures Split(a + [c] + b, c) == [a] + Split(b, c)
  {
    var s := a + [c] + b;
    assert s[|a|] == c;
    var i := IndexOf(s, c);
    assert s[..i] == a;
    assert s[i + 1..] == b;
  }

  /** Joining pieces that contain no separator and splitting again gives back the pieces. */
  lemma {:induction false} SplitJoin(parts: seq<string>, c: char)
    requires |parts| >= 1
    requires forall i | 0 <= i < |parts| :: c !in parts[i]
    ensures Split(Join(parts, c), c) == parts
  {
    if |parts| > 1 {
      var rest := Join(parts[1..], c);
      assert Join(parts, c) == parts[0] + [c] + rest;
      SplitJoin(parts[1..], c);
      SplitCons(parts[0], c, rest);
      assert parts == [parts[0]] + parts[1..];
    }
  }

  // ---------------------------------------------------------------------------
  // digits, padding, lower case

  predicate IsDigit(c: char) {
    '0' <= c <= '9'
  }

  predicate AllDigits(s: string) {
    forall i | 0 <= i < |s| :: IsDigit(s[i])
  }

  /** No printable ASCII character other than the space is white space. */
  lemma AsciiIsNotSpace(c: char)
    requires ' ' < c <= '~'
    ensures !IsSpace(c)
  {
  }

  lemma DigitIsNotSpace(c: char)
    requires IsDigit(c)
    ensures !IsSpace(c)
  {
    AsciiIsNotSpace(c);
  }

  /** A digit string has no white space to trim. */
  lemma DigitsAreTrimmed(s: string)
    requires AllDigits(s)
    ensures TrimStart(s) == s && Trim(s) == s
  {
    if s != [] {
      DigitIsNotSpace(s[0]);
      DigitIsNotSpace(s[|s| - 1]);
      TrimOfTrimmed(s);
    }
  }

  /** `s.replace(/\D/g, '')`: the digits of `s`, in order. */
  function DigitsOnly(s: string): (r: string)
    ensures AllDigits(r)
    ensures |r| <= |s|
    ensures AllDigits(s) ==> r == s
  {
    if s == [] then []
    else if IsDigit(s[0]) then [s[0]] + DigitsOnly(s[1..])
    else DigitsOnly(s[1..])
  }

  /** The digit filter works piece by piece: it keeps the order of the digits. */
  lemma {:induction false} DigitsOnlyAppend(a: string, b: string)
    ensures DigitsOnly(a + b) == DigitsOnly(a) + DigitsOnly(b)
  {
    if a != [] {
      assert (a + b)[0] == a[0] && (a + b)[1..] == a[1..] + b;
      DigitsOnlyAppend(a[1..], b);
    } else {
      assert a + b == b;
    }
  }

  /** A single character is kept exactly when it is a digit. */
  lemma DigitsOnlyOfOne(c: char)
    ensures DigitsOnly([c]) == if IsDigit(c) then [c] else []
  {
    assert [c][1..] == [];
  }

  /** `s.padStart(n, c)` for a one-character pad: `c` repeated in front until the
      length reaches `n`; a longer string is returned unchanged, never cut. */
  function PadStart(s: string, n: nat, c: char): (r: string)
    ensures |r| == if |s| >= n then |s| else n
    ensures r[|r| - |s|..] == s
    ensures forall i | 0 <= i < |r| - |s| :: r[i] == c
  {
    if |s| >= n then s else Repeat(c, n - |s|) + s
  }

  function Repeat(c: char, n: nat): (r: string)
    ensures |r| == n
    ensures forall i | 0 <= i < n :: r[i] == c
  {
    if n == 0 then [] else [c] + Repeat(c, n - 1)
  }

  function LowerChar(c: char): char {
    if 'A' <= c <= 'Z' then (c as int + 32) as char else c
  }

  /** `toLowerCase`, restricted to the ASCII letters. */
  function ToLower(s: string): (r: string)
    ensures |r| == |s|
    ensures forall i | 0 <= i < |s| :: r[i] == LowerChar(s[i])
  {
    if s == [] then [] else [LowerChar(s[0])] + ToLower(s[1..])
  }
}

=== FILE: leaderboards.dfy ===
/** The monthly leaderboards of src/leaderboards.js: the configuration clamps,
    the rows of a month as the Invites Log query returns them, the two boards
    (invites and qualified referrals per inviter), the `/mystats` counters and
    the name shortening of the board tables. */
module Leaderboards {
  import opened Wrappers
  import opened JsText
  import opened Numbers
  import opened Records
  import opened Months
  import opened Ranking

  // ---------------------------------------------------------------------------
  // configuration

  /** `Math.max(3, Math.min(25, parseInt(LEADERBOARD_TOP_N, 10) || 10))`. */
  function TopN(raw: string): (r: nat)
    ensures 3 <= r <= 25
    ensures ParseInt(raw).None? || ParseInt(raw) == Some(0) ==> r == 10
    ensures ParseInt(raw).Some? && ParseInt(raw).value != 0 ==>
              r == if ParseInt(raw).value < 3 then 3 else if ParseInt(raw).value > 25 then 25 else ParseInt(raw).value
  {
    ClampedInt(raw, 3, 25, 10)
  }

  /** `Number(REFERRAL_FEE_EUR) || 5`: a blank, zero or unreadable fee is 5. */
  function Fee(raw: string): (r: real)
    ensures r != 0.0
    ensures ParseNumber(raw).Some? && ParseNumber(raw).value != 0.0 ==> r == ParseNumber(raw).value
    ensures ParseNumber(raw).None? || ParseNumber(raw) == Some(0.0) ==> r == 5.0
  {
    match ParseNumber(raw)
    case Some(v) => if v == 0.0 then 5.0 else v
    case None => 5.0
  }

  /** A configured size in range is taken as it is. */
  lemma TopNOfDigits(n: nat)
    requires 3 <= n <= 25
    ensures TopN(NatToDigits(n)) == n
  {
    ParseIntOfDigits(n);
  }

  /** A configured whole-euro fee is taken as it is, and an unset one is 5. */
  lemma FeeOfDigits(n: nat)
    requires n >= 1
    ensures Fee(NatToDigits(n)) == n as real
    ensures Fee("5") == 5.0
  {
    ParseNumberOfDigits(n);
    ParseNumberOfDigits(5);
    assert NatToDigits(5) == "5";
  }

  // ---------------------------------------------------------------------------
  // Invites Log rows

  /** A row of the Invites Log as the leaderboards read it: the inviter cell,
      whether the referral-qualified checkbox is ticked, the Month Key cell and
      the Joined At instant. */
  datatype LogEntry = LogEntry(inviter: string, qualified: bool, monthKey: string, joinedAt: int)

  /** `monthFilterFormula(monthKey)` applied to the whole log, keeping row order. */
  function MonthRows(cfg: Carryover, log: seq<LogEntry>, monthKey: string): (r: seq<LogEntry>)
    ensures |r| <= |log|
    ensures forall e :: e in r <==> e in log && InMonth(cfg, monthKey, e.monthKey, e.joinedAt)
    ensures forall e :: multiset(r)[e] == if InMonth(cfg, monthKey, e.monthKey, e.joinedAt) then multiset(log)[e] else 0
  {
    if log == [] then []
    else
      var init := log[..|log| - 1];
      var e := log[|log| - 1];
      assert log == init + [e];
      var rest := MonthRows(cfg, init, monthKey);
      if InMonth(cfg, monthKey, e.monthKey, e.joinedAt) then rest + [e] else rest
  }

  /** The filter works row by row, keeping the order of the log: on a log made
      of two parts it returns the first part's rows of the month, then the
      second's. With `MonthRowsOfOne` this determines the result. */
  lemma {:induction false} MonthRowsAppend(cfg: Carryover, a: seq<LogEntry>, b: seq<LogEntry>, monthKey: string)
    ensures MonthRows(cfg, a + b, monthKey) == MonthRows(cfg, a, monthKey) + MonthRows(cfg, b, monthKey)
    decreases |b|
  {
    if b == [] {
      assert a + b == a;
    } else {
      var b0 := b[..|b| - 1];
      assert (a + b)[..|a + b| - 1] == a + b0;
      assert (a + b)[|a + b| - 1] == b[|b| - 1];
      MonthRowsAppend(cfg, a, b0, monthKey);
    }
  }

  /** A single row is kept exactly when it belongs to the month. */
  lemma MonthRowsOfOne(cfg: Carryover, e: LogEntry, monthKey: string)
    ensures MonthRows(cfg, [e], monthKey) == if InMonth(cfg, monthKey, e.monthKey, e.joinedAt) then [e] else []
  {
    assert [e][..0] == [];
  }

  /** The filter without carryover settings: exactly the rows whose Month Key is the month. */
  const NoCarryover := Carryover("", None)

  /** The carryover settings only ever add rows, and only to the carryover
      month: every row a month's query returns without them it still returns,
      and every other month's rows are the plain Month Key match. */
  lemma {:induction false} CarryoverOnlyAdds(cfg: Carryover, log: seq<LogEntry>, monthKey: string)
    ensures multiset(MonthRows(NoCarryover, log, monthKey)) <= multiset(MonthRows(cfg, log, monthKey))
    ensures !IsCarryoverMonth(cfg, monthKey) ==> MonthRows(cfg, log, monthKey) == MonthRows(NoCarryover, log, monthKey)
    decreases |log|
  {
    if log != [] {
      CarryoverOnlyAdds(cfg, log[..|log| - 1], monthKey);
    }
  }

  /** Whether a row counts for `id` in the loop of `computeUserStats`: its trimmed
      inviter cell equals `id` (and, for the qualified counter, it is ticked). */
  predicate CountsFor(e: LogEntry, id: string, qualifiedOnly: bool) {
    Trim(e.inviter) == id && (!qualifiedOnly || e.qualified)
  }

  /** The keys the board loop of `buildLeaderboardsForMonth` adds to its count
      map, in row order: every non-blank trimmed inviter (for the affiliate map,
      only of qualified rows). */
  function InviterKeys(rows: seq<LogEntry>, qualifiedOnly: bool): (r: seq<string>)
    ensures |r| <= |rows|
    ensures forall i | 0 <= i < |r| :: r[i] != "" && Trimmed(r[i])
  {
    if rows == [] then []
    else
      var init := InviterKeys(rows[..|rows| - 1], qualifiedOnly);
      var e := rows[|rows| - 1];
      var id := Trim(e.inviter);
      if id != "" && (!qualifiedOnly || e.qualified) then
        assert forall i | 0 <= i < |init| :: (init + [id])[i] == init[i];
        init + [id]
      else init
  }

  /** The number of rows that count for `id`. */
  function CountRows(rows: seq<LogEntry>, id: string, qualifiedOnly: bool): nat {
    if rows == [] then 0
    else
      CountRows(rows[..|rows| - 1], id, qualifiedOnly)
      + (if CountsFor(rows[|rows| - 1], id, qualifiedOnly) then 1 else 0)
  }

  /** The count map of the boards agrees with a direct count of the rows for every
      non-blank inviter, and holds nothing for the blank one. */
  lemma {:induction false} KeysCountRows(rows: seq<LogEntry>, id: string, qualifiedOnly: bool)
    ensures Occurrences(InviterKeys(rows, qualifiedOnly), id) == if id == "" then 0 else CountRows(rows, id, qualifiedOnly)
  {
    if rows != [] {
      var init := rows[..|rows| - 1];
      var keys := InviterKeys(init, qualifiedOnly);
      KeysCountRows(init, id, qualifiedOnly);
      var e := rows[|rows| - 1];
      var k := Trim(e.inviter);
      if k != "" && (!qualifiedOnly || e.qualified) {
        assert (keys + [k])[..|keys + [k]| - 1] == keys;
      }
    }
  }

  /** A ticked row is also an invite: per inviter, qualified never exceeds invites. */
  lemma {:induction false} QualifiedAtMostInvites(rows: seq<LogEntry>, id: string)
    ensures CountRows(rows, id, true) <= CountRows(rows, id, false)
  {
    if rows != [] {
      QualifiedAtMostInvites(rows[..|rows| - 1], id);
    }
  }

  // ---------------------------------------------------------------------------
  // boards

  /** The two rankings of `buildLeaderboardsForMonth`, as (inviter, count) pairs. */
  datatype Board = Board(invites: seq<Entry>, affiliates: seq<Entry>)

  /** Tally, stable sort by count, cut to `topN`: once over all rows with an
      inviter, once over the qualified ones. */
  function BuildBoard(rows: seq<LogEntry>, topN: nat): Board {
    Board(Rank(InviterKeys(rows, false), topN), Rank(InviterKeys(rows, true), topN))
  }

  /** Every line of a ranking names a non-blank inviter with its number of rows
      (of qualified rows when `qualifiedOnly`), which is at least one. */
  predicate CountsRows(r: seq<Entry>, rows: seq<LogEntry>, qualifiedOnly: bool) {
    forall i | 0 <= i < |r| :: r[i].id != "" && r[i].count == CountRows(rows, r[i].id, qualifiedOnly) >= 1
  }

  /** Each board line carries its inviter's number of rows (qualified rows on the
      affiliate board), the inviter is never blank, and an affiliate's qualified
      count is at most its invite count. */
  lemma BoardCounts(rows: seq<LogEntry>, topN: nat)
    ensures var b := BuildBoard(rows, topN);
            && |b.invites| <= topN && |b.affiliates| <= topN
            && CountsRows(b.invites, rows, false)
            && CountsRows(b.affiliates, rows, true)
            && (forall i | 0 <= i < |b.affiliates| :: b.affiliates[i].count <= CountRows(rows, b.affiliates[i].id, false))
  {
    var b := BuildBoard(rows, topN);
    RankedRows(rows, topN, false);
    RankedRows(rows, topN, true);
    forall i | 0 <= i < |b.affiliates|
      ensures b.affiliates[i].count <= CountRows(rows, b.affiliates[i].id, false)
    {
      QualifiedAtMostInvites(rows, b.affiliates[i].id);
    }
  }

  /** One ranking of the boards: each line's count is its inviter's row count. */
  lemma RankedRows(rows: seq<LogEntry>, topN: nat, qualifiedOnly: bool)
    ensures CountsRows(Rank(InviterKeys(rows, qualifiedOnly), topN), rows, qualifiedOnly)
  {
    var keys := InviterKeys(rows, qualifiedOnly);
    var r := Rank(keys, topN);
    RankSpec(keys, topN, SortDesc(Tally(keys)));
    forall i | 0 <= i < |r|
      ensures r[i].id != "" && r[i].count == CountRows(rows, r[i].id, qualifiedOnly) >= 1
    {
      KeysCountRows(rows, r[i].id, qualifiedOnly);
    }
  }

  /** `isEmptyMonth` of `tick`: both tables show their placeholder text. */
  predicate EmptyBoard(b: Board) {
    b.invites == [] && b.affiliates == []
  }

  /** A month's boards are empty exactly when no row of the month names an
      inviter: a qualified row is also an invite row, so the affiliate board is
      never the only one with lines. */
  lemma {:induction false} EmptyBoardIff(rows: seq<LogEntry>, topN: nat)
    requires topN >= 1
    ensures EmptyBoard(BuildBoard(rows, topN)) <==> InviterKeys(rows, false) == []
  {
    var keys := InviterKeys(rows, false);
    var b := BuildBoard(rows, topN);
    if keys != [] {
      var t := Tally(keys);
      assert keys[0] in Dedup(keys);
      assert Ids(t) != [];
      assert SortDesc(t) != [];
      assert b.invites != [];
    } else {
      NoKeysNoQualifiedKeys(rows);
      assert Tally(InviterKeys(rows, true)) == [];
    }
  }

  lemma {:induction false} NoKeysNoQualifiedKeys(rows: seq<LogEntry>)
    ensures InviterKeys(rows, false) == [] ==> InviterKeys(rows, true) == []
  {
    if rows != [] {
      NoKeysNoQualifiedKeys(rows[..|rows| - 1]);
    }
  }

  /** `€${q * FEE}` on the affiliate board and in the earnings DM. */
  function Earned(qualified: nat, fee: real): (r: real)
    ensures fee > 0.0 ==> (r == 0.0 <==> qualified == 0)
  {
    qualified as real * fee
  }

  // ---------------------------------------------------------------------------
  // /mystats

  datatype Stats = Stats(invites: nat, qualified: nat, earned: real)

  /** `computeUserStats(userId, monthKey)`: the month's rows whose trimmed
      inviter equals the trimmed user ID. A blank user ID counts the rows with a
      blank inviter, which the boards skip. */
  function UserStats(cfg: Carryover, log: seq<LogEntry>, monthKey: string, userId: string, fee: real): (r: Stats)
    ensures r.qualified <= r.invites
    ensures r.earned == Earned(r.qualified, fee)
  {
    var rows := MonthRows(cfg, log, monthKey);
    var id := Trim(userId);
    QualifiedAtMostInvites(rows, id);
    Stats(CountRows(rows, id, false), CountRows(rows, id, true), Earned(CountRows(rows, id, true), fee))
  }

  /** For a non-blank user the month's stats are the user's counts on the boards'
      tallies, whether or not the user made the top `TOP_N`. */
  lemma StatsMatchBoards(cfg: Carryover, log: seq<LogEntry>, monthKey: string, userId: string, fee: real)
    requires Trim(userId) != ""
    ensures var rows := MonthRows(cfg, log, monthKey);
            var st := UserStats(cfg, log, monthKey, userId, fee);
            && st.invites == CountOf(Tally(InviterKeys(rows, false)), Trim(userId))
            && st.qualified == CountOf(Tally(InviterKeys(rows, true)), Trim(userId))
  {
    var rows := MonthRows(cfg, log, monthKey);
    KeysCountRows(rows, Trim(userId), false);
    KeysCountRows(rows, Trim(userId), true);
  }

  /** The rows whose inviter cell equals `id` exactly (`{Inviter Discord User ID}='id'`). */
  function CountExact(log: seq<LogEntry>, id: string, qualifiedOnly: bool): nat {
    if log == [] then 0
    else
      var e := log[|log| - 1];
      CountExact(log[..|log| - 1], id, qualifiedOnly) + (if e.inviter == id && (!qualifiedOnly || e.qualified) then 1 else 0)
  }

  /** `computeUserAllTime(userId)`: the whole log, matched on the cell as stored.
      On a log whose inviter cells are stored trimmed this is the month counter
      of `/mystats` run over every row. */
  function AllTime(log: seq<LogEntry>, userId: string, fee: real): (r: Stats)
    ensures r.qualified <= r.invites <= |log|
    ensures r.earned == Earned(r.qualified, fee)
    ensures TrimmedInviters(log) ==>
              r.invites == CountRows(log, Trim(userId), false) && r.qualified == CountRows(log, Trim(userId), true)
  {
    var id := Trim(userId);
    CountExactBound(log, id);
    ExactIsCountRows(log, id, false);
    ExactIsCountRows(log, id, true);
    Stats(CountExact(log, id, false), CountExact(log, id, true), Earned(CountExact(log, id, true), fee))
  }

  lemma {:induction false} CountExactBound(log: seq<LogEntry>, id: string)
    ensures CountExact(log, id, true) <= CountExact(log, id, false) <= |log|
  {
    if log != [] {
      CountExactBound(log[..|log| - 1], id);
    }
  }

  /** Whether every inviter cell is stored trimmed, as the join handler writes it. */
  predicate TrimmedInviters(log: seq<LogEntry>) {
    forall i | 0 <= i < |log| :: Trimmed(log[i].inviter)
  }

  /** On trimmed inviter cells, matching the cell as stored and matching it
      trimmed count the same rows. */
  lemma {:induction false} ExactIsCountRows(log: seq<LogEntry>, id: string, q: bool)
    ensures TrimmedInviters(log) ==> CountExact(log, id, q) == CountRows(log, id, q)
  {
    if log != [] && TrimmedInviters(log) {
      TrimmedInitLast(log);
      ExactIsCountRows(log[..|log| - 1], id, q);
      CountsForTrimmed(log[|log| - 1], id, q);
    }
  }

  /** For a trimmed inviter cell the trimmed match is the exact match. */
  lemma CountsForTrimmed(e: LogEntry, id: string, q: bool)
    requires Trimmed(e.inviter)
    ensures CountsFor(e, id, q) <==> e.inviter == id && (!q || e.qualified)
  {
    TrimOfTrimmed(e.inviter);
    CountsForOwnTrim(e, id, q);
  }

  lemma CountsForOwnTrim(e: LogEntry, id: string, q: bool)
    requires Trim(e.inviter) == e.inviter
    ensures CountsFor(e, id, q) <==> e.inviter == id && (!q || e.qualified)
  {
  }

  /** On a log whose inviter cells are stored trimmed, a month's counts never
      exceed the all-time counts. */
  lemma MonthWithinAllTime(cfg: Carryover, log: seq<LogEntry>, monthKey: string, userId: string, fee: real)
    requires TrimmedInviters(log)
    ensures UserStats(cfg, log, monthKey, userId, fee).invites <= AllTime(log, userId, fee).invites
    ensures UserStats(cfg, log, monthKey, userId, fee).qualified <= AllTime(log, userId, fee).qualified
  {
    var id := Trim(userId);
    FilterWithinExact(cfg, log, monthKey, id, false);
    FilterWithinExact(cfg, log, monthKey, id, true);
  }

  lemma {:induction false} FilterWithinExact(cfg: Carryover, log: seq<LogEntry>, monthKey: string, id: string, q: bool)
    requires TrimmedInviters(log)
    ensures CountRows(MonthRows(cfg, log, monthKey), id, q) <= CountExact(log, id, q)
  {
    if log != [] {
      var init := log[..|log| - 1];
      var e := log[|log| - 1];
      TrimmedInitLast(log);
      FilterWithinExact(cfg, init, monthKey, id, q);
      MonthRowsSnoc(cfg, log, monthKey);
      if InMonth(cfg, monthKey, e.monthKey, e.joinedAt) {
        CountRowsSnoc(MonthRows(cfg, init, monthKey), e, id, q);
        TrimOfTrimmed(e.inviter);
      }
    }
  }

  lemma TrimmedInitLast(log: seq<LogEntry>)
    requires log != [] && TrimmedInviters(log)
    ensures TrimmedInviters(log[..|log| - 1]) && Trimmed(log[|log| - 1].inviter)
  {
  }

  lemma MonthRowsSnoc(cfg: Carryover, log: seq<LogEntry>, monthKey: string)
    requires log != []
    ensures var e := log[|log| - 1];
            var rest := MonthRows(cfg, log[..|log| - 1], monthKey);
            MonthRows(cfg, log, monthKey) == if InMonth(cfg, monthKey, e.monthKey, e.joinedAt) then rest + [e] else rest
  {
  }

  lemma CountRowsSnoc(rows: seq<LogEntry>, e: LogEntry, id: string, q: bool)
    ensures CountRows(rows + [e], id, q) == CountRows(rows, id, q) + (if CountsFor(e, id, q) then 1 else 0)
  {
    assert (rows + [e])[..|rows + [e]| - 1] == rows;
  }

  /** The month query trims the inviter cell and the all-time query does not: a
      row stored as " 42" counts for user 42 this month but not all-time. */
  lemma UntrimmedRowMissesAllTime()
    ensures var log := [LogEntry(" 42", false, "2026-02", 0)];
            var cfg := Carryover("", None);
            UserStats(cfg, log, "2026-02", "42", 5.0).invites == 1
            && AllTime(log, "42", 5.0).invites == 0
  {
    SampleMonthSide();
    SampleAllTimeSide();
  }

  lemma SampleMonthSide()
    ensures UserStats(Carryover("", None), [LogEntry(" 42", false, "2026-02", 0)], "2026-02", "42", 5.0).invites == 1
  {
    var e := LogEntry(" 42", false, "2026-02", 0);
    var log := [e];
    var cfg := Carryover("", None);
    assert log[..0] == [];
    assert MonthRows(cfg, log, "2026-02") == [] + [e];
    TrimSample();
    CountRowsSnoc([], e, "42", false);
  }

  lemma SampleAllTimeSide()
    ensures AllTime([LogEntry(" 42", false, "2026-02", 0)], "42", 5.0).invites == 0
  {
    var e := LogEntry(" 42", false, "2026-02", 0);
    var log := [e];
    TrimSample();
    assert log[..0] == [];
    assert |e.inviter| == 3 && e.inviter != "42";
  }

  lemma TrimSample()
    ensures Trim("42") == "42" && Trim(" 42") == "42"
  {
    assert AllDigits("42");
    DigitsAreTrimmed("42");
    assert " 42" == [' '] + "42";
    TrimDropsLeadingSpace(' ', "42");
  }

  // ---------------------------------------------------------------------------
  // names

  /** `s.slice(0, end)` for an `end` that may be negative (counted from the end). */
  function SliceTo<T>(s: seq<T>, end: int): (r: seq<T>)
    ensures |r| <= |s| && r == s[..|r|]
    ensures 0 <= end <= |s| ==> |r| == end
  {
    var e := if end < 0 then (if |s| + end < 0 then 0 else |s| + end) else if end > |s| then |s| else end;
    s[..e]
  }

  /** The ellipsis `…` (U+2026), a single code unit. */
  const Ellipsis: CodeUnit := 0x2026

  /** `clampName` on a JavaScript string: longer than `max` code units, it is
      cut to its first `max - 1` code units followed by an ellipsis. */
  function ClampUnits(u: seq<CodeUnit>, max: int): (r: seq<CodeUnit>)
    ensures |u| <= max ==> r == u
    ensures 1 <= max < |u| ==> |r| == max && r == u[..max - 1] + [Ellipsis]
  {
    if |u| > max then SliceTo(u, max - 1) + [Ellipsis] else u
  }

  /** `clampName(name, max)`: `length` and `slice` count UTF-16 code units, so a
      character above U+FFFF counts twice and the cut may fall inside it. */
  function ClampName(name: string, max: int): (r: seq<CodeUnit>)
    ensures |Utf16(name)| <= max ==> r == Utf16(name)
    ensures 1 <= max < |Utf16(name)| ==> |r| == max && r == Utf16(name)[..max - 1] + [Ellipsis]
  {
    ClampUnits(Utf16(name), max)
  }

  /** A clamped name fits and clamping it again changes nothing. */
  lemma ClampNameIdempotent(name: string, max: int)
    requires max >= 1
    ensures |ClampName(name, max)| <= max
    ensures ClampUnits(ClampName(name, max), max) == ClampName(name, max)
  {
  }

  /** For a name without characters above U+FFFF the limit counts characters:
      a name of at most `max` characters is kept, a longer one keeps its first
      `max - 1` characters before the ellipsis. */
  lemma ClampNameOfBmp(name: string, max: int)
    requires AllBmp(name) && max >= 1
    ensures |name| <= max ==> ClampName(name, max) == Utf16(name)
    ensures max < |name| ==> |ClampName(name, max)| == max && ClampName(name, max)[max - 1] == Ellipsis
    ensures max < |name| ==> forall i | 0 <= i < max - 1 :: ClampName(name, max)[i] == name[i] as int
  {
    Utf16OfBmp(name);
  }

  /** Ten emoji against the default limit of 18: JavaScript counts 20 code
      units, so the name is cut after 17 of them, inside the ninth emoji, and
      the result ends with a lone lead surrogate before the ellipsis. */
  lemma EmojiNameIsCutInsideACharacter()
    ensures var r := ClampName(Repeat('\U{1F600}', 10), 18);
            |r| == 18 && IsLeadSurrogate(r[16]) && r[17] == Ellipsis
  {
    var c := '\U{1F600}';
    Utf16OfRepeatedAstral(c, 10);
    var u := Utf16(Repeat(c, 10));
    assert u[16] == Utf16Char(c)[0];
  }

  /** `getDiscordUsername(discordId)` without its cache: "Unknown" for a blank ID,
      the Discord Username of the first member row with that ID when it is set,
      and otherwise `User ` with the last four characters of the ID. */
  function DisplayName(members: seq<Member>, discordId: string): (r: string)
    ensures r != ""
    ensures Trim(discordId) == "" ==> r == "Unknown"
    ensures forall i | 0 <= i < |members| && members[i].discordId == Trim(discordId) != "" && members[i].username != "" ::
              FindByDiscordId(members, Trim(discordId)) == Some(i) ==> r == members[i].username
    ensures Trim(discordId) != "" && FindByDiscordId(members, Trim(discordId)).None? ==> |r| >= 5 && r[..5] == "User "
  {
    var id := Trim(discordId);
    if id == "" then "Unknown"
    else
      var name := match FindByDiscordId(members, id) case Some(i) => members[i].username case None => "";
      if name != "" then name else "User " + SliceFrom(id, -4)
  }

  /** `s.slice(start)` for a negative `start`: the last `-start` characters. */
  function SliceFrom(s: string, start: int): (r: string)
    requires start < 0
    ensures |r| == if |s| < -start then |s| else -start
    ensures r == s[|s| - |r|..]
  {
    if |s| + start < 0 then s else s[|s| + start..]
  }
}

=== FILE: monthly.dfy ===
/** The month-end work of src/leaderboards.js: `sendMonthlyEarningsDMs`, whose
    guard is the member row's Last Earnings DM Month cell, and the `tick` state
    machine that finalizes a month once the clock has moved past it. */
module Monthly {
  import opened Wrappers
  import opened JsText
  import opened Records
  import opened Months
  import opened Ranking
  import opened Leaderboards

  // ---------------------------------------------------------------------------
  // earnings DMs

  /** What happened when the bot tried to reach an inviter: the user could not be
      fetched, the DM was refused, or it was delivered and the row update that
      records the month did or did not succeed. */
  datatype Delivery = NoUser | SendFailed | Delivered(marked: bool)

  /** The qualified rows of the month, counted per trimmed non-blank inviter in
      first-seen order (the `counts` map of `sendMonthlyEarningsDMs`). */
  function QualifiedCounts(cfg: Carryover, log: seq<LogEntry>, monthKey: string): (r: seq<Entry>)
    ensures Distinct(Ids(r))
    ensures forall i | 0 <= i < |r| :: r[i].count == CountRows(MonthRows(cfg, log, monthKey), r[i].id, true) >= 1
  {
    var rows := MonthRows(cfg, log, monthKey);
    var t := Tally(InviterKeys(rows, true));
    forall i | 0 <= i < |t| ensures t[i].count == CountRows(rows, t[i].id, true) >= 1 {
      CountOfEntry(t, i);
      KeysCountRows(rows, t[i].id, true);
      assert t[i].id in Dedup(InviterKeys(rows, true)) by { assert Ids(t)[i] == t[i].id; }
    }
    t
  }

  /** Whether the row found for `id` exists and has not yet been sent the month. */
  predicate Unsent(members: seq<Member>, id: string, monthKey: string) {
    match FindByDiscordId(members, id)
    case Some(i) => members[i].lastEarningsDm != monthKey
    case None => false
  }

  /** One iteration of the DM loop for the entry `e`: it returns the table after
      the step and the DMs sent (zero or one). */
  function DmStep(members: seq<Member>, e: Entry, monthKey: string, deliver: string -> Delivery)
    : (r: (seq<Member>, seq<Entry>))
    ensures |r.0| == |members|
    ensures r.1 == (if Unsent(members, e.id, monthKey) && deliver(e.id).Delivered? then [e] else [])
    ensures forall j | 0 <= j < |members| ::
              r.0[j] == members[j] || (r.0[j] == members[j].(lastEarningsDm := monthKey) && members[j].discordId == e.id)
    ensures Unsent(members, e.id, monthKey) && deliver(e.id) == Delivered(true) ==> !Unsent(r.0, e.id, monthKey)
  {
    match FindByDiscordId(members, e.id)
    case None => (members, [])
    case Some(i) =>
      if members[i].lastEarningsDm == monthKey then (members, [])
      else match deliver(e.id)
        case Delivered(marked) =>
          var m := if marked then members[i := members[i].(lastEarningsDm := monthKey)] else members;
          assert marked ==> FindByDiscordId(m, e.id) == Some(i) by {
            if marked { FindSameIds(m, members, e.id); }
          }
          (m, [e])
        case _ => (members, [])
  }

  /** The loop over the count map of `sendMonthlyEarningsDMs`. */
  function DmLoop(members: seq<Member>, counts: seq<Entry>, monthKey: string, deliver: string -> Delivery)
    : (r: (seq<Member>, seq<Entry>))
    ensures |r.0| == |members|
    ensures forall j | 0 <= j < |members| ::
              r.0[j] == members[j] || r.0[j] == members[j].(lastEarningsDm := monthKey)
    decreases |counts|
  {
    if counts == [] then (members, [])
    else
      var step := DmStep(members, counts[0], monthKey, deliver);
      var rest := DmLoop(step.0, counts[1..], monthKey, deliver);
      (rest.0, step.1 + rest.1)
  }

  /** `sendMonthlyEarningsDMs(monthKey)`: the DMs sent, each with the inviter's
      qualified count, and the member table afterwards. */
  function SendEarningsDms(cfg: Carryover, log: seq<LogEntry>, members: seq<Member>, monthKey: string, deliver: string -> Delivery)
    : (r: (seq<Member>, seq<Entry>))
    ensures |r.0| == |members|
  {
    DmLoop(members, QualifiedCounts(cfg, log, monthKey), monthKey, deliver)
  }

  /** The guard of the loop, both ways: on a list of distinct inviters a DM goes
      to exactly those whose member row exists, was not yet sent this month, and
      could be reached. */
  lemma {:induction false} DmLoopSends(members: seq<Member>, counts: seq<Entry>, monthKey: string, deliver: string -> Delivery, e: Entry)
    requires Distinct(Ids(counts))
    ensures e in DmLoop(members, counts, monthKey, deliver).1 <==>
              e in counts && Unsent(members, e.id, monthKey) && deliver(e.id).Delivered?
    decreases |counts|
  {
    if counts != [] {
      var step := DmStep(members, counts[0], monthKey, deliver);
      assert Distinct(Ids(counts[1..])) by {
        assert forall i | 0 <= i < |counts| - 1 :: Ids(counts[1..])[i] == Ids(counts)[i + 1];
      }
      DmLoopSends(step.0, counts[1..], monthKey, deliver, e);
      if e in counts[1..] && e.id != counts[0].id {
        StepKeepsOthers(members, counts[0], monthKey, deliver, e.id);
      }
    }
  }

  /** A step for one inviter does not change whether another inviter is unsent. */
  lemma StepKeepsOthers(members: seq<Member>, e: Entry, monthKey: string, deliver: string -> Delivery, id: string)
    requires id != e.id
    ensures Unsent(DmStep(members, e, monthKey, deliver).0, id, monthKey) == Unsent(members, id, monthKey)
  {
    var m := DmStep(members, e, monthKey, deliver).0;
    FindSameIds(m, members, id);
  }

  /** A member whose row already holds the month is never sent the DM again. */
  lemma GuardSkipsSentMonth(cfg: Carryover, log: seq<LogEntry>, members: seq<Member>, monthKey: string,
                            deliver: string -> Delivery, i: nat)
    requires i < |members| && members[i].lastEarningsDm == monthKey
    requires FindByDiscordId(members, members[i].discordId) == Some(i)
    ensures forall e | e in SendEarningsDms(cfg, log, members, monthKey, deliver).1 :: e.id != members[i].discordId
  {
    var counts := QualifiedCounts(cfg, log, monthKey);
    forall e | e in SendEarningsDms(cfg, log, members, monthKey, deliver).1 ensures e.id != members[i].discordId {
      DmLoopSends(members, counts, monthKey, deliver, e);
    }
  }

  /** Running the month's DMs a second time, with every delivery and row update
      succeeding both times, sends nothing: the guard makes the job idempotent. */
  lemma DmsIdempotent(cfg: Carryover, log: seq<LogEntry>, members: seq<Member>, monthKey: string,
                      deliver: string -> Delivery)
    requires forall id :: deliver(id) == Delivered(true)
    ensures var first := SendEarningsDms(cfg, log, members, monthKey, deliver);
            SendEarningsDms(cfg, log, first.0, monthKey, deliver).1 == []
  {
    var counts := QualifiedCounts(cfg, log, monthKey);
    var first := DmLoop(members, counts, monthKey, deliver);
    var second := DmLoop(first.0, counts, monthKey, deliver);
    if second.1 != [] {
      var e := second.1[0];
      DmLoopSends(first.0, counts, monthKey, deliver, e);
      LoopMarksDelivered(members, counts, monthKey, deliver, e.id);
      assert false;
    }
  }

  /** After the loop, every inviter of the list whose delivery and update succeed
      has a row holding the month, or no row at all. */
  lemma {:induction false} LoopMarksDelivered(members: seq<Member>, counts: seq<Entry>, monthKey: string,
                                              deliver: string -> Delivery, id: string)
    requires id in Ids(counts) && deliver(id) == Delivered(true)
    ensures !Unsent(DmLoop(members, counts, monthKey, deliver).0, id, monthKey)
    decreases |counts|
  {
    var step := DmStep(members, counts[0], monthKey, deliver);
    var rest := DmLoop(step.0, counts[1..], monthKey, deliver);
    if id == counts[0].id {
      assert !Unsent(step.0, id, monthKey);
      LoopKeepsSent(step.0, counts[1..], monthKey, deliver, id);
    } else {
      assert id in Ids(counts[1..]) by {
        var k :| 0 <= k < |Ids(counts)| && Ids(counts)[k] == id;
        assert k > 0 && Ids(counts[1..])[k - 1] == id;
      }
      LoopMarksDelivered(step.0, counts[1..], monthKey, deliver, id);
    }
  }

  /** The loop never clears a month it finds recorded. */
  lemma {:induction false} LoopKeepsSent(members: seq<Member>, counts: seq<Entry>, monthKey: string,
                                         deliver: string -> Delivery, id: string)
    requires !Unsent(members, id, monthKey)
    ensures !Unsent(DmLoop(members, counts, monthKey, deliver).0, id, monthKey)
    decreases |counts|
  {
    if counts != [] {
      var step := DmStep(members, counts[0], monthKey, deliver);
      FindSameIds(step.0, members, id);
      LoopKeepsSent(step.0, counts[1..], monthKey, deliver, id);
    }
  }

  /** A failed DM leaves the row unmarked, so the next run tries that inviter again. */
  lemma FailedDmIsRetried(cfg: Carryover, log: seq<LogEntry>, members: seq<Member>, monthKey: string,
                          deliver1: string -> Delivery, deliver2: string -> Delivery, e: Entry)
    requires e in QualifiedCounts(cfg, log, monthKey)
    requires Unsent(members, e.id, monthKey)
    requires !deliver1(e.id).Delivered? && deliver2(e.id).Delivered?
    ensures var first := SendEarningsDms(cfg, log, members, monthKey, deliver1);
            e !in first.1 && e in SendEarningsDms(cfg, log, first.0, monthKey, deliver2).1
  {
    var counts := QualifiedCounts(cfg, log, monthKey);
    var first := DmLoop(members, counts, monthKey, deliver1);
    DmLoopSends(members, counts, monthKey, deliver1, e);
    LoopKeepsUnsent(members, counts, monthKey, deliver1, e.id);
    DmLoopSends(first.0, counts, monthKey, deliver2, e);
  }

  /** An inviter that cannot be reached keeps an unmarked row through the loop. */
  lemma {:induction false} LoopKeepsUnsent(members: seq<Member>, counts: seq<Entry>, monthKey: string,
                                           deliver: string -> Delivery, id: string)
    requires Unsent(members, id, monthKey) && !deliver(id).Delivered?
    ensures Unsent(DmLoop(members, counts, monthKey, deliver).0, id, monthKey)
    decreases |counts|
  {
    if counts != [] {
      var step := DmStep(members, counts[0], monthKey, deliver);
      FindSameIds(step.0, members, id);
      LoopKeepsUnsent(step.0, counts[1..], monthKey, deliver, id);
    }
  }

  // ---------------------------------------------------------------------------
  // tick

  /** `currentMonth`: `None` until the first completed tick. */
  datatype TickState = TickState(currentMonth: Option<string>)

  /** What one call of `tick` sees: whether the affiliate guild is cached and both
      channels are text channels, the month key of the clock (`monthKeyAmsterdam`,
      taken as given), and the stores. */
  datatype TickInput = TickInput(
    guildReady: bool,
    channelsReady: bool,
    nowMonth: string,
    log: seq<LogEntry>,
    members: seq<Member>,
    deliver: string -> Delivery
  )

  /** What one call of `tick` did: the month finalized, if any, whether the
      winners post and DMs went out for it, the DMs sent, and the live board. */
  datatype TickReport = TickReport(
    finalized: Option<string>,
    announced: bool,
    dms: seq<Entry>,
    live: Option<Board>
  )

  /** `tick()`: nothing happens while the guild or a channel is missing. When the
      remembered month is set and differs from the clock's, the month before the
      clock's is finalized: its boards are built and, unless both are empty, the
      winners are posted and the earnings DMs sent. The clock's month is then
      remembered and its live board rebuilt. */
  function Tick(st: TickState, cfg: Carryover, topN: nat, inp: TickInput): (r: (TickState, seq<Member>, TickReport))
    ensures !(inp.guildReady && inp.channelsReady) ==> r.0 == st && r.1 == inp.members && r.2.finalized.None? && r.2.live.None?
    ensures inp.guildReady && inp.channelsReady ==>
              r.0 == TickState(Some(inp.nowMonth)) && r.2.live == Some(BuildBoard(MonthRows(cfg, inp.log, inp.nowMonth), topN))
    ensures r.2.finalized.Some? <==>
              inp.guildReady && inp.channelsReady && st.currentMonth.Some? && st.currentMonth.value != ""
              && st.currentMonth.value != inp.nowMonth
    ensures r.2.finalized.Some? ==> r.2.finalized.value == PrevMonthKey(inp.nowMonth)
    ensures !r.2.announced ==> r.1 == inp.members && r.2.dms == []
    ensures r.2.announced ==> r.2.finalized.Some?
    ensures r.2.announced ==>
              (r.1, r.2.dms) == SendEarningsDms(cfg, inp.log, inp.members, PrevMonthKey(inp.nowMonth), inp.deliver)
  {
    if !(inp.guildReady && inp.channelsReady) then (st, inp.members, TickReport(None, false, [], None))
    else
      var finalize := st.currentMonth.Some? && st.currentMonth.value != "" && st.currentMonth.value != inp.nowMonth;
      var prev := PrevMonthKey(inp.nowMonth);
      var board := BuildBoard(MonthRows(cfg, inp.log, prev), topN);
      var announce := finalize && !EmptyBoard(board);
      var dm := if announce then SendEarningsDms(cfg, inp.log, inp.members, prev, inp.deliver) else (inp.members, []);
      var live := BuildBoard(MonthRows(cfg, inp.log, inp.nowMonth), topN);
      (TickState(Some(inp.nowMonth)), dm.0, TickReport(if finalize then Some(prev) else None, announce, dm.1, Some(live)))
  }

  /** The first tick after start-up only remembers the month: it finalizes
      nothing, posts no winners and sends no DM. */
  lemma FirstTickNeverFinalizes(cfg: Carryover, topN: nat, inp: TickInput)
    ensures Tick(TickState(None), cfg, topN, inp).2.finalized.None?
    ensures !Tick(TickState(None), cfg, topN, inp).2.announced
    ensures Tick(TickState(None), cfg, topN, inp).2.dms == []
    ensures Tick(TickState(None), cfg, topN, inp).1 == inp.members
  {
  }

  /** Two ticks in a row that see the same month finalize nothing the second time. */
  lemma SameMonthNeverFinalizes(st: TickState, cfg: Carryover, topN: nat, inp1: TickInput, inp2: TickInput)
    requires inp1.guildReady && inp1.channelsReady
    requires inp2.nowMonth == inp1.nowMonth
    ensures Tick(Tick(st, cfg, topN, inp1).0, cfg, topN, inp2).2.finalized.None?
  {
  }

  /** When a month is finalized, the winners post and DMs go out exactly when the
      finalized month has a log row with an inviter. */
  lemma AnnouncesIffRows(st: TickState, cfg: Carryover, topN: nat, inp: TickInput)
    requires topN >= 1
    requires Tick(st, cfg, topN, inp).2.finalized.Some?
    ensures Tick(st, cfg, topN, inp).2.announced <==>
              InviterKeys(MonthRows(cfg, inp.log, PrevMonthKey(inp.nowMonth)), false) != []
  {
    EmptyBoardIff(MonthRows(cfg, inp.log, PrevMonthKey(inp.nowMonth)), topN);
  }

  /** Across the month boundary, the calendar month just ended is the one
      finalized, for a well-formed remembered month. */
  lemma RolloverFinalizesEndedMonth(cfg: Carryover, topN: nat, k: MonthKey, inp: TickInput)
    requires ValidMonth(k) && k.year >= 100 && InDateRange(NextMonth(k))
    requires inp.guildReady && inp.channelsReady
    requires inp.nowMonth == FormatMonthKey(NextMonth(k))
    ensures Tick(TickState(Some(FormatMonthKey(k))), cfg, topN, inp).2.finalized == Some(FormatMonthKey(k))
  {
    PrevOfNextKey(k);
    TickFinalized(TickState(Some(FormatMonthKey(k))), cfg, topN, inp);
  }

  /** The finalized month of a tick, without the rest of its work. */
  lemma TickFinalized(st: TickState, cfg: Carryover, topN: nat, inp: TickInput)
    requires inp.guildReady && inp.channelsReady
    requires st.currentMonth.Some? && st.currentMonth.value != "" && st.currentMonth.value != inp.nowMonth
    ensures Tick(st, cfg, topN, inp).2.finalized == Some(PrevMonthKey(inp.nowMonth))
  {
  }
}

=== FILE: months.dfy ===
/** Month keys (`YYYY-MM`) and the carryover filter of src/leaderboards.js:
    `prevMonthKey` and `monthFilterFormula`, the latter as a predicate on a
    log row's Month Key and Joined At cells. */
module Months {
  import opened Wrappers
  import opened JsText
  import opened Numbers

  /** A month key as `prevMonthKey` reads it: the numbers before and after the
      first `-`. `month` is the calendar month 1..12 for a well-formed key. */
  datatype MonthKey = MonthKey(year: nat, month: nat)

  predicate ValidMonth(k: MonthKey) {
    1 <= k.month <= 12
  }

  /** `Number(part)` on a part of the key: blank is 0, digits are their value;
      anything else is `NaN` (`None`). */
  function PartNumber(p: string): (r: Option<nat>)
    ensures AllDigits(p) && p != [] ==> r == Some(DigitsValue(p))
  {
    var t := Trim(p);
    assert AllDigits(p) ==> t == p by {
      if AllDigits(p) { DigitsAreTrimmed(p); }
    }
    if t == [] then Some(0)
    else if AllDigits(t) then Some(DigitsValue(t))
    else None
  }

  /** `yyyyMm.split("-").map(Number)`, keeping the first two parts. */
  function ParseMonthKey(s: string): Option<MonthKey> {
    var parts := Split(s, '-');
    if |parts| < 2 then None
    else match (PartNumber(parts[0]), PartNumber(parts[1]))
      case (Some(y), Some(m)) => Some(MonthKey(y, m))
      case _ => None
  }

  /** `${year}-${String(month).padStart(2, "0")}`. */
  function FormatMonthKey(k: MonthKey): string {
    NatToDigits(k.year) + "-" + PadStart(NatToDigits(k.month), 2, '0')
  }

  /** `Date.UTC` reads a year 0..99 as 1900..1999. */
  function UtcYear(y: nat): nat {
    if y <= 99 then 1900 + y else y
  }

  /** The month before `k`, as `new Date(Date.UTC(y, m - 1, 1))` followed by
      `setUTCMonth(getUTCMonth() - 1)` computes it: month numbers outside 1..12
      roll over into neighbouring years. For a well-formed key with a year of at
      least 100 it is the preceding calendar month, December of the year before
      for a January. */
  function PrevMonth(k: MonthKey): (r: MonthKey)
    ensures ValidMonth(r)
    ensures ValidMonth(k) && k.year >= 100 ==>
              r == if k.month == 1 then MonthKey(k.year - 1, 12) else MonthKey(k.year, k.month - 1)
  {
    var index := UtcYear(k.year) * 12 + k.month - 2;
    MonthKey(index / 12, index % 12 + 1)
  }

  /** The month index (`year * 12 + month - 1`) of the last month whose first
      day a `Date` can hold: times are limited to 8.64e15 ms either side of
      1970, which ends on 13 September 275760. */
  const LastDateMonthIndex: int := 275760 * 12 + 8

  /** Whether `Date.UTC(y, m - 1, 1)` is a valid date rather than `NaN`. The
      lower limit lies far before any year `Date.UTC` is given here. */
  predicate InDateRange(k: MonthKey) {
    UtcYear(k.year) * 12 + k.month - 1 <= LastDateMonthIndex
  }

  /** `prevMonthKey`: an unreadable key, or one whose month lies past the range
      of `Date`, gives the text `Date` prints for an invalid date. */
  function PrevMonthKey(s: string): (r: string)
    ensures ParseMonthKey(s).None? ==> r == "NaN-NaN"
    ensures ParseMonthKey(s).Some? ==>
              r == if InDateRange(ParseMonthKey(s).value) then FormatMonthKey(PrevMonth(ParseMonthKey(s).value)) else "NaN-NaN"
  {
    match ParseMonthKey(s)
    case Some(k) => if InDateRange(k) then FormatMonthKey(PrevMonth(k)) else "NaN-NaN"
    case None => "NaN-NaN"
  }

  /** A well-formed key past the range of `Date` has no previous month key:
      `prevMonthKey` gives `NaN-NaN` for it. */
  lemma PrevMonthKeyPastDateRange(k: MonthKey)
    requires ValidMonth(k) && !InDateRange(k)
    ensures PrevMonthKey(FormatMonthKey(k)) == "NaN-NaN"
  {
    MonthKeyRoundTrip(k);
  }

  /** The calendar month after a well-formed key; the inverse of `PrevMonth`. */
  function NextMonth(k: MonthKey): (r: MonthKey)
    requires ValidMonth(k)
    ensures ValidMonth(r)
  {
    if k.month == 12 then MonthKey(k.year + 1, 1) else MonthKey(k.year, k.month + 1)
  }

  lemma PrevNext(k: MonthKey)
    requires ValidMonth(k) && k.year >= 100
    ensures PrevMonth(NextMonth(k)) == k
  {
  }

  lemma NextPrev(k: MonthKey)
    requires ValidMonth(k) && k.year >= 101
    ensures NextMonth(PrevMonth(k)) == k
  {
  }

  /** Two-digit month rendering keeps the value. */
  lemma PaddedMonthValue(m: nat)
    requires 1 <= m <= 12
    ensures var p := PadStart(NatToDigits(m), 2, '0');
            AllDigits(p) && p != [] && '-' !in p && DigitsValue(p) == m
  {
    var d := NatToDigits(m);
    var p := PadStart(d, 2, '0');
    DigitsRoundTrip(m);
    if |d| < 2 {
      assert p == Repeat('0', 1) + d;
      LeadingZeros(1, d);
    }
    assert forall i | 0 <= i < |p| :: IsDigit(p[i]) && p[i] != '-';
  }

  lemma DigitsHaveNoDash(s: string)
    requires AllDigits(s)
    ensures '-' !in s
  {
    assert forall i | 0 <= i < |s| :: IsDigit(s[i]) && s[i] != '-';
  }

  /** The rendering of a well-formed key reads back as the same key, so two
      well-formed keys are equal exactly when their strings are. */
  lemma {:induction false} MonthKeyRoundTrip(k: MonthKey)
    requires ValidMonth(k)
    ensures ParseMonthKey(FormatMonthKey(k)) == Some(k)
  {
    var y := NatToDigits(k.year);
    var p := PadStart(NatToDigits(k.month), 2, '0');
    PaddedMonthValue(k.month);
    DigitsHaveNoDash(y);
    assert FormatMonthKey(k) == y + ['-'] + p;
    SplitCons(y, '-', p);
    assert Split(FormatMonthKey(k), '-') == [y, p];
    DigitsRoundTrip(k.year);
  }

  lemma FormatInjective(a: MonthKey, b: MonthKey)
    requires ValidMonth(a) && ValidMonth(b)
    ensures FormatMonthKey(a) == FormatMonthKey(b) <==> a == b
  {
    MonthKeyRoundTrip(a);
    MonthKeyRoundTrip(b);
  }

  /** On rendered keys, `prevMonthKey` is the previous calendar month:
      `YYYY-01` maps to `(YYYY-1)-12`, any other month to the month before in the
      same year, with a zero-padded month. */
  lemma PrevMonthKeyOfFormat(k: MonthKey)
    requires ValidMonth(k) && k.year >= 100 && InDateRange(k)
    ensures PrevMonthKey(FormatMonthKey(k))
            == FormatMonthKey(if k.month == 1 then MonthKey(k.year - 1, 12) else MonthKey(k.year, k.month - 1))
  {
    MonthKeyRoundTrip(k);
    PrevMonthKeyOfParsed(FormatMonthKey(k), k);
    var p := PrevMonth(k);
    assert p == if k.month == 1 then MonthKey(k.year - 1, 12) else MonthKey(k.year, k.month - 1);
  }

  lemma PrevMonthKeyOfParsed(s: string, k: MonthKey)
    requires ParseMonthKey(s) == Some(k) && InDateRange(k)
    ensures PrevMonthKey(s) == FormatMonthKey(PrevMonth(k))
  {
  }

  /** The key of the month after `k` differs from `k`'s and `prevMonthKey` maps it back. */
  lemma PrevOfNextKey(k: MonthKey)
    requires ValidMonth(k) && k.year >= 100 && InDateRange(NextMonth(k))
    ensures FormatMonthKey(NextMonth(k)) != FormatMonthKey(k)
    ensures PrevMonthKey(FormatMonthKey(NextMonth(k))) == FormatMonthKey(k)
  {
    var next := NextMonth(k);
    assert next != k;
    FormatInjective(k, next);
    MonthKeyRoundTrip(next);
    PrevMonthKeyOfParsed(FormatMonthKey(next), next);
    PrevNext(k);
  }

  // ---------------------------------------------------------------------------
  // carryover filter

  /** `AFFILIATE_CARRYOVER_TO_MONTH` ("" when unset) and the instant
      `AFFILIATE_LAUNCH_AT` (`None` when unset). */
  datatype Carryover = Carryover(toMonth: string, launchAt: Option<int>)

  /** Whether `monthKey` is the month that takes the carried-over rows. */
  predicate IsCarryoverMonth(cfg: Carryover, monthKey: string) {
    cfg.toMonth != "" && cfg.launchAt.Some? && monthKey == Trim(cfg.toMonth)
  }

  /** `monthFilterFormula(monthKey)` applied to a log row with the given Month Key
      and Joined At cells. */
  predicate InMonth(cfg: Carryover, monthKey: string, rowMonth: string, rowJoinedAt: int) {
    if IsCarryoverMonth(cfg, monthKey) then
      rowMonth == monthKey || (rowMonth == PrevMonthKey(monthKey) && rowJoinedAt > cfg.launchAt.value)
    else rowMonth == monthKey
  }

  /** A carried-over row is not moved: it still matches its own month's query,
      so it is counted in both months' leaderboards. */
  lemma CarriedRowCountsTwice(cfg: Carryover, k: MonthKey, rowJoinedAt: int)
    requires ValidMonth(k) && k.year >= 100
    requires IsCarryoverMonth(cfg, FormatMonthKey(k))
    requires rowJoinedAt > cfg.launchAt.value
    ensures var target := FormatMonthKey(k);
            var prev := PrevMonthKey(target);
            InMonth(cfg, target, prev, rowJoinedAt) && InMonth(cfg, prev, prev, rowJoinedAt)
  {
  }
}

=== FILE: numbers.dfy ===
/** The numeric conversions the bot applies to configuration strings and
    Airtable cells: `parseInt(s, 10)`, a decimal subset of `Number(s)`, and
    the decimal rendering `${n}` of a natural number. */
module Numbers {
  import opened Wrappers
  import opened JsText

  function DigitVal(c: char): nat
    requires IsDigit(c)
  {
    c as int - '0' as int
  }

  function DigitChar(d: nat): (c: char)
    requires d < 10
    ensures IsDigit(c) && DigitVal(c) == d
  {
    ('0' as int + d) as char
  }

  /** The value of a string of decimal digits (0 for the empty string). */
  function DigitsValue(s: string): nat
    requires AllDigits(s)
  {
    if s == [] then 0 else DigitsValue(s[..|s| - 1]) * 10 + DigitVal(s[|s| - 1])
  }

  /** `${n}`: the decimal digits of `n`, with no leading zero. */
  function NatToDigits(n: nat): (r: string)
    ensures AllDigits(r) && |r| >= 1
    ensures |r| > 1 ==> r[0] != '0'
  {
    if n < 10 then [DigitChar(n)] else NatToDigits(n / 10) + [DigitChar(n % 10)]
  }

  /** Reading back the rendering of a number gives the number. */
  lemma {:induction false} DigitsRoundTrip(n: nat)
    ensures DigitsValue(NatToDigits(n)) == n
  {
    if n >= 10 {
      var s := NatToDigits(n);
      assert s[..|s| - 1] == NatToDigits(n / 10);
      DigitsRoundTrip(n / 10);
    }
  }

  /** Leading zeros do not change the value of a digit string. */
  lemma {:induction false} LeadingZero(s: string)
    requires AllDigits(s)
    ensures AllDigits(['0'] + s) && DigitsValue(['0'] + s) == DigitsValue(s)
    decreases |s|
  {
    if s != [] {
      var t := ['0'] + s;
      assert t[..|t| - 1] == ['0'] + s[..|s| - 1];
      LeadingZero(s[..|s| - 1]);
    }
  }

  lemma {:induction false} LeadingZeros(k: nat, s: string)
    requires AllDigits(s)
    ensures AllDigits(Repeat('0', k) + s) && DigitsValue(Repeat('0', k) + s) == DigitsValue(s)
  {
    if k > 0 {
      var t := Repeat('0', k - 1) + s;
      LeadingZeros(k - 1, s);
      assert Repeat('0', k) == ['0'] + Repeat('0', k - 1);
      assert Repeat('0', k) + s == ['0'] + t;
      LeadingZero(t);
    } else {
      assert Repeat('0', 0) + s == s;
    }
  }

  /** Padding digits with zeros keeps them digits and keeps their value. */
  lemma PadZeros(d: string, n: nat)
    requires AllDigits(d)
    ensures AllDigits(PadStart(d, n, '0'))
    ensures DigitsValue(PadStart(d, n, '0')) == DigitsValue(d)
  {
    var p := PadStart(d, n, '0');
    if |d| < n {
      assert p == Repeat('0', n - |d|) + d;
      LeadingZeros(n - |d|, d);
    }
  }

  /** The longest prefix of `s` made of digits. */
  function DigitPrefix(s: string): (r: string)
    ensures |r| <= |s| && r == s[..|r|] && AllDigits(r)
    ensures |r| == |s| || !IsDigit(s[|r|])
  {
    if s != [] && IsDigit(s[0]) then [s[0]] + DigitPrefix(s[1..]) else []
  }

  lemma {:induction false} DigitPrefixOfDigits(s: string)
    requires AllDigits(s)
    ensures DigitPrefix(s) == s
  {
    if s != [] { DigitPrefixOfDigits(s[1..]); }
  }

  /** `parseInt(s, 10)`: leading white space, an optional sign, then the longest
      run of digits; `None` stands for `NaN` (no digit where one is needed). */
  function ParseInt(s: string): (r: Option<int>)
    ensures r.None? <==> DigitPrefix(Unsigned(TrimStart(s))) == []
    ensures r.Some? ==> r.value == SignOf(TrimStart(s)) * DigitsValue(DigitPrefix(Unsigned(TrimStart(s))))
  {
    var t := TrimStart(s);
    var ds := DigitPrefix(Unsigned(t));
    if ds == [] then None else Some(SignOf(t) * DigitsValue(ds))
  }

  /** The text after an optional leading sign. */
  function Unsigned(t: string): string {
    if t != [] && (t[0] == '+' || t[0] == '-') then t[1..] else t
  }

  function SignOf(t: string): int {
    if t != [] && t[0] == '-' then -1 else 1
  }

  /** `parseInt` reads the decimal rendering of any natural number back exactly. */
  lemma ParseIntOfDigits(n: nat)
    ensures ParseInt(NatToDigits(n)) == Some(n)
  {
    var s := NatToDigits(n);
    DigitsAreTrimmed(s);
    assert Unsigned(s) == s;
    DigitPrefixOfDigits(s);
    DigitsRoundTrip(n);
  }

  /** `Math.max(lo, Math.min(hi, parseInt(raw, 10) || dflt))`: the configuration
      clamp shared by the leaderboard size and the backfill batch size. A value
      that is not a number, or is zero, falls back to `dflt`. */
  function ClampedInt(raw: string, lo: int, hi: int, dflt: int): (r: int)
    requires lo <= dflt <= hi
    ensures lo <= r <= hi
    ensures ParseInt(raw).None? ==> r == dflt
    ensures ParseInt(raw).Some? && ParseInt(raw).value != 0 && lo <= ParseInt(raw).value <= hi
            ==> r == ParseInt(raw).value
  {
    var p := ParseInt(raw);
    var v := if p.None? || p.value == 0 then dflt else p.value;
    if v < lo then lo else if v > hi then hi else v
  }

  // ---------------------------------------------------------------------------
  // Number(s)

  /** `Number(s)` on the decimal forms the configuration uses: white space around,
      an optional sign, digits with an optional fractional part; an all-blank
      string is 0. `None` stands for `NaN`. */
  function ParseNumber(s: string): (r: Option<real>)
    ensures AllSpace(s) ==> r == Some(0.0)
  {
    var t := Trim(s);
    if t == [] then Some(0.0)
    else
      match ParseDecimal(Unsigned(t))
      case None => None
      case Some(v) => Some(if SignOf(t) < 0 then -v else v)
  }

  /** Digits with an optional fractional part, at least one digit in all. */
  function ParseDecimal(u: string): Option<real> {
    var parts := Split(u, '.');
    if |parts| > 2 || !AllDigits(parts[0]) then None
    else if |parts| == 1 then
      if parts[0] == [] then None else Some(DigitsValue(parts[0]) as real)
    else if (parts[0] == [] && parts[1] == []) || !AllDigits(parts[1]) then None
    else Some(DigitsValue(parts[0]) as real + DigitsValue(parts[1]) as real / Pow10(|parts[1]|))
  }

  function Pow10(k: nat): (r: real)
    ensures r >= 1.0
  {
    if k == 0 then 1.0 else 10.0 * Pow10(k - 1)
  }

  lemma ParseNumberOfDigits(n: nat)
    ensures ParseNumber(NatToDigits(n)) == Some(n as real)
  {
    var s := NatToDigits(n);
    DigitsAreTrimmed(s);
    assert Unsigned(s) == s && SignOf(s) == 1;
    NoDotInDigits(s);
    DigitsRoundTrip(n);
    assert ParseDecimal(s) == Some(n as real);
  }

  lemma NoDotInDigits(s: string)
    requires AllDigits(s)
    ensures Split(s, '.') == [s]
  {
    assert '.' !in s by {
      forall i | 0 <= i < |s| ensures s[i] != '.' { assert IsDigit(s[i]); }
    }
  }
}

=== FILE: quickdeal.dfy ===
/** The Quick Deal helpers of index.js: reading an Airtable cell as text
    (`asText`), the webhook "edit message" URL, the partner message references
    stored on an order, and `setField` on an embed's field list. */
module QuickDeal {
  import opened Wrappers
  import opened JsText

  // ---------------------------------------------------------------------------
  // asText

  /** An Airtable cell value: absent (`null`/`undefined`), a primitive already
      rendered as its `String(...)` text, an object (a linked record or a
      select option) with its `text`, `name` and `value` properties, each `Null`
      when absent, or an array. */
  datatype Cell =
    | Null
    | Prim(s: string)
    | Obj(text: Cell, name: Cell, value: Cell)
    | List(items: seq<Cell>)

  /** `String(v)`: an object prints as `[object Object]`, an array as its
      elements joined with commas, with `null` elements printed empty. */
  function JsString(v: Cell): string {
    match v
    case Null => "null"
    case Prim(s) => s
    case Obj(_, _, _) => "[object Object]"
    case List(items) => JoinItems(items)
  }

  function JoinItems(items: seq<Cell>): string
    decreases items
  {
    if items == [] then ""
    else
      var first := if items[0].Null? then "" else JsString(items[0]);
      if |items| == 1 then first else first + "," + JoinItems(items[1..])
  }

  /** `asText(v)`: the text of a cell, taken from the first element of an array
      and, for an object, from its `text`, `name` or `value` in that order. */
  function AsText(v: Cell): (r: string)
    ensures v.Null? ==> r == ""
    ensures v.List? && (v.items == [] || v.items[0].Null?) ==> r == ""
    ensures v.Prim? ==> r == v.s
    ensures v.List? && v.items != [] && v.items[0].Prim? ==> r == v.items[0].s
  {
    match v
    case Null => ""
    case List(items) =>
      if items == [] || items[0].Null? then ""
      else
        var first := items[0];
        if first.Obj? then
          if !first.text.Null? then JsString(first.text)
          else if !first.name.Null? then JsString(first.name)
          else if !first.value.Null? then JsString(first.value)
          else JsString(first)
        else JsString(first)
    case _ => JsString(v)
  }

  /** Only the first element of an array is read: the rest may be anything. */
  lemma AsTextReadsFirstOnly(first: Cell, rest: seq<Cell>)
    ensures AsText(List([first] + rest)) == AsText(List([first]))
  {
  }

  /** A linked record or option reads as its `text`, else its `name`, else its
      `value`; with none of them it reads as `String` of the object. */
  lemma AsTextOfObject(text: Cell, name: Cell, value: Cell)
    ensures var r := AsText(List([Obj(text, name, value)]));
            && (!text.Null? ==> r == JsString(text))
            && (text.Null? && !name.Null? ==> r == JsString(name))
            && (text.Null? && name.Null? && !value.Null? ==> r == JsString(value))
            && (text.Null? && name.Null? && value.Null? ==> r == "[object Object]")
  {
  }

  // ---------------------------------------------------------------------------
  // webhook URLs

  /** `String(url).split('?')[0]`: the URL up to its first `?`. */
  function BeforeQuery(url: string): (r: string)
    ensures '?' !in r
    ensures |r| <= |url| && r == url[..|r|]
    ensures |r| == |url| || url[|r|] == '?'
  {
    if '?' in url then url[..IndexOf(url, '?')] else url
  }

  /** `.replace(/\/$/, '')`: one trailing slash removed. */
  function StripSlash(s: string): (r: string)
    ensures r == s || (s == r + "/")
    ensures s != [] && s[|s| - 1] == '/' ==> s == r + "/"
  {
    if s != [] && s[|s| - 1] == '/' then s[..|s| - 1] else s
  }

  /** `webhookEditUrl(webhookUrl, messageId)`: the URL up to any query, without
      one trailing slash, followed by `/messages/` and the message ID. */
  function WebhookEditUrl(url: string, messageId: string): (r: string)
    ensures var sfx := "/messages/" + messageId;
            |r| >= |sfx| && r[|r| - |sfx|..] == sfx
  {
    var b := StripSlash(BeforeQuery(url));
    var sfx := "/messages/" + messageId;
    assert (b + sfx)[|b|..] == sfx;
    b + sfx
  }

  /** The edit URL is a base followed by `/messages/` and the message ID, where
      the base is a prefix of the URL without `?`, and what the base leaves of
      the URL is nothing or a query, optionally preceded by the one slash that
      was dropped. */
  lemma EditUrlShape(url: string, messageId: string)
    ensures var r := WebhookEditUrl(url, messageId);
            var b := r[..|r| - |"/messages/" + messageId|];
            && |b| <= |url| && b == url[..|b|] && '?' !in b
            && var rest := url[|b|..];
               && (rest == [] || rest[0] == '?' || rest == "/" || (|rest| >= 2 && rest[..2] == "/?"))
               && (rest == [] || rest[0] == '?' ==> b == [] || b[|b| - 1] != '/')
  {
    var q := BeforeQuery(url);
    var b := StripSlash(q);
    var r := WebhookEditUrl(url, messageId);
    assert r == b + ("/messages/" + messageId);
    assert r[..|b|] == b;
    assert q != [] && q[|q| - 1] == '/' ==> url[|b|..|q|] == "/";
  }

  /** A query string, and one trailing slash before it, make no difference to the
      edit URL of a webhook. */
  lemma EditUrlIgnoresQueryAndSlash(base: string, query: string, messageId: string)
    requires '?' !in base
    requires base == [] || base[|base| - 1] != '/'
    ensures WebhookEditUrl(base + "?" + query, messageId) == base + "/messages/" + messageId
    ensures WebhookEditUrl(base + "/?" + query, messageId) == base + "/messages/" + messageId
    ensures WebhookEditUrl(base + "/", messageId) == base + "/messages/" + messageId
    ensures WebhookEditUrl(base, messageId) == base + "/messages/" + messageId
  {
    EditUrlOfQuery(base, query, messageId);
    EditUrlOfSlashQuery(base, query, messageId);
    EditUrlOfSlash(base, messageId);
    EditUrlOfPlain(base, messageId);
  }

  lemma EditUrlOfSlashQuery(base: string, query: string, messageId: string)
    requires '?' !in base
    ensures WebhookEditUrl(base + "/?" + query, messageId) == base + "/messages/" + messageId
  {
    var a := base + "/";
    assert base + "/?" + query == a + "?" + query;
    assert '?' !in a;
    EditUrlOfQuery(a, query, messageId);
    assert a[..|base|] == base;
  }

  lemma EditUrlOfSlash(base: string, messageId: string)
    requires '?' !in base
    ensures WebhookEditUrl(base + "/", messageId) == base + "/messages/" + messageId
  {
    var a := base + "/";
    assert '?' !in a;
    EditUrlOf(a, messageId);
    assert a[..|base|] == base;
  }

  lemma EditUrlOfPlain(base: string, messageId: string)
    requires '?' !in base
    requires base == [] || base[|base| - 1] != '/'
    ensures WebhookEditUrl(base, messageId) == base + "/messages/" + messageId
  {
    EditUrlOf(base, messageId);
  }

  lemma EditUrlOfQuery(a: string, query: string, messageId: string)
    requires '?' !in a
    ensures WebhookEditUrl(a + "?" + query, messageId) == StripSlash(a) + "/messages/" + messageId
  {
    BeforeQueryOf(a, query);
    EditUrlOf(a + "?" + query, messageId);
  }

  lemma EditUrlOf(url: string, messageId: string)
    ensures WebhookEditUrl(url, messageId) == StripSlash(BeforeQuery(url)) + "/messages/" + messageId
  {
  }

  lemma BeforeQueryOf(a: string, query: string)
    requires '?' !in a
    ensures BeforeQuery(a + "?" + query) == a
  {
    var s := a + "?" + query;
    assert s[|a|] == '?';
    assert s[..|a|] == a;
  }

  // ---------------------------------------------------------------------------
  // partner message references

  /** A partner message reference: the partner record ID and the message ID the
      partner's webhook returned. */
  datatype PartnerRef = PartnerRef(partnerId: string, messageId: string)

  /** `String(refsRaw).split(',').map(s => s.trim()).filter(Boolean)`. */
  function RefTokens(raw: string): (r: seq<string>)
    ensures CleanTokens(r)
  {
    NonEmptyTrimmed(Split(raw, ','))
  }

  /** Tokens as the reference parser walks them: non-blank, trimmed, comma-free. */
  predicate CleanTokens(ts: seq<string>) {
    forall i | 0 <= i < |ts| :: ts[i] != "" && Trimmed(ts[i]) && ',' !in ts[i]
  }

  /** Pieces of a comma split: none holds a comma. */
  predicate CommaFree(parts: seq<string>) {
    forall i | 0 <= i < |parts| :: ',' !in parts[i]
  }

  function NonEmptyTrimmed(parts: seq<string>): (r: seq<string>)
    requires CommaFree(parts)
    ensures CleanTokens(r)
    ensures |r| <= |parts|
  {
    if parts == [] then []
    else
      var t := Trim(parts[0]);
      var rest := NonEmptyTrimmed(parts[1..]);
      assert ',' !in t by { TrimIsInfix(parts[0], ','); }
      if t == "" then rest else CleanCons(t, rest); [t] + rest
  }

  lemma CleanCons(t: string, ts: seq<string>)
    requires t != "" && Trimmed(t) && ',' !in t && CleanTokens(ts)
    ensures CleanTokens([t] + ts)
  {
  }

  /** Trimming never adds a character. */
  lemma TrimIsInfix(s: string, c: char)
    requires c !in s
    ensures c !in Trim(s)
  {
  }

  /** `token` begins with `partnerId:messageId`, followed by its end or by
      another `:`: the two IDs are the first two `:`-separated parts. */
  predicate StartsWithRef(token: string, p: PartnerRef) {
    var n := |p.partnerId| + 1 + |p.messageId|;
    n <= |token| && token[..n] == p.partnerId + ":" + p.messageId && (n == |token| || token[n] == ':')
  }

  /** The part after the first `:` is empty: that `:` ends the token or is
      followed by another one. */
  predicate EmptySecondPart(token: string)
    requires ':' in token
  {
    var i := IndexOf(token, ':');
    i + 1 == |token| || token[i + 1] == ':'
  }

  /** `const [partnerId, mid] = ref.split(':')`, skipped when either is empty
      (or missing, for a token without a colon). */
  function ParseRef(token: string): (r: Option<PartnerRef>)
    ensures r.Some? ==> r.value.partnerId != "" && r.value.messageId != ""
    ensures r.Some? ==> ':' !in r.value.partnerId && ':' !in r.value.messageId
  {
    var parts := Split(token, ':');
    if |parts| < 2 || parts[0] == "" || parts[1] == "" then None
    else Some(PartnerRef(parts[0], parts[1]))
  }

  /** When `ParseRef` reads nothing, stated on the token's characters: exactly
      when the token has no colon, starts with one, or has nothing between its
      first colon and the next colon (or the end). */
  lemma ParseRefSpec(token: string)
    ensures ParseRef(token).None? <==> ':' !in token || token[0] == ':' || EmptySecondPart(token)
  {
    if ':' in token {
      SplitTwo(token, ':');
      var parts := Split(token, ':');
      assert parts[0] == "" <==> token[0] == ':';
      SecondPart(token, parts[1]);
    }
  }

  /** What `ParseRef` reads: the IDs are the token's first two `:`-separated
      parts, that is, the token begins with `partnerId:messageId`, followed by
      its end or another colon. */
  lemma ParseRefReadsFirstParts(token: string)
    requires ParseRef(token).Some?
    ensures StartsWithRef(token, ParseRef(token).value)
  {
    assert ':' in token;
    SplitTwo(token, ':');
    var i := IndexOf(token, ':');
    var parts := Split(token, ':');
    SecondPart(token, parts[1]);
    PrefixAroundColon(token, i, parts[1]);
  }

  lemma PrefixAroundColon(token: string, i: nat, m: string)
    requires i < |token| && token[i] == ':'
    requires i + 1 + |m| <= |token| && token[i + 1..i + 1 + |m|] == m
    ensures token[..i + 1 + |m|] == token[..i] + ":" + m
  {
    assert token[..i + 1 + |m|] == token[..i] + [token[i]] + token[i + 1..i + 1 + |m|];
  }

  /** The piece between the first `:` and the next one (or the end). */
  lemma SecondPart(token: string, m: string)
    requires ':' in token
    requires var rest := token[IndexOf(token, ':') + 1..];
             m == if ':' in rest then rest[..IndexOf(rest, ':')] else rest
    ensures m == "" <==> EmptySecondPart(token)
    ensures var k := IndexOf(token, ':') + 1 + |m|;
            && k <= |token| && token[IndexOf(token, ':') + 1..k] == m
            && (k == |token| || token[k] == ':')
  {
    var i := IndexOf(token, ':');
    var rest := token[i + 1..];
    if ':' in rest {
      var j := IndexOf(rest, ':');
      assert token[i + 1 + j] == rest[j];
    }
  }

  /** The first two pieces of a split at a separator that occurs. */
  lemma SplitTwo(s: string, c: char)
    requires c in s
    ensures var i := IndexOf(s, c);
            var rest := s[i + 1..];
            && |Split(s, c)| >= 2
            && Split(s, c)[0] == s[..i]
            && Split(s, c)[1] == (if c in rest then rest[..IndexOf(rest, c)] else rest)
  {
    var i := IndexOf(s, c);
    var rest := s[i + 1..];
    assert Split(s, c) == [s[..i]] + Split(rest, c);
    if c in rest {
      var j := IndexOf(rest, c);
      assert Split(rest, c) == [rest[..j]] + Split(rest[j + 1..], c);
    } else {
      assert Split(rest, c) == [rest];
    }
  }

  /** The references of an order, in stored order, as the embed update walks them. */
  function ParsePartnerRefs(raw: string): (r: seq<PartnerRef>)
    ensures forall i | 0 <= i < |r| :: r[i].partnerId != "" && r[i].messageId != ""
  {
    ParseTokens(RefTokens(raw))
  }

  function ParseTokens(tokens: seq<string>): (r: seq<PartnerRef>)
    ensures |r| <= |tokens|
    ensures forall i | 0 <= i < |r| :: r[i].partnerId != "" && r[i].messageId != ""
  {
    if tokens == [] then []
    else
      var rest := ParseTokens(tokens[1..]);
      match ParseRef(tokens[0])
      case Some(p) => [p] + rest
      case None => rest
  }

  /** The comma split is read piece by piece: a piece before a comma contributes
      its own references, and the rest of the text is read as if on its own. */
  lemma PartnerRefsCons(piece: string, rest: string)
    requires ',' !in piece
    ensures RefTokens(piece + [','] + rest) == RefTokens(piece) + RefTokens(rest)
    ensures ParsePartnerRefs(piece + [','] + rest) == ParsePartnerRefs(piece) + ParsePartnerRefs(rest)
  {
    SplitCons(piece, ',', rest);
    NonEmptyTrimmedAppend([piece], Split(rest, ','));
    ParseTokensAppend(RefTokens(piece), RefTokens(rest));
  }

  /** One comma-free piece: blank after trimming gives nothing, otherwise the
      trimmed piece is the one token, and it yields a reference iff `ParseRef`
      accepts it. A bad piece is skipped and, by `PartnerRefsCons`, the pieces
      after it are still read. */
  lemma PartnerRefsOfPiece(piece: string)
    requires ',' !in piece
    ensures RefTokens(piece) == if Trim(piece) == "" then [] else [Trim(piece)]
    ensures ParsePartnerRefs(piece) ==
              if Trim(piece) != "" && ParseRef(Trim(piece)).Some? then [ParseRef(Trim(piece)).value] else []
  {
    NonEmptyTrimmedOfOne(piece);
    ParseTokensOfOne(Trim(piece));
  }

  /** Trimming and dropping blanks works piece by piece. */
  lemma {:induction false} NonEmptyTrimmedAppend(a: seq<string>, b: seq<string>)
    requires CommaFree(a) && CommaFree(b)
    ensures CommaFree(a + b)
    ensures NonEmptyTrimmed(a + b) == NonEmptyTrimmed(a) + NonEmptyTrimmed(b)
  {
    if a != [] {
      assert (a + b)[0] == a[0] && (a + b)[1..] == a[1..] + b;
      NonEmptyTrimmedAppend(a[1..], b);
    } else {
      assert a + b == b;
    }
  }

  lemma NonEmptyTrimmedOfOne(piece: string)
    requires ',' !in piece
    ensures CommaFree([piece])
    ensures NonEmptyTrimmed([piece]) == if Trim(piece) == "" then [] else [Trim(piece)]
  {
    assert [piece][1..] == [];
  }

  /** A token list is read token by token: an unparsable token is skipped and
      the tokens after it are still read. */
  lemma {:induction false} ParseTokensAppend(a: seq<string>, b: seq<string>)
    ensures ParseTokens(a + b) == ParseTokens(a) + ParseTokens(b)
  {
    if a != [] {
      assert (a + b)[0] == a[0] && (a + b)[1..] == a[1..] + b;
      ParseTokensAppend(a[1..], b);
    } else {
      assert a + b == b;
    }
  }

  lemma ParseTokensOfOne(t: string)
    ensures ParseTokens([t]) == if ParseRef(t).Some? then [ParseRef(t).value] else []
  {
    assert [t][0] == t && [t][1..] == [];
  }

  /** How the create-partners route stores the references:
      `partnerRefs.join(',')` of `${partner.id}:${messageId}`. */
  function FormatPartnerRefs(refs: seq<PartnerRef>): string
    requires refs != []
  {
    Join(RefStrings(refs), ',')
  }

  function RefStrings(refs: seq<PartnerRef>): (r: seq<string>)
    ensures |r| == |refs|
    ensures forall i | 0 <= i < |refs| :: r[i] == refs[i].partnerId + ":" + refs[i].messageId
  {
    if refs == [] then [] else [refs[0].partnerId + ":" + refs[0].messageId] + RefStrings(refs[1..])
  }

  /** Whether a reference survives being written and read back: both IDs non-blank,
      free of `,` and `:`, and without white space at the outer ends. */
  predicate Storable(p: PartnerRef) {
    && p.partnerId != "" && p.messageId != ""
    && ',' !in p.partnerId && ',' !in p.messageId
    && ':' !in p.partnerId && ':' !in p.messageId
    && !IsSpace(p.partnerId[0]) && !IsSpace(p.messageId[|p.messageId| - 1])
  }

  /** Reading back what the create-partners route stored gives the references in
      the order they were written. */
  lemma {:induction false} PartnerRefsRoundTrip(refs: seq<PartnerRef>)
    requires refs != []
    requires forall i | 0 <= i < |refs| :: Storable(refs[i])
    ensures ParsePartnerRefs(FormatPartnerRefs(refs)) == refs
  {
    RefStringsCommaFree(refs);
    SplitJoin(RefStrings(refs), ',');
    TokensOfRefStrings(refs);
  }

  lemma {:induction false} TokensOfRefStrings(refs: seq<PartnerRef>)
    requires forall i | 0 <= i < |refs| :: Storable(refs[i])
    requires CommaFree(RefStrings(refs))
    ensures ParseTokens(NonEmptyTrimmed(RefStrings(refs))) == refs
  {
    if refs != [] {
      var tail := RefStrings(refs[1..]);
      assert forall i | 0 <= i < |tail| :: tail[i] == RefStrings(refs)[i + 1];
      assert forall i | 0 <= i < |refs[1..]| :: refs[1..][i] == refs[i + 1];
      TokensOfRefStrings(refs[1..]);
      TokensStep(refs);
    }
  }

  /** The step of `TokensOfRefStrings`: the first stored reference is read back
      in front of the rest. */
  lemma {:induction false} TokensStep(refs: seq<PartnerRef>)
    requires refs != [] && Storable(refs[0])
    requires CommaFree(RefStrings(refs)) && CommaFree(RefStrings(refs[1..]))
    requires ParseTokens(NonEmptyTrimmed(RefStrings(refs[1..]))) == refs[1..]
    ensures ParseTokens(NonEmptyTrimmed(RefStrings(refs))) == refs
  {
    var t := refs[0].partnerId + ":" + refs[0].messageId;
    var tokens := NonEmptyTrimmed(RefStrings(refs));
    var net := NonEmptyTrimmed(RefStrings(refs[1..]));
    assert tokens == [t] + net by { FirstTokenKept(refs); }
    assert ParseRef(t) == Some(refs[0]) by { ParseStoredRef(refs[0]); }
    ParseConsOf(tokens, t, net, refs);
  }

  /** Parsing a token list that starts with a token read as the first reference. */
  lemma ParseConsOf(tokens: seq<string>, t: string, net: seq<string>, refs: seq<PartnerRef>)
    requires refs != []
    requires tokens == [t] + net && ParseRef(t) == Some(refs[0])
    requires ParseTokens(net) == refs[1..]
    ensures ParseTokens(tokens) == refs
  {
    ParseTokensCons(t, net, refs[0]);
    assert refs == [refs[0]] + refs[1..];
  }

  /** The first stored reference is the first token of the stored text. */
  lemma FirstTokenKept(refs: seq<PartnerRef>)
    requires refs != [] && Storable(refs[0])
    requires CommaFree(RefStrings(refs)) && CommaFree(RefStrings(refs[1..]))
    ensures NonEmptyTrimmed(RefStrings(refs))
            == [refs[0].partnerId + ":" + refs[0].messageId] + NonEmptyTrimmed(RefStrings(refs[1..]))
  {
    var p := refs[0];
    var t := p.partnerId + ":" + p.messageId;
    var tail := RefStrings(refs[1..]);
    assert RefStrings(refs) == [t] + tail;
    RefStringReadsBack(p);
    NonEmptyTrimmedCons(t, tail);
  }

  /** Stored references contain no comma. */
  lemma RefStringsCommaFree(refs: seq<PartnerRef>)
    requires forall i | 0 <= i < |refs| :: Storable(refs[i])
    ensures CommaFree(RefStrings(refs))
  {
    forall i | 0 <= i < |refs| ensures ',' !in RefStrings(refs)[i] {
      RefStringReadsBack(refs[i]);
    }
  }

  lemma NonEmptyTrimmedCons(t: string, tail: seq<string>)
    requires ',' !in t && Trimmed(t) && t != ""
    requires CommaFree(tail)
    ensures CommaFree([t] + tail)
    ensures NonEmptyTrimmed([t] + tail) == [t] + NonEmptyTrimmed(tail)
  {
    var parts := [t] + tail;
    assert parts[0] == t && parts[1..] == tail;
    TrimOfTrimmed(t);
  }

  lemma ParseTokensCons(t: string, rest: seq<string>, p: PartnerRef)
    requires ParseRef(t) == Some(p)
    ensures ParseTokens([t] + rest) == [p] + ParseTokens(rest)
  {
    assert ([t] + rest)[0] == t && ([t] + rest)[1..] == rest;
  }

  /** One stored reference is a single non-blank token that parses back to itself. */
  lemma RefStringReadsBack(p: PartnerRef)
    requires Storable(p)
    ensures ',' !in p.partnerId + ":" + p.messageId
    ensures Trimmed(p.partnerId + ":" + p.messageId) && p.partnerId + ":" + p.messageId != ""
    ensures ParseRef(p.partnerId + ":" + p.messageId) == Some(p)
  {
    var s := p.partnerId + ":" + p.messageId;
    assert ',' !in s by {
      forall i | 0 <= i < |s| ensures s[i] != ',' {
        if i < |p.partnerId| { assert s[i] == p.partnerId[i]; }
        else if i > |p.partnerId| { assert s[i] == p.messageId[i - |p.partnerId| - 1]; }
      }
    }
    assert s[0] == p.partnerId[0];
    assert s[|s| - 1] == p.messageId[|p.messageId| - 1];
    ParseStoredRef(p);
  }

  lemma ParseStoredRef(p: PartnerRef)
    requires Storable(p)
    ensures ParseRef(p.partnerId + ":" + p.messageId) == Some(p)
  {
    var s := p.partnerId + ":" + p.messageId;
    SplitCons(p.partnerId, ':', p.messageId);
    assert s == p.partnerId + [':'] + p.messageId;
    assert Split(s, ':') == [p.partnerId, p.messageId];
  }

  // ---------------------------------------------------------------------------
  // setField

  datatype Field = Field(name: string, value: string, inline: bool)

  /** The value of the first field named `name`. */
  function FieldValue(fields: seq<Field>, name: string): (r: Option<string>)
    ensures r.None? <==> forall i | 0 <= i < |fields| :: fields[i].name != name
  {
    if fields == [] then None
    else if fields[0].name == name then Some(fields[0].value)
    else FieldValue(fields[1..], name)
  }

  /** The index of the first field named `name`, as `findIndex` returns it. */
  function FindField(fields: seq<Field>, name: string): (r: Option<nat>)
    ensures r.Some? ==> r.value < |fields| && fields[r.value].name == name
    ensures r.Some? ==> forall j | 0 <= j < r.value :: fields[j].name != name
    ensures r.None? ==> forall j | 0 <= j < |fields| :: fields[j].name != name
  {
    if fields == [] then None
    else if fields[0].name == name then Some(0)
    else match FindField(fields[1..], name)
      case Some(i) => Some(i + 1)
      case None => None
  }

  /** `setField(name, value, inline)`: the first field with that name gets the new
      value and keeps its other attributes; without one, a field is appended. A
      `null` value is written as the empty string. */
  function SetField(fields: seq<Field>, name: string, value: Option<string>, inline: bool): (r: seq<Field>)
    ensures FieldValue(r, name) == Some(value.GetOr(""))
    ensures forall other | other != name :: FieldValue(r, other) == FieldValue(fields, other)
    ensures |r| == |fields| + (if FieldValue(fields, name).None? then 1 else 0)
    ensures forall i | 0 <= i < |fields| :: r[i].name == fields[i].name && r[i].inline == fields[i].inline
  {
    var v := value.GetOr("");
    match FindField(fields, name)
    case Some(i) =>
      var r := fields[i := fields[i].(value := v)];
      SetFieldAt(fields, name, i, v);
      r
    case None =>
      var r := fields + [Field(name, v, inline)];
      AppendField(fields, Field(name, v, inline));
      r
  }

  /** `setField` touches one field: every field but the first one named `name`
      is left exactly as it was, and an appended field carries the name, the
      value (empty for null) and the given `inline`. */
  lemma SetFieldLeavesOthers(fields: seq<Field>, name: string, value: Option<string>, inline: bool)
    ensures var r := SetField(fields, name, value, inline);
            && (forall i | 0 <= i < |fields| && FindField(fields, name) != Some(i) :: r[i] == fields[i])
            && (FindField(fields, name).None? ==> r[|fields|] == Field(name, value.GetOr(""), inline))
  {
  }

  lemma {:induction false} SetFieldAt(fields: seq<Field>, name: string, i: nat, v: string)
    requires i < |fields| && fields[i].name == name
    requires forall j | 0 <= j < i :: fields[j].name != name
    ensures FieldValue(fields[i := fields[i].(value := v)], name) == Some(v)
    ensures forall other | other != name ::
              FieldValue(fields[i := fields[i].(value := v)], other) == FieldValue(fields, other)
  {
    var r := fields[i := fields[i].(value := v)];
    if i > 0 {
      assert r[1..] == fields[1..][i - 1 := fields[i].(value := v)];
      SetFieldAt(fields[1..], name, i - 1, v);
    }
  }

  lemma {:induction false} AppendField(fields: seq<Field>, f: Field)
    requires FieldValue(fields, f.name).None?
    ensures FieldValue(fields + [f], f.name) == Some(f.value)
    ensures forall other | other != f.name :: FieldValue(fields + [f], other) == FieldValue(fields, other)
  {
    if fields != [] {
      assert (fields + [f])[1..] == fields[1..] + [f];
      AppendField(fields[1..], f);
    } else {
      assert FieldValue([f], f.name) == Some(f.value);
    }
  }

  /** Setting the same value twice is the same as setting it once. */
  lemma SetFieldIdempotent(fields: seq<Field>, name: string, value: Option<string>, inline: bool)
    ensures var once := SetField(fields, name, value, inline);
            SetField(once, name, value, inline) == once
  {
    var once := SetField(fields, name, value, inline);
    var i := FindField(once, name).value;
    FieldValueAtFind(once, name);
    assert once[i := once[i].(value := value.GetOr(""))] == once;
  }

  lemma {:induction false} FieldValueAtFind(fields: seq<Field>, name: string)
    requires FindField(fields, name).Some?
    ensures FieldValue(fields, name) == Some(fields[FindField(fields, name).value].value)
  {
    if fields[0].name != name {
      FieldValueAtFind(fields[1..], name);
    }
  }

  /** The field updates of the update-embed route: Current Payout and Max Payout
      when given, and Time to Max Payout always, `-` when missing or empty. */
  function UpdatePayoutFields(fields: seq<Field>, currentPayout: Option<string>, maxPayout: Option<string>,
                              timeToMax: Option<string>): seq<Field>
  {
    var f1 := SetIfGiven(fields, "Current Payout", currentPayout, true);
    var f2 := SetIfGiven(f1, "Max Payout", maxPayout, true);
    SetIfGiven(f2, "Time to Max Payout", Some(TimeToMaxText(timeToMax)), false)
  }

  /** `timeToMax || '-'`. */
  function TimeToMaxText(timeToMax: Option<string>): string {
    if timeToMax.Some? && timeToMax.value != "" then timeToMax.value else "-"
  }

  /** The update-embed route sets the payout fields it was given, always sets Time
      to Max Payout, and leaves every other field as it was. */
  lemma UpdatePayoutFieldsSpec(fields: seq<Field>, currentPayout: Option<string>, maxPayout: Option<string>,
                               timeToMax: Option<string>)
    ensures var r := UpdatePayoutFields(fields, currentPayout, maxPayout, timeToMax);
            && FieldValue(r, "Time to Max Payout") ==
                 Some(if timeToMax.Some? && timeToMax.value != "" then timeToMax.value else "-")
            && (currentPayout.Some? ==> FieldValue(r, "Current Payout") == currentPayout)
            && (currentPayout.None? ==> FieldValue(r, "Current Payout") == FieldValue(fields, "Current Payout"))
            && (maxPayout.Some? ==> FieldValue(r, "Max Payout") == maxPayout)
            && (maxPayout.None? ==> FieldValue(r, "Max Payout") == FieldValue(fields, "Max Payout"))
            && (forall other | other != "Current Payout" && other != "Max Payout" && other != "Time to Max Payout" ::
                  FieldValue(r, other) == FieldValue(fields, other))
  {
    PayoutNamesDiffer();
    ThreeSets(fields, "Current Payout", currentPayout, true, "Max Payout", maxPayout, true,
              "Time to Max Payout", Some(TimeToMaxText(timeToMax)), false);
  }

  /** Three `SetIfGiven` calls on distinct names, one after the other. */
  lemma ThreeSets(fields: seq<Field>, a: string, va: Option<string>, ia: bool, b: string, vb: Option<string>, ib: bool,
                  c: string, vc: Option<string>, ic: bool)
    requires a != b && a != c && b != c
    ensures var r := SetIfGiven(SetIfGiven(SetIfGiven(fields, a, va, ia), b, vb, ib), c, vc, ic);
            && FieldValue(r, a) == (if va.Some? then va else FieldValue(fields, a))
            && FieldValue(r, b) == (if vb.Some? then vb else FieldValue(fields, b))
            && FieldValue(r, c) == (if vc.Some? then vc else FieldValue(fields, c))
            && (forall other | other != a && other != b && other != c :: FieldValue(r, other) == FieldValue(fields, other))
  {
  }

  lemma PayoutNamesDiffer()
    ensures "Current Payout" != "Max Payout" && "Current Payout" != "Time to Max Payout"
    ensures "Max Payout" != "Time to Max Payout"
  {
    assert |"Current Payout"| == 14 && |"Max Payout"| == 10 && |"Time to Max Payout"| == 18;
  }

  /** `if (v != null) setField(name, v, inline)`. */
  function SetIfGiven(fields: seq<Field>, name: string, value: Option<string>, inline: bool): (r: seq<Field>)
    ensures FieldValue(r, name) == if value.Some? then value else FieldValue(fields, name)
    ensures forall other | other != name :: FieldValue(r, other) == FieldValue(fields, other)
  {
    if value.Some? then SetField(fields, name, value, inline) else fields
  }
}

=== FILE: ranking.dfy ===
/** Counting per inviter and ranking, as `buildLeaderboardsForMonth` does it:
    a `Map` filled in row order (so its entries are in first-seen order),
    `[...map.entries()].sort((a, b) => b[1] - a[1])` (a stable sort, largest
    count first) and `.slice(0, TOP_N)`. */
module Ranking {

  datatype Entry = Entry(id: string, count: nat)

  function Ids(t: seq<Entry>): (r: seq<string>)
    ensures |r| == |t|
    ensures forall i | 0 <= i < |t| :: r[i] == t[i].id
  {
    if t == [] then [] else [t[0].id] + Ids(t[1..])
  }

  predicate Distinct(s: seq<string>) {
    forall i, j | 0 <= i < j < |s| :: s[i] != s[j]
  }

  /** The keys of `keys` in order of first occurrence, each once. */
  function Dedup(keys: seq<string>): (r: seq<string>)
    ensures Distinct(r)
    ensures forall x :: x in r <==> x in keys
  {
    if keys == [] then []
    else
      var d := Dedup(keys[..|keys| - 1]);
      var last := keys[|keys| - 1];
      assert forall x :: x in keys <==> x in keys[..|keys| - 1] || x == last by {
        assert keys == keys[..|keys| - 1] + [last];
      }
      if last in d then d else d + [last]
  }

  /** How many times `id` occurs in `keys`: the reference count. */
  function Occurrences(keys: seq<string>, id: string): nat {
    if keys == [] then 0
    else Occurrences(keys[..|keys| - 1], id) + (if keys[|keys| - 1] == id then 1 else 0)
  }

  /** The count stored for `id` (`map.get(id) || 0`). */
  function CountOf(t: seq<Entry>, id: string): nat {
    if t == [] then 0 else if t[0].id == id then t[0].count else CountOf(t[1..], id)
  }

  predicate Positive(t: seq<Entry>) {
    forall i | 0 <= i < |t| :: t[i].count >= 1
  }

  /** `map.set(id, (map.get(id) || 0) + 1)`: an existing entry is incremented in
      place, a new key is appended with count 1. */
  function Bump(t: seq<Entry>, id: string): (r: seq<Entry>)
    ensures Ids(r) == if id in Ids(t) then Ids(t) else Ids(t) + [id]
    ensures Positive(t) ==> Positive(r)
  {
    if t == [] then [Entry(id, 1)]
    else if t[0].id == id then
      var r := [Entry(id, t[0].count + 1)] + t[1..];
      assert r[1..] == t[1..];
      assert Ids(r) == [id] + Ids(t[1..]);
      r
    else
      var rest := Bump(t[1..], id);
      var r := [t[0]] + rest;
      assert r[1..] == rest;
      assert Ids(t) == [t[0].id] + Ids(t[1..]);
      assert Ids(r) == [t[0].id] + Ids(rest);
      r
  }

  /** Bumping adds one to the count of `id` and leaves every other count alone. */
  lemma {:induction false} BumpCounts(t: seq<Entry>, id: string, x: string)
    ensures CountOf(Bump(t, id), x) == CountOf(t, x) + (if x == id then 1 else 0)
  {
    if t != [] && t[0].id != id {
      BumpCounts(t[1..], id, x);
      assert Bump(t, id)[1..] == Bump(t[1..], id);
    }
  }

  /** The count map built from `keys`, in first-seen order. Its entries are the
      distinct keys in order of first occurrence, and each count is the number of
      occurrences of its key. */
  function Tally(keys: seq<string>): (r: seq<Entry>)
    ensures Ids(r) == Dedup(keys)
    ensures forall x :: CountOf(r, x) == Occurrences(keys, x)
    ensures Positive(r)
  {
    if keys == [] then []
    else
      var t := Tally(keys[..|keys| - 1]);
      var last := keys[|keys| - 1];
      forall x ensures CountOf(Bump(t, last), x) == Occurrences(keys, x) {
        BumpCounts(t, last, x);
      }
      Bump(t, last)
  }

  /** A key that is not in the tally has count 0, one that is has its entry's count. */
  lemma {:induction false} CountOfEntry(t: seq<Entry>, i: nat)
    requires i < |t| && Distinct(Ids(t))
    ensures CountOf(t, t[i].id) == t[i].count
  {
    if i > 0 {
      assert Ids(t[1..]) == Ids(t)[1..];
      assert t[0].id != t[i].id by { assert Ids(t)[0] != Ids(t)[i]; }
      CountOfEntry(t[1..], i - 1);
    }
  }

  // ---------------------------------------------------------------------------
  // stable sort, largest count first

  predicate SortedDesc(s: seq<Entry>) {
    forall i, j | 0 <= i < j < |s| :: s[i].count >= s[j].count
  }

  /** The entries with count `k`, in order. */
  function WithCount(s: seq<Entry>, k: nat): (r: seq<Entry>)
    ensures |r| <= |s|
  {
    if s == [] then [] else (if s[0].count == k then [s[0]] else []) + WithCount(s[1..], k)
  }

  lemma {:induction false} WithCountAppend(a: seq<Entry>, b: seq<Entry>, k: nat)
    ensures WithCount(a + b, k) == WithCount(a, k) + WithCount(b, k)
  {
    if a != [] {
      assert (a + b)[1..] == a[1..] + b;
      WithCountAppend(a[1..], b, k);
    } else {
      assert a + b == b;
    }
  }

  lemma {:induction false} WithCountNone(s: seq<Entry>, k: nat)
    requires forall i | 0 <= i < |s| :: s[i].count < k
    ensures WithCount(s, k) == []
  {
    if s != [] { WithCountNone(s[1..], k); }
  }

  /** Inserting `x` into a sorted list behind every entry whose count is at least
      `x`'s, as the stable sort places a later element. */
  function Insert(x: Entry, s: seq<Entry>): (r: seq<Entry>)
    ensures multiset(r) == multiset(s) + multiset{x}
    ensures |r| == |s| + 1
  {
    if s == [] then [x]
    else if s[0].count >= x.count then
      assert s == [s[0]] + s[1..];
      [s[0]] + Insert(x, s[1..])
    else [x] + s
  }

  lemma {:induction false} InsertSorted(x: Entry, s: seq<Entry>)
    requires SortedDesc(s)
    ensures SortedDesc(Insert(x, s))
  {
    if s != [] && s[0].count >= x.count {
      var rest := Insert(x, s[1..]);
      InsertSorted(x, s[1..]);
      InsertBelow(x, s[1..], s[0].count);
      ConsSorted(s[0], rest);
    } else if s != [] {
      ConsSorted(x, s);
    }
  }

  predicate AtMost(s: seq<Entry>, c: nat) {
    forall i | 0 <= i < |s| :: s[i].count <= c
  }

  /** Inserting an entry below a bound into entries below it stays below it. */
  lemma {:induction false} InsertBelow(x: Entry, s: seq<Entry>, c: nat)
    requires x.count <= c && AtMost(s, c)
    ensures AtMost(Insert(x, s), c)
  {
    if s != [] && s[0].count >= x.count {
      InsertBelow(x, s[1..], c);
      ConsBelow(s[0], Insert(x, s[1..]), c);
    } else {
      ConsBelow(x, s, c);
    }
  }

  lemma ConsBelow(e: Entry, s: seq<Entry>, c: nat)
    requires e.count <= c && AtMost(s, c)
    ensures AtMost([e] + s, c)
  {
    assert forall i | 1 <= i < |[e] + s| :: ([e] + s)[i] == s[i - 1];
  }

  lemma ConsSorted(e: Entry, s: seq<Entry>)
    requires SortedDesc(s) && AtMost(s, e.count)
    ensures SortedDesc([e] + s)
  {
    assert forall i | 1 <= i < |[e] + s| :: ([e] + s)[i] == s[i - 1];
  }

  lemma WithCountCons(e: Entry, t: seq<Entry>, k: nat)
    ensures WithCount([e] + t, k) == (if e.count == k then [e] else []) + WithCount(t, k)
  {
    assert ([e] + t)[0] == e && ([e] + t)[1..] == t;
  }

  lemma Assoc<T>(a: seq<T>, b: seq<T>, c: seq<T>)
    ensures a + (b + c) == (a + b) + c
  {
  }

  lemma SplitLast<T>(s: seq<T>)
    requires s != []
    ensures s == s[..|s| - 1] + [s[|s| - 1]]
  {
  }

  lemma WithCountHead(s: seq<Entry>)
    requires s != []
    ensures WithCount(s, s[0].count) != []
  {
    assert WithCount(s, s[0].count)[0] == s[0];
  }

  /** For every count, the entries with that count after the insertion are those
      before it followed by `x` if it has that count. */
  lemma {:induction false} InsertWithCount(x: Entry, s: seq<Entry>, k: nat)
    requires SortedDesc(s)
    ensures WithCount(Insert(x, s), k) == WithCount(s, k) + (if x.count == k then [x] else [])
  {
    if s == [] {
      assert Insert(x, s) == [x] + [];
      WithCountCons(x, [], k);
    } else if s[0].count >= x.count {
      assert SortedDesc(s[1..]);
      InsertWithCount(x, s[1..], k);
      InsertBehind(x, s, k);
    } else {
      InsertInFront(x, s, k);
    }
  }

  /** The step case of `InsertWithCount`: `x` goes behind the head, given the
      claim for the rest of the list. */
  lemma InsertBehind(x: Entry, s: seq<Entry>, k: nat)
    requires s != [] && s[0].count >= x.count
    requires WithCount(Insert(x, s[1..]), k) == WithCount(s[1..], k) + (if x.count == k then [x] else [])
    ensures WithCount(Insert(x, s), k) == WithCount(s, k) + (if x.count == k then [x] else [])
  {
    var tail: seq<Entry> := if x.count == k then [x] else [];
    var head: seq<Entry> := if s[0].count == k then [s[0]] else [];
    var rest := Insert(x, s[1..]);
    assert s == [s[0]] + s[1..];
    WithCountCons(s[0], s[1..], k);
    assert Insert(x, s) == [s[0]] + rest;
    WithCountCons(s[0], rest, k);
    Assoc(head, WithCount(s[1..], k), tail);
  }

  lemma InsertInFront(x: Entry, s: seq<Entry>, k: nat)
    requires SortedDesc(s) && s != [] && s[0].count < x.count
    ensures WithCount(Insert(x, s), k) == WithCount(s, k) + (if x.count == k then [x] else [])
  {
    assert Insert(x, s) == [x] + s;
    WithCountCons(x, s, k);
    if x.count == k {
      WithCountNone(s, k);
      assert WithCount(Insert(x, s), k) == [x];
    }
  }

  /** `sort((a, b) => b[1] - a[1])`: ordered by count, largest first, and stable:
      for every count, the entries with that count keep their input order. */
  function SortDesc(s: seq<Entry>): (r: seq<Entry>)
    ensures |r| == |s| && multiset(r) == multiset(s)
    ensures SortedDesc(r)
    ensures forall k :: WithCount(r, k) == WithCount(s, k)
  {
    if s == [] then []
    else
      var init := s[..|s| - 1];
      var last := s[|s| - 1];
      var sorted := SortDesc(init);
      var r := Insert(last, sorted);
      SplitLast(s);
      InsertSorted(last, sorted);
      forall k ensures WithCount(r, k) == WithCount(s, k) {
        InsertWithCount(last, sorted, k);
        WithCountAppend(init, [last], k);
        assert WithCount([last], k) == if last.count == k then [last] else [];
      }
      r
  }

  /** Stability makes the sort unique: a sorted list with the same entries per
      count as the input is the sort of the input. */
  lemma {:induction false} SortedUnique(a: seq<Entry>, b: seq<Entry>)
    requires SortedDesc(a) && SortedDesc(b)
    requires forall k :: WithCount(a, k) == WithCount(b, k)
    ensures a == b
    decreases |a| + |b|
  {
    if a == [] && b == [] {
    } else if a == [] {
      WithCountHead(b);
      assert false;
    } else if b == [] {
      WithCountHead(a);
      assert false;
    } else {
      var ka, kb := a[0].count, b[0].count;
      if ka != kb {
        if ka > kb {
          assert WithCount(a, ka)[0] == a[0];
          assert forall i | 0 <= i < |b| :: b[i].count < ka;
          WithCountNone(b, ka);
        } else {
          assert WithCount(b, kb)[0] == b[0];
          assert forall i | 0 <= i < |a| :: a[i].count < kb;
          WithCountNone(a, kb);
        }
      } else {
        assert a[0] == WithCount(a, ka)[0] == WithCount(b, ka)[0] == b[0];
        forall k ensures WithCount(a[1..], k) == WithCount(b[1..], k) {
          SameTails(a, b, k);
        }
        SortedUnique(a[1..], b[1..]);
      }
    }
  }

  /** Lists with the same head and the same entries per count have tails with
      the same entries per count. */
  lemma SameTails(a: seq<Entry>, b: seq<Entry>, k: nat)
    requires a != [] && b != [] && a[0] == b[0]
    requires WithCount(a, k) == WithCount(b, k)
    ensures WithCount(a[1..], k) == WithCount(b[1..], k)
  {
    var h: seq<Entry> := if a[0].count == k then [a[0]] else [];
    assert WithCount(a, k) == h + WithCount(a[1..], k);
    assert WithCount(b, k) == h + WithCount(b[1..], k);
    CancelPrefix(h, WithCount(a[1..], k), WithCount(b[1..], k));
  }

  lemma CancelPrefix<T>(h: seq<T>, x: seq<T>, y: seq<T>)
    requires h + x == h + y
    ensures x == y
  {
    assert x == (h + x)[|h|..];
    assert y == (h + y)[|h|..];
  }

  /** `.slice(0, n)`: at most `n` entries, a prefix of the sorted list, and every
      entry left out counts no more than any entry kept. */
  function Take(s: seq<Entry>, n: nat): (r: seq<Entry>)
    ensures |r| == if |s| < n then |s| else n
    ensures r == s[..|r|]
    ensures SortedDesc(s) ==> SortedDesc(r)
    ensures SortedDesc(s) ==> forall i, j | 0 <= i < |r| <= j < |s| :: s[j].count <= r[i].count
  {
    if |s| < n then s else s[..n]
  }

  /** The ranking of a list of keys: tally, sort, cut to `n`. */
  function Rank(keys: seq<string>, n: nat): (r: seq<Entry>)
    ensures |r| <= n && SortedDesc(r)
  {
    Take(SortDesc(Tally(keys)), n)
  }

  /** The ranking is characterised without the algorithm: it is the first `n`
      entries of the unique list, sorted by count, that holds each distinct key
      once with its number of occurrences and lists equal counts in order of
      first occurrence. */
  lemma RankSpec(keys: seq<string>, n: nat, sorted: seq<Entry>)
    requires SortedDesc(sorted)
    requires forall k :: WithCount(sorted, k) == WithCount(Tally(keys), k)
    ensures Rank(keys, n) == Take(sorted, n)
    ensures forall i | 0 <= i < |Rank(keys, n)| ::
              Rank(keys, n)[i].count == Occurrences(keys, Rank(keys, n)[i].id) >= 1
  {
    SortedUnique(SortDesc(Tally(keys)), sorted);
    var t := Tally(keys);
    var r := Rank(keys, n);
    forall i | 0 <= i < |r| ensures r[i].count == Occurrences(keys, r[i].id) >= 1 {
      var s := SortDesc(t);
      assert r[i] == s[i];
      assert s[i] in multiset(t);
      var m :| 0 <= m < |t| && t[m] == s[i];
      CountOfEntry(t, m);
    }
  }
}

=== FILE: records.dfy ===
/** The "Discord Members" Airtable table as the bot reads and writes it: an
    ordered list of rows, looked up by `{Discord User ID}='…'` or
    `{Invite Code}='…'` with `maxRecords: 1` (the first matching row), and
    written through `upsertMember`. A missing cell is the empty string. */
module Records {
  import opened Wrappers
  import opened JsText

  datatype Member = Member(
    recordId: string,
    discordId: string,
    username: string,
    inviteCode: string,
    inviteUrl: string,
    inviteCreatedAt: Option<int>,
    joinedAt: Option<int>,
    invitedBy: string,        // "Invited By Discord User ID"
    inviteCodeUsed: string,   // "Invite Code Used"
    lastEarningsDm: string    // "Last Earnings DM Month"
  )

  /** The first row whose Discord User ID cell equals `id`. */
  function FindByDiscordId(table: seq<Member>, id: string): (r: Option<nat>)
    ensures r.Some? ==> r.value < |table| && table[r.value].discordId == id
    ensures r.Some? ==> forall j | 0 <= j < r.value :: table[j].discordId != id
    ensures r.None? ==> forall j | 0 <= j < |table| :: table[j].discordId != id
  {
    if |table| == 0 then None
    else if table[0].discordId == id then Some(0)
    else match FindByDiscordId(table[1..], id)
      case None => None
      case Some(i) => Some(i + 1)
  }

  /** The first row whose Invite Code cell equals `code`. */
  function FindByInviteCode(table: seq<Member>, code: string): (r: Option<nat>)
    ensures r.Some? ==> r.value < |table| && table[r.value].inviteCode == code
    ensures r.Some? ==> forall j | 0 <= j < r.value :: table[j].inviteCode != code
    ensures r.None? ==> forall j | 0 <= j < |table| :: table[j].inviteCode != code
  {
    if |table| == 0 then None
    else if table[0].inviteCode == code then Some(0)
    else match FindByInviteCode(table[1..], code)
      case None => None
      case Some(i) => Some(i + 1)
  }

  /** The extra cells an `upsertMember` call writes besides the ID and username. */
  datatype Patch =
    | JoinedAt(at: int)
    | PersonalInvite(code: string, url: string, createdAt: int)

  function ApplyPatch(m: Member, p: Patch): Member {
    match p
    case JoinedAt(t) => m.(joinedAt := Some(t))
    case PersonalInvite(c, u, t) => m.(inviteCode := c, inviteUrl := u, inviteCreatedAt := Some(t))
  }

  function NewMember(recordId: string, id: string): Member {
    Member(recordId, id, "", "", "", None, None, "", "", "")
  }

  /** `upsertMember(discordId, username, fields)`: the trimmed ID is looked up;
      the first matching row is updated with the username and the patch, or a
      new row (with the store-chosen `newRecordId`) is appended. */
  function Upsert(table: seq<Member>, discordId: string, username: string, p: Patch, newRecordId: string)
    : (r: seq<Member>)
    ensures var id := NormId(discordId);
            match FindByDiscordId(table, id)
            case Some(i) =>
              && |r| == |table|
              && r[i] == ApplyPatch(table[i].(username := username), p)
              && (forall j | 0 <= j < |table| && j != i :: r[j] == table[j])
            case None =>
              r == table + [ApplyPatch(NewMember(newRecordId, id).(username := username), p)]
  {
    var id := NormId(discordId);
    match FindByDiscordId(table, id)
    case Some(i) => table[i := ApplyPatch(table[i].(username := username), p)]
    case None => Create(table, discordId, username, p, newRecordId)
  }

  /** The create branch of `upsertMember`, which is also what the call does when
      its own lookup failed (`.catch(() => [])` reads as "no row"): a new row with
      the trimmed ID is appended whether or not the member already has one. */
  function Create(table: seq<Member>, discordId: string, username: string, p: Patch, newRecordId: string)
    : (r: seq<Member>)
    ensures |r| == |table| + 1 && r[..|table|] == table
    ensures r[|table|].discordId == NormId(discordId) && r[|table|].username == username
    ensures r[|table|].invitedBy == "" && r[|table|].inviteCodeUsed == ""
  {
    table + [ApplyPatch(NewMember(newRecordId, NormId(discordId)).(username := username), p)]
  }

  /** After an upsert the member is found by its trimmed ID: at the row it already
      had, or at the appended row. */
  lemma UpsertThenFind(table: seq<Member>, discordId: string, username: string, p: Patch, newRecordId: string)
    ensures FindByDiscordId(Upsert(table, discordId, username, p, newRecordId), NormId(discordId))
            == Some(FindByDiscordId(table, NormId(discordId)).GetOr(|table|))
  {
    var id := NormId(discordId);
    var r := Upsert(table, discordId, username, p, newRecordId);
    match FindByDiscordId(table, id)
    case Some(i) => FoundAtSameRow(table, r, id, i);
    case None => FoundAtEnd(table, r, id);
  }

  lemma FoundAtSameRow(table: seq<Member>, r: seq<Member>, id: string, i: nat)
    requires FindByDiscordId(table, id) == Some(i)
    requires |r| == |table| && r[i].discordId == id
    requires forall j | 0 <= j < |table| && j != i :: r[j] == table[j]
    ensures FindByDiscordId(r, id) == Some(i)
  {
    FindFirstAt(r, id, i);
  }

  lemma FoundAtEnd(table: seq<Member>, r: seq<Member>, id: string)
    requires FindByDiscordId(table, id).None?
    requires |r| == |table| + 1 && r[..|table|] == table && r[|table|].discordId == id
    ensures FindByDiscordId(r, id) == Some(|table|)
  {
    assert forall j | 0 <= j < |table| :: r[j] == table[j];
    FindFirstAt(r, id, |table|);
  }

  /** A row is the one found by ID when it matches and no earlier row does. */
  lemma {:induction false} FindFirstAt(table: seq<Member>, id: string, i: nat)
    requires i < |table| && table[i].discordId == id
    requires forall j | 0 <= j < i :: table[j].discordId != id
    ensures FindByDiscordId(table, id) == Some(i)
  {
    if i > 0 {
      FindFirstAt(table[1..], id, i - 1);
    }
  }

  /** Lookups by ID only read the ID cells: two tables with the same IDs row by
      row find the same row. */
  lemma {:induction false} FindSameIds(a: seq<Member>, b: seq<Member>, id: string)
    requires |a| == |b|
    requires forall i | 0 <= i < |a| :: a[i].discordId == b[i].discordId
    ensures FindByDiscordId(a, id) == FindByDiscordId(b, id)
  {
    if a != [] {
      FindSameIds(a[1..], b[1..], id);
    }
  }
}

=== FILE: tickets.dfy ===
/** The deal-ticket side of index.js: `fetchUpTo`, which pages back through a
    channel's history, and the picture counter of the message handler, which
    asks for six pictures and then sends the admin's confirm prompt once. */
module Tickets {

  // ---------------------------------------------------------------------------
  // fetchUpTo

  /** A channel message as `fetchUpTo` sees it: only its ID matters. */
  datatype Message = Message(id: string)

  /** `channel.messages.fetch({ limit, before })` on a history listed newest first:
      the (at most `limit`) messages following position `from`, which is just
      past the message named by `before`. */
  function FetchPage(history: seq<Message>, from: nat, limit: nat): (r: seq<Message>)
    requires from <= |history|
    ensures |r| <= limit
    ensures from + |r| <= |history| && r == history[from..from + |r|]
    ensures |r| < limit ==> from + |r| == |history|
  {
    if from + limit <= |history| then history[from..from + limit] else history[from..]
  }

  predicate AllIdsSet(history: seq<Message>) {
    forall i | 0 <= i < |history| :: history[i].id != ""
  }

  /** `fetchUpTo(channel, max)`: pages of at most 100 newest-first messages until
      `max` are collected, a page comes back empty, or the oldest message of a
      page has no ID. The result is the newest part of the history; with IDs on
      every message it is exactly the newest `max` messages (or all of them).
      Every page request asks for between 1 and 100 messages, never more than
      are still missing. */
  method FetchUpTo(history: seq<Message>, max: int) returns (collected: seq<Message>, limits: seq<nat>)
    ensures |collected| <= |history| && collected == history[..|collected|]
    ensures |collected| <= (if max < 0 then 0 else max)
    ensures AllIdsSet(history) ==>
              |collected| == (if max < 0 then 0 else if max < |history| then max else |history|)
    ensures forall i | 0 <= i < |limits| :: 1 <= limits[i] <= 100
  {
    collected := [];
    limits := [];
    while |collected| < max
      invariant |collected| <= |history| && collected == history[..|collected|]
      invariant |collected| <= (if max < 0 then 0 else max)
      invariant forall i | 0 <= i < |limits| :: 1 <= limits[i] <= 100
      decreases max - |collected|
    {
      var limit := if max - |collected| < 100 then max - |collected| else 100;
      limits := limits + [limit];
      var page := FetchPage(history, |collected|, limit);
      if page == [] {
        break;
      }
      collected := collected + page;
      if page[|page| - 1].id == "" {
        assert page[|page| - 1] == history[|collected| - 1];
        break;
      }
    }
  }

  // ---------------------------------------------------------------------------
  // picture counter

  /** An attachment: its content type (empty when unknown) and its URL. */
  datatype Attachment = Attachment(contentType: string, url: string)

  /** A message posted in a deal ticket channel. */
  datatype Post = Post(fromBot: bool, attachments: seq<Attachment>)

  /** What the handler keeps per ticket channel: the picture URLs collected so
      far and whether the confirm prompt went out. */
  datatype Ticket = Ticket(uploads: seq<string>, confirmSent: bool)

  /** The messages the handler sends: the `n/6` progress line or the prompt with
      the Confirm Deal button. */
  datatype Notice = Progress(count: nat) | ConfirmPrompt

  const RequiredPictures: nat := 6

  predicate IsImage(a: Attachment) {
    |a.contentType| >= 6 && a.contentType[..6] == "image/"
  }

  /** The URLs of the image attachments, in order
      (`filter(att => att.contentType?.startsWith('image/')).map(att => att.url)`). */
  function ImageUrls(atts: seq<Attachment>): (r: seq<string>)
    ensures |r| <= |atts|
  {
    if atts == [] then []
    else (if IsImage(atts[0]) then [atts[0].url] else []) + ImageUrls(atts[1..])
  }

  /** A message whose attachments are all images contributes all their URLs, in
      order; one without images contributes none. */
  lemma {:induction false} ImageUrlsAllOrNone(atts: seq<Attachment>)
    ensures (forall i | 0 <= i < |atts| :: !IsImage(atts[i])) ==> ImageUrls(atts) == []
    ensures (forall i | 0 <= i < |atts| :: IsImage(atts[i])) ==>
              |ImageUrls(atts)| == |atts| && forall i | 0 <= i < |atts| :: ImageUrls(atts)[i] == atts[i].url
  {
    if atts != [] {
      ImageUrlsAllOrNone(atts[1..]);
      var rest := ImageUrls(atts[1..]);
      assert forall i | 1 <= i < |atts| :: atts[1..][i - 1] == atts[i];
      if forall i | 0 <= i < |atts| :: IsImage(atts[i]) {
        assert ImageUrls(atts) == [atts[0].url] + rest;
      }
    }
  }

  /** The filter works attachment by attachment: on a message made of two lists
      it keeps the first list's image URLs, then the second's. With
      `ImageUrlsOfOne` this determines the result, order included. */
  lemma {:induction false} ImageUrlsAppend(a: seq<Attachment>, b: seq<Attachment>)
    ensures ImageUrls(a + b) == ImageUrls(a) + ImageUrls(b)
  {
    if a != [] {
      var head := if IsImage(a[0]) then [a[0].url] else [];
      assert (a + b)[0] == a[0] && (a + b)[1..] == a[1..] + b;
      assert ImageUrls(a + b) == head + ImageUrls(a[1..] + b);
      assert ImageUrls(a) == head + ImageUrls(a[1..]);
      ImageUrlsAppend(a[1..], b);
    } else {
      assert a + b == b;
    }
  }

  /** A single attachment contributes its URL exactly when it is an image. */
  lemma ImageUrlsOfOne(a: Attachment)
    ensures ImageUrls([a]) == if IsImage(a) then [a.url] else []
  {
    assert [a][1..] == [];
  }

  /** The handler for one message with attachments: image URLs are added to the
      ticket; a person below six pictures gets the progress line; at six or more
      the confirm prompt is sent unless it already was. A message without
      attachments leaves the counter alone. */
  function OnPost(t: Ticket, p: Post): (r: (Ticket, seq<Notice>))
    ensures r.0.uploads == t.uploads + (if p.attachments == [] then [] else ImageUrls(p.attachments))
    ensures r.0.confirmSent <==> t.confirmSent || (p.attachments != [] && |r.0.uploads| >= RequiredPictures)
    ensures ConfirmPrompt in r.1 <==> !t.confirmSent && r.0.confirmSent
    ensures Progress(|r.0.uploads|) in r.1 <==>
              p.attachments != [] && !p.fromBot && |r.0.uploads| < RequiredPictures
    ensures forall i | 0 <= i < |r.1| && r.1[i].Progress? :: r.1[i] == Progress(|r.0.uploads|)
    ensures |r.1| <= 1
  {
    if p.attachments == [] then (t, [])
    else
      var uploads := t.uploads + ImageUrls(p.attachments);
      var n := |uploads|;
      var progress := if !p.fromBot && n < RequiredPictures then [Progress(n)] else [];
      if n >= RequiredPictures && !t.confirmSent then (Ticket(uploads, true), progress + [ConfirmPrompt])
      else (Ticket(uploads, t.confirmSent), progress)
  }

  /** The handler run over the posts of a ticket, in order. */
  function Run(t: Ticket, posts: seq<Post>): (r: (Ticket, seq<Notice>))
    decreases |posts|
  {
    if posts == [] then (t, [])
    else
      var init := Run(t, posts[..|posts| - 1]);
      var last := OnPost(init.0, posts[|posts| - 1]);
      (last.0, init.1 + last.1)
  }

  /** The image URLs of the posts, post after post. */
  function PostedImageUrls(posts: seq<Post>): seq<string> {
    if posts == [] then [] else PostedImageUrls(posts[..|posts| - 1]) + ImageUrls(posts[|posts| - 1].attachments)
  }

  /** The number of image attachments over the posts. */
  function ImageCount(posts: seq<Post>): nat {
    |PostedImageUrls(posts)|
  }

  function Prompts(ns: seq<Notice>): nat {
    if ns == [] then 0 else Prompts(ns[..|ns| - 1]) + (if ns[|ns| - 1] == ConfirmPrompt then 1 else 0)
  }

  lemma PromptsAppend(a: seq<Notice>, b: seq<Notice>)
    ensures Prompts(a + b) == Prompts(a) + Prompts(b)
    decreases |b|
  {
    if b != [] {
      assert (a + b)[..|a + b| - 1] == a + b[..|b| - 1];
      PromptsAppend(a, b[..|b| - 1]);
    } else {
      assert a + b == a;
    }
  }

  lemma PromptsOfStep(ns: seq<Notice>)
    requires |ns| <= 1
    ensures Prompts(ns) == if ConfirmPrompt in ns then 1 else 0
  {
    if ns != [] {
      assert ns[..0] == [];
    }
  }

  /** Over any sequence of posts the counter holds every image URL posted, in
      the order posted, after those it already had; the prompt is counted once
      if it went out during the run; and it is never sent again after it was
      sent. */
  lemma {:induction false} RunSpec(t: Ticket, posts: seq<Post>)
    ensures Run(t, posts).0.uploads == t.uploads + PostedImageUrls(posts)
    ensures Prompts(Run(t, posts).1) == (if !t.confirmSent && Run(t, posts).0.confirmSent then 1 else 0)
    ensures t.confirmSent ==> Run(t, posts).0.confirmSent
    decreases |posts|
  {
    if posts != [] {
      var init := Run(t, posts[..|posts| - 1]);
      RunSpec(t, posts[..|posts| - 1]);
      var p := posts[|posts| - 1];
      var last := OnPost(init.0, p);
      PromptsAppend(init.1, last.1);
      PromptsOfStep(last.1);
      if p.attachments == [] {
        assert ImageUrls(p.attachments) == [];
      }
    }
  }

  /** From a fresh ticket, the prompt goes out exactly when six pictures have
      come in (a post that carries a picture is always one with attachments). */
  lemma {:induction false} PromptOnceSixPictures(posts: seq<Post>)
    ensures var r := Run(Ticket([], false), posts);
            && (r.0.confirmSent <==> ImageCount(posts) >= RequiredPictures)
            && Prompts(r.1) <= 1
    decreases |posts|
  {
    RunSpec(Ticket([], false), posts);
    if posts != [] {
      var init := posts[..|posts| - 1];
      PromptOnceSixPictures(init);
      RunSpec(Ticket([], false), init);
      var p := posts[|posts| - 1];
      if p.attachments == [] {
        assert ImageUrls(p.attachments) == [];
      }
    }
  }
}

=== FILE: wrappers.dfy ===
/** The optional-value datatype used throughout the model: JavaScript's
    `null`/`undefined` for a value that may be missing. */
module Wrappers {

  datatype Option<+T> = None | Some(value: T) {

    /** The wrapped value, or `default` when there is none (JavaScript's `v ?? default`). */
    function GetOr(default: T): T {
      match this
      case Some(v) => v
      case None => default
    }
  }
}
